=== FILE: README.md ===
# Nepal corruption directory: a verified model of its data-shaping core

This project models, in Dafny, the deterministic logic of the Nepal
corruption directory. The project has five parts.

- **The two CIAA listing scrapers.** The historical scraper and the current
  scraper share one row model, parameterised by a `Flavour`. The model
  builds the page URL and turns each table row into a case record: the
  column mapping depends on how many cells the row has, links are made
  absolute, a date-shaped substring is picked out, an id is derived, and
  a record is emitted only when it has a title or an accused. It also
  covers the next-page test, the page walk bounded by `maxPages`, and the
  counters of both coordinators.
- **The analysis script.** This covers Devanagari digit conversion, the
  `रू.` amount-token scan, separator stripping, the per-category and
  per-accusation counters, the top-ten amount list, the date range and
  the detail-link count.
- **The importer.** This covers the category→status table, location
  inference, the sentinel-to-null field rules, and the import loop with
  its counters. The loop runs against an abstract set of findable
  `detailUrl`s. It is modelled twice. `ImportCasesAsWritten` is the loop as
  it behaves with the `Case` schema, which drops `detailUrl` from every
  created case, so repeated URLs are created again. `ImportCases` is the
  intended loop, which skips a URL already stored or created earlier in
  the run (see "## Findings").
- **The Kathmandu Post discovery scraper.** This covers the archive URLs
  and month walk, the keyword link filter, order-preserving
  de-duplication, paragraph selection, case-type classification and the
  bounded extraction of distinct accused names.
- **The public API route.** For `GET /cases` this covers `parseInt`
  defaults, the skip arithmetic, the choice between the join path and the
  simple path, the year window, the OR-combined person conditions, and
  sorting, windowing and the page count. For `GET /cases/:id` it covers
  the published-only lookup and the grouping of linked persons by role.

The schema enumerations of the Mongoose models are datatypes in
`Catalogue`.

Fetching and HTML parsing are replaced by oracles (`Fetch`, `FetchLinks`,
`FetchArticle`) that return already-parsed pages. A parsed page is a list
of rows of cells, each cell holding its trimmed text and its anchors. The
database is a `Store`: plain sequences of cases, case–person links,
persons and sources in stored order. Mongo's regular-expression and
`$text` matching are the two predicates of an `Engine` parameter.

Modules: `Common` (Option/Result), `Text` (JavaScript string primitives),
`Tally` (keyed counters in insertion order), `Sorting` (stable descending
sort, top-N), `Seqs` (order-preserving dedup, flattening, counting),
`Catalogue`, `Listing`, `Crawl`, `Analysis`, `Importer`, `NewsDiscovery`,
`PublicApi`.

Where the code and its description disagree, the model follows the code:

- The historical scraper's replacement of `/` by `/` in dates is the
  identity. Dates keep their separators verbatim, mixed ones included.
- The analysis script deletes the danda `।` before parsing; it does not
  read it as a decimal point. So `रू.१,२५,६६,५५५।५०` gives 1256655550.
- The current scraper's next-page glyph is the two-character mojibake
  `Â»`. A bare `»` in the last pagination anchor does not count there;
  in the historical scraper it does.
- The next-page glyph test is a substring test, not an equality.

## Model

| member | source | states |
|---|---|---|
| Catalogue.ParseRole | src/models/CasePerson.js:15-22 | a string maps to a role only if that role's stored name is exactly the string |
| Catalogue.ParseRoleName | src/models/CasePerson.js:15-22 | every role round-trips through its stored name |
| Catalogue.LookupCategory | scripts/scrape-ciaa.js:17-38 | a key finds the table entry with that key, and finds nothing exactly when no entry has it |
| Catalogue.CategoryLabelsDistinct | scripts/scrape-ciaa.js:17-38 | keys, names and type labels each identify a category uniquely; keys contain no `_` or `/` |
| Catalogue.FiscalYearsWellFormed | scripts/scrape-ciaa-historical.js:30-42 | the fiscal-year table has 11 entries with pairwise distinct, digit-only, id-safe values and distinct labels |
| Listing.PageUrl | scripts/scrape-ciaa-historical.js:52-56 | a fiscal year always gives `?fiscal_year=V&page=P`, even for page 1; without one, a page after the first gives `?page=P` and page 1 the bare base, which the URL is exactly then |
| Listing.PageUrlInjective | scripts/scrape-ciaa.js:48 | distinct pages of one category and fiscal year have distinct URLs |
| Listing.Absolutise | scripts/scrape-ciaa-historical.js:97-99 | a link always ends up starting with `http` and still ends with the original href |
| Listing.AbsolutiseIdempotent | scripts/scrape-ciaa-historical.js:97-99 | making an absolute link absolute again changes nothing |
| Listing.DetailHref | scripts/scrape-ciaa-historical.js:80 | the detail link is the first anchor's href when it is present and non-empty, and absent otherwise |
| Listing.DocumentLinksSound | scripts/scrape-ciaa.js:104-108 | every download link is absolute and ends in `.pdf`, `.docx` or `.doc` |
| Listing.DocumentLinksComplete | scripts/scrape-ciaa.js:104-108 | there is one download link per document anchor of the row, and each document anchor's absolutised href is among them |
| Listing.FindDateFrom | scripts/scrape-ciaa-historical.js:101 | the leftmost date-shaped position at or after a start, or none when no position has that shape |
| Listing.ExtractDate | scripts/scrape-ciaa-historical.js:101-102 | the date is the leftmost 10-character date-shaped substring of the cell text, or the whole text when none exists |
| Listing.CurrentDatesUseHyphens | scripts/scrape-ciaa.js:100-101 | a date found by the current scraper has hyphens in both separator positions |
| Listing.HistoricalFindsNoLater | scripts/scrape-ciaa-historical.js:101 | whenever the hyphen-only pattern matches, the historical pattern also matches, no later in the text |
| Listing.MixedSeparatorDate | scripts/scrape-ciaa-historical.js:101-102 | `2080/04-15` is accepted verbatim by the historical pattern and rejected by the hyphen-only one |
| Listing.FallbackIdInjective | scripts/scrape-ciaa-historical.js:104 | equal fallback ids come from the same category, fiscal-year slot, page and row index |
| Listing.RecordId | scripts/scrape-ciaa.js:111 | with a detail link the id is what follows its last `/` (all of it when it has none); without one it is the fallback id |
| Listing.BuildRecordSpec | scripts/scrape-ciaa-historical.js:76-121 | title, accused and office come from cells 1–3; accusation and amount come from cells 4–5 only when there are at least 6 cells, and are empty otherwise; also the detail link, date, id, category labels, fiscal-year fields and source URL of the record |
| Listing.ExtractRowSpec | scripts/scrape-ciaa-historical.js:71-129 | a row yields a record exactly when it parsed, has at least 4 cells, and has a title or an accused; a row whose processing throws yields nothing |
| Listing.ExtractRowsInvariant | scripts/scrape-ciaa-historical.js:123-125 | every record of a page has a title or an accused and names that page's URL |
| Listing.ExtractRowsSplit | scripts/scrape-ciaa-historical.js:71-130 | a row's index counts every row before it, emitted or not, and a failing row does not stop later rows |
| Listing.HasNextPage | scripts/scrape-ciaa.js:139-141 | there is a next page exactly when some anchor has `rel="next"`, or the last anchor's text contains `Next` or the flavour's glyph |
| Listing.BareGuillemet | scripts/scrape-ciaa.js:139-141 | a bare `»` counts as a next-page marker for the historical scraper but not for the current one |
| Listing.ScrapePage | scripts/scrape-ciaa-historical.js:142-148 | a failed fetch gives no cases and no next page; a fetched page gives the records of its rows and its own next-page test; every emitted case names the page URL and has a title or an accused |
| Crawl.WalkShape | scripts/scrape-ciaa-historical.js:154-174 | pages are fetched consecutively from the start and never past `maxPages`; every fetched page but the last had a next page and some cases; the walk stops at a page without a next page, without cases, or at `maxPages` |
| Crawl.WalkIsConcatenation | scripts/scrape-ciaa-historical.js:159-173 | the collected cases are the fetched pages' cases concatenated in page order |
| Crawl.SinglePageWhenNoNext | scripts/scrape-ciaa.js:169-181 | when page 1 reports no next page, only page 1 is fetched |
| Crawl.WalkPages | scripts/scrape-ciaa.js:160-185 | the loop computes exactly the recursive walk, fetching at most `maxPages` pages |
| Crawl.Record | scripts/scrape-ciaa-historical.js:210-215 | recording a walk appends its cases and adds its size to that year's counter and that category's counter, leaving every other counter alone and keeping both counter totals equal to the case count |
| Crawl.ScrapeAllHistorical | scripts/scrape-ciaa-historical.js:179-253 | the run fails exactly when some requested key is not in the table; otherwise its cases are every (category, fiscal year) walk's cases, category-major and year-minor, and each year's and each category's counter is the number of cases its walks collected, so both sum to the number of cases |
| Crawl.HistoricalCategories | scripts/scrape-ciaa-historical.js:197-223 | an unknown key anywhere fails the run; otherwise the walks of the keys' categories over every fiscal year are appended in key-then-year order, and each year's and category's counter grows by the cases its walks collected |
| Crawl.HistoricalYears | scripts/scrape-ciaa-historical.js:202-216 | one category's walks over the fiscal years are appended in year order, and each year label's counter and the category's counter grow by the cases those walks collected |
| Crawl.PiecesAppend | scripts/scrape-ciaa-historical.js:209-214 | the records and the per-year and per-category totals of two runs of walks are the first run's followed by, or added to, the second's |
| Crawl.CurrentCategories | scripts/scrape-ciaa.js:204-215 | the run's cases are the walks' cases, and its fetched URLs the walks' page URLs, of the known keys' categories in key order; every fetched URL belongs to a category in the table |
| Crawl.KnownKeys | scripts/scrape-ciaa.js:205-208 | the kept keys are exactly the requested keys found in the table |
| Crawl.UnknownKeysSkipped | scripts/scrape-ciaa.js:205-208 | a run over the requested keys equals a run over only the known ones, so an unknown key causes no fetch |
| Crawl.DefaultHistoricalRunSucceeds | scripts/scrape-ciaa-historical.js:179-186 | a historical run over the default keys `charge`, `sting`, `appeal` never fails on an unknown key |
| Crawl.DefaultCurrentKeysKnown | scripts/scrape-ciaa.js:190-208 | every default key of a current run names a category, so none is skipped |
| Crawl.CountWithAmounts | scripts/scrape-ciaa.js:234 | the count is all cases exactly when every amount is non-blank, and zero exactly when none is |
| Crawl.CountWithAmountsAppend | scripts/scrape-ciaa.js:234 | the count over two runs of cases is the sum of their counts, so `filter(...).length` counts case by case |
| Crawl.CountWithAmountsSingle | scripts/scrape-ciaa.js:234 | one case counts 1 exactly when its amount is non-blank after trimming, else 0 |
| Crawl.Summarise | scripts/scrape-ciaa.js:217-235 | per-category counts equal each category's multiplicity and sum to the total; the amount count is the number of cases with a non-blank amount |
| Analysis.DigitTables | scripts/analyze-ciaa-cases.js:45-46 | the two digit tables agree by position: Devanagari digit `j` is U+0966+j and ASCII digit `j` is '0'+j |
| Analysis.ReplaceChar | scripts/analyze-ciaa-cases.js:51 | one pass changes exactly the occurrences of its digit and keeps the length |
| Analysis.ConvertPassesPointwise | scripts/analyze-ciaa-cases.js:48-54 | after `k` passes exactly the Devanagari digits below `k` are converted |
| Analysis.ConvertNepaliToEnglishSpec | scripts/analyze-ciaa-cases.js:48-54 | conversion maps each Devanagari digit to its ASCII digit and keeps every other character, so the length is kept; the output has no Devanagari digits and converting twice equals converting once |
| Analysis.MatchAtIsLongestToken | scripts/analyze-ciaa-cases.js:59 | a match at a position is a token of the amount pattern and no longer token starts there; no match means no token starts there |
| Analysis.ScanSound | scripts/analyze-ciaa-cases.js:59-61 | every reported match is the match the pattern finds at its start, at or after where the scan began |
| Analysis.ScanOrdered | scripts/analyze-ciaa-cases.js:59-61 | the reported matches come left to right without overlapping: each later one starts at or after an earlier one's end |
| Analysis.ScanFindsEveryMatch | scripts/analyze-ciaa-cases.js:61-77 | every position where a match starts is reported, not only the first match |
| Analysis.StripSeparatorsSpec | scripts/analyze-ciaa-cases.js:66 | stripping removes exactly the commas and dandas |
| Analysis.ParseDecimal | scripts/analyze-ciaa-cases.js:66 | parsing fails exactly when the text does not start with a digit or with `.` followed by a digit; a parsed value is never negative |
| Analysis.ParseDecimalPrefix | scripts/analyze-ciaa-cases.js:66 | digits, a full stop and digits followed by anything that does not start with a digit read as whole part plus fraction ÷ 10^(fraction length); the rest is ignored |
| Analysis.ParseDecimalWhole | scripts/analyze-ciaa-cases.js:66 | digits followed by anything that starts with neither a digit nor a full stop read as their own value |
| Analysis.ParseDecimalOfNat | scripts/analyze-ciaa-cases.js:66 | the decimal rendering of a natural number parses back to that number |
| Analysis.AmountOf | scripts/analyze-ciaa-cases.js:64-68 | an amount is kept exactly when the captured text, with digits converted and separators deleted, parses to a positive number, and it is that number |
| Analysis.SeparatorIgnored | scripts/analyze-ciaa-cases.js:66 | inserting a comma or danda anywhere does not change the amount, so the danda is not a decimal point |
| Analysis.DigitAmount | scripts/analyze-ciaa-cases.js:64-68 | a pure digit token (ASCII or Devanagari) gives the value of its converted digits, and is dropped when that value is 0 |
| Analysis.DandaExample | scripts/analyze-ciaa-cases.js:65-66 | `१।५` reads as 15, not 1.5 |
| Analysis.TitlePreview | scripts/analyze-ciaa-cases.js:74 | the preview is the title's first 100 characters (all of it when shorter) followed by `...` |
| Analysis.ObservationAt | scripts/analyze-ciaa-cases.js:64-74 | one match yields an observation exactly when its amount reads as a positive number; that observation carries the match's text, the amount read and its case's id and category |
| Analysis.ObservationsOf | scripts/analyze-ciaa-cases.js:61-76 | there is one observation per match whose amount parses positive; each carries a positive amount and its case's id and category |
| Analysis.ObservationSource | scripts/analyze-ciaa-cases.js:64-74 | each observation comes from some match: it carries that match's text and the amount read from it |
| Analysis.AllObservations | scripts/analyze-ciaa-cases.js:56-78 | every observation has a positive amount and comes from one of the cases |
| Analysis.AllObservationsAppend | scripts/analyze-ciaa-cases.js:56-78 | the observations of two runs of cases are those of the first run followed by those of the second, so the order follows the cases |
| Analysis.AllObservationsIsFlatMap | scripts/analyze-ciaa-cases.js:56-78 | the observations are the observations of each case's title, concatenated in case order |
| Analysis.AllObservationsMembers | scripts/analyze-ciaa-cases.js:56-78 | an observation is listed exactly when it is an observation of some case's title |
| Analysis.TopAmounts | scripts/analyze-ciaa-cases.js:95-97 | at most ten observations, by descending amount, drawn from all observations; no observation left out is larger than one listed |
| Analysis.TopAmountsTies | scripts/analyze-ciaa-cases.js:95-97 | among observations with equal amounts, the listed ones are the earliest ones in case order |
| Analysis.ByCategory | scripts/analyze-ciaa-cases.js:17-26 | one counter per distinct category, in order of first appearance, each equal to that category's multiplicity, summing to the case count |
| Analysis.ByAccusation | scripts/analyze-ciaa-cases.js:30-34 | one counter per distinct accusation key, in order of first appearance, each equal to that key's multiplicity, summing to the case count |
| Analysis.EmptyAccusationCounted | scripts/analyze-ciaa-cases.js:32 | a case with an empty accusation is counted under `Not specified` |
| Analysis.RankedAccusations | scripts/analyze-ciaa-cases.js:36-40 | the printed counters are a permutation of the counters, largest count first |
| Analysis.RankedAccusationsStable | scripts/analyze-ciaa-cases.js:36-40 | accusations with equal counts keep the order in which they were first met |
| Analysis.DateRange | scripts/analyze-ciaa-cases.js:106-110 | there is no range exactly when every date is empty; otherwise earliest and latest are non-empty dates of some case, and they are the lexicographic minimum and maximum of all non-empty dates |
| Analysis.WithDetails | scripts/analyze-ciaa-cases.js:113 | the count is all cases exactly when every case has a detail link, and zero exactly when none does |
| Analysis.WithDetailsAppend | scripts/analyze-ciaa-cases.js:113 | the count over two runs of cases is the sum of their counts |
| Analysis.WithDetailsSingle | scripts/analyze-ciaa-cases.js:113 | one case counts 1 exactly when its detail link is truthy, else 0 |
| Importer.MapCategoryToStatus | scripts/import-ciaa-cases.js:23-30 | `Charge Sheet`, `Sting Operation` and `Appeal` map to CASE_FILED, UNDER_INVESTIGATION and ON_TRIAL; every other category maps to ALLEGED |
| Importer.StatusOfCategories | scripts/import-ciaa-cases.js:23-30 | each scraper category name maps to its intended status |
| Importer.ExtractLocation | scripts/import-ciaa-cases.js:35-46 | the result is `Nepal` or one of the seven cities; empty, `-` and `N/A` give `Nepal`; otherwise it is the first listed city occurring in the office, or `Nepal` when none occurs |
| Importer.NullUnless | scripts/import-ciaa-cases.js:134 | a field becomes null exactly when it is empty or equals its sentinel, and keeps its value otherwise |
| Importer.Transform | scripts/import-ciaa-cases.js:128-148 | title and summary fall back to `Untitled` and `No summary available`; amount, accused, office and accusation are null exactly on empty or sentinel values; visibility is PUBLISHED, the data source is CIAA and the institution is `CIAA - `+category |
| Importer.ImportOne | scripts/import-ciaa-cases.js:117-161 | each record bumps exactly one counter; it is skipped exactly when its detail URL is truthy and already stored, and then nothing is created; otherwise its transformed document is created and counted as imported when creation succeeds, and counted as an error with nothing created when it fails; a created record's URL joins the store (the intended behaviour, see "## Findings") |
| Importer.ImportOneConsistent | scripts/import-ciaa-cases.js:119-150 | in the intended store, one iteration keeps the store equal to the initial URLs plus those created, and creates no duplicate detail URL |
| Importer.ImportFromConsistent | scripts/import-ciaa-cases.js:114-162 | in the intended store, the whole loop keeps that invariant, so records inserted earlier in the run also count as stored |
| Importer.SkipsNeedUrls | scripts/import-ciaa-cases.js:119-125 | only records with a detail URL can be skipped |
| Importer.ImportCases | scripts/import-ciaa-cases.js:110-162 | imported + skipped + errors equals the number of records; the created documents are, in file order, the transforms of the records not already stored whose creation succeeds, and the skips are the records already stored; no created case repeats a stored or earlier created detail URL; skips are bounded by the records that have a URL |
| Importer.ImportFromIsNewDocs | scripts/import-ciaa-cases.js:114-162 | the loop creates exactly the documents of the record-by-record definition, where a record is already stored when its truthy URL was stored at the start or belongs to an earlier accepted record, and skips exactly those records |
| Importer.NewDocsUrls | scripts/import-ciaa-cases.js:119-150 | in the intended store, a URL not stored at the start ends up stored exactly when some record carrying it was accepted |
| Importer.ImportOneAsWritten | scripts/import-ciaa-cases.js:117-161 | with the `Case` schema, one iteration is the intended step except that the findable URLs stay as they were |
| Importer.ImportFromAsWrittenIsFreshDocs | scripts/import-ciaa-cases.js:114-162 | with the `Case` schema, the loop creates, in file order, every accepted record whose URL was not findable at the start, and skips exactly the records whose URL was |
| Importer.ImportCasesAsWritten | scripts/import-ciaa-cases.js:110-162 | with the `Case` schema, imported + skipped + errors equals the number of records, the findable URLs never change, and the created documents and skips are those of the previous row |
| Importer.DuplicateUrlCreatedTwice | scripts/import-ciaa-cases.js:119-150 | two accepted records sharing a URL not findable at the start are both created as written; the intended loop creates the first and skips the second |
| NewsDiscovery.MonthString | scripts/scrape-kathmandupost.js:28 | the month is rendered as decimal digits of its value, two characters wide below 100 |
| NewsDiscovery.ArchiveUrl | scripts/scrape-kathmandupost.js:29 | an archive URL starts with the site base and a `/` |
| NewsDiscovery.ArchiveUrlIsJoin | scripts/scrape-kathmandupost.js:29 | the archive URL is the base followed by category, year and padded month joined with `/` |
| NewsDiscovery.ArchiveUrlInjective | scripts/scrape-kathmandupost.js:28-29 | distinct (category, year, month) triples give distinct archive URLs |
| NewsDiscovery.MonthsDownMembers | scripts/scrape-kathmandupost.js:100 | the inner loop visits exactly the months 1..m of the year |
| NewsDiscovery.WalkYearsOrdered | scripts/scrape-kathmandupost.js:97-111 | the walk visits exactly the months of its window, in strictly descending order |
| NewsDiscovery.ArchiveWalkFacts | scripts/scrape-kathmandupost.js:92-101 | the archive walk visits 2026/01 and then every month of 2025, 2024 and 2023: 37 pages, strictly descending |
| NewsDiscovery.IsArticleHref | scripts/scrape-kathmandupost.js:61 | the scanner accepts exactly the hrefs of shape `/word/yyyy/mm/dd/…` |
| NewsDiscovery.AnyKeyword | scripts/scrape-kathmandupost.js:66-68 | some keyword occurs in the lowered text or lowered href |
| NewsDiscovery.AcceptsSpec | scripts/scrape-kathmandupost.js:55-81 | a link is kept exactly when the href has the article shape, no exclude keyword occurs, some case keyword occurs and the trimmed text is longer than 10; an exclude keyword always rejects |
| NewsDiscovery.CaseLinksMembers | scripts/scrape-kathmandupost.js:55-81 | a URL is reported exactly when it is the base plus the href of an accepted link |
| NewsDiscovery.CrawlMonthlyArchive | scripts/scrape-kathmandupost.js:27-84 | a failed fetch gives no URLs; every URL reported is on the site |
| NewsDiscovery.CrawlMonths | scripts/scrape-kathmandupost.js:97-117 | the archive URLs are pairwise distinct, are exactly those found in some visited month, and come in order of first occurrence over the months in visiting order |
| NewsDiscovery.MapOfKeys | scripts/scrape-kathmandupost.js:189 | the URL-keyed map keeps one entry per URL, in order of first occurrence |
| NewsDiscovery.MapOfUrlsDedup | scripts/scrape-kathmandupost.js:189-192 | the map's URLs are the order-preserving dedup of the items' URLs |
| NewsDiscovery.PageItemsUrls | scripts/scrape-kathmandupost.js:154-185 | a category page contributes exactly the URLs the link filter accepts, in order |
| NewsDiscovery.ScrapeCategoryPages | scripts/scrape-kathmandupost.js:147-192 | the category-page URLs are the dedup of all items' URLs over both categories |
| NewsDiscovery.FindCorruptionCases | scripts/scrape-kathmandupost.js:198-230 | the discovered URLs are pairwise distinct, are exactly those found by either method, and keep the first occurrence of each, archive URLs before category-page URLs |
| NewsDiscovery.LongTextsMembers | scripts/scrape-kathmandupost.js:253-258 | the kept paragraphs are exactly the trimmed texts longer than the threshold |
| NewsDiscovery.FirstYield | scripts/scrape-kathmandupost.js:252-260 | the paragraphs come from the first selector yielding any text over 20 characters, and are empty exactly when no selector yields one |
| NewsDiscovery.SelectParagraphs | scripts/scrape-kathmandupost.js:250-270 | every paragraph is over 20 characters; when no selector yields one, the paragraphs are all `p` texts over 50 characters |
| NewsDiscovery.CollectParagraphs | scripts/scrape-kathmandupost.js:247-270 | the selector loop with its early exit and fallback computes exactly the selected paragraphs |
| NewsDiscovery.Take | scripts/scrape-kathmandupost.js:310 | a prefix of length min(n, length) |
| NewsDiscovery.Classify | scripts/scrape-kathmandupost.js:276-280 | embezzlement wins, then land scam or land grab, then bribe, then ciaa, else Corruption |
| NewsDiscovery.BriberyHasBribe | scripts/scrape-kathmandupost.js:279 | the `bribery` test is subsumed by the `bribe` test |
| NewsDiscovery.ScanNames | scripts/scrape-kathmandupost.js:284-293 | every name found has the shape `Xxx Yyy` and follows the prefix in the text |
| NewsDiscovery.NameAtComplete | scripts/scrape-kathmandupost.js:285-287 | wherever a name of that shape starts, the matcher finds one |
| NewsDiscovery.CollectIsTake | scripts/scrape-kathmandupost.js:291-298 | collecting keeps the first five distinct names: the held ones, then new ones in order |
| NewsDiscovery.CollectAppend | scripts/scrape-kathmandupost.js:291-298 | collecting over the three patterns in turn equals collecting over their matches concatenated |
| NewsDiscovery.AccusedNames | scripts/scrape-kathmandupost.js:283-298 | accused is null exactly when no name matches; otherwise it is the first five distinct matched names, each of name shape |
| NewsDiscovery.FirstTruthy | scripts/scrape-kathmandupost.js:245 | the first non-empty value of the two, and none exactly when neither is non-empty |
| NewsDiscovery.ArticleTitle | scripts/scrape-kathmandupost.js:244 | the title has no white space at either end; it is the trimmed first heading whenever that is non-empty, and otherwise the trimmed concatenation of every `title` text |
| NewsDiscovery.ArticleTitleConcatenates | scripts/scrape-kathmandupost.js:244 | without a usable heading the texts of all `title` elements are run together with no separator |
| NewsDiscovery.ScrapeArticle | scripts/scrape-kathmandupost.js:272-312 | the article's title is the page's article title, its date the first truthy date attribute, and its type, summary (first three paragraphs), accused and raw content (the paragraphs joined by newlines) derive from the selected paragraphs; the raw content is non-empty exactly when some paragraph was selected |
| NewsDiscovery.Outcome | scripts/scrape-kathmandupost.js:338-342 | an article is kept exactly when its page was fetched and has content |
| NewsDiscovery.ScrapeAll | scripts/scrape-kathmandupost.js:336-345 | the results are exactly the kept articles of the discovered URLs |
| NewsDiscovery.ScrapeAllAppend | scripts/scrape-kathmandupost.js:336-345 | the results follow the URL order: scraping a concatenation of URL lists gives the two lists' results one after the other |
| NewsDiscovery.ScrapeAllSingle | scripts/scrape-kathmandupost.js:336-345 | no URLs give no results, and one URL gives exactly its outcome, so each URL contributes at most one article |
| NewsDiscovery.CaseTypeCounts | scripts/scrape-kathmandupost.js:353-359 | one line per distinct case type, each counting that type's articles, summing to the result count |
| PublicApi.RunLength | src/routes/public.js:16-17 | the length of the longest prefix whose characters all satisfy the predicate |
| PublicApi.ParseIntNumeral | src/routes/public.js:16-17 | a decimal numeral, signed or not and followed by anything that does not continue it, parses to its value |
| PublicApi.ParseIntEmpty | src/routes/public.js:16-17 | an empty value does not parse |
| PublicApi.PagingDefaults | src/routes/public.js:16-18 | page and limit are never 0; an absent, empty, unparsable or zero page gives 1 and such a limit gives 10; positive numerals give page n, limit l and skip (n−1)·l |
| PublicApi.CeilDivIsCeiling | src/routes/public.js:172 | the page count is the integer ceiling of total ÷ limit, for either sign of the limit |
| PublicApi.Slice | src/routes/public.js:209-210 | a window has min(n, what remains after the skip) elements, which are the list's elements from the skip on |
| PublicApi.ChunksCover | src/routes/public.js:204 | the pages of a list concatenate back to the list, and there are ⌈length ÷ size⌉ of them |
| PublicApi.ChunkIsSlice | src/routes/public.js:165 | page p is the window that skips p·size elements |
| PublicApi.StampKeyOrders | src/routes/public.js:159 | on valid dates the sort key orders exactly as the calendar does |
| PublicApi.YearWindowSpec | src/routes/public.js:36-42 | a valid date passes the year filter exactly when it is in that year (0..99 read as 1900..1999) and is not in the last second of 31 December past its first millisecond |
| PublicApi.ConditionsAreDisjunction | src/routes/public.js:75-147 | a case passes the person stage exactly when its links satisfy some given condition: the upper-cased role, a party match or a name match |
| PublicApi.Where | src/routes/public.js:28 | a filter keeps only elements of the list that satisfy the predicate |
| PublicApi.WhereComplete | src/routes/public.js:28 | a filter keeps every element that satisfies the predicate |
| PublicApi.WindowFacts | src/routes/public.js:165 | a window holds at most the limit's size of the list's elements, still newest first |
| PublicApi.ListCasesFacts | src/routes/public.js:11-230 | the listing fails exactly on a negative skip, or a negative limit on the join path; otherwise it has the requested page and limit, at most `limit` cases newest first, each a stored PUBLISHED case passing the filters of its path, and the total of all matches |
| PublicApi.ListingPages | src/routes/public.js:16-18 | for a positive page and limit, the pages of the sorted matches concatenate to them, their number is the reported page count, and the data is the requested page, or empty past the last |
| PublicApi.PageOfChunks | src/routes/public.js:209-210 | skipping (page−1)·size and taking size gives the page-th page, or nothing past the last |
| PublicApi.JoinNarrows | src/routes/public.js:21-23 | every case matched on the join path also matches the case-level filters |
| PublicApi.SimplePathIgnoresPersons | src/routes/public.js:183-211 | without a role, party or search filter the answer does not depend on persons or links |
| PublicApi.FindById | src/routes/public.js:255-256 | resolves a link's person or source reference to a stored document with that id, or to nothing exactly when none has it |
| PublicApi.FindPublished | src/routes/public.js:238-241 | finds a stored PUBLISHED case with the id, and finds nothing exactly when there is none |
| PublicApi.PopulatedLinks | src/routes/public.js:254-257 | each link keeps its place; its person is present exactly when a stored person has the link's person id, and is then such a person; the same holds for its source |
| PublicApi.GroupPersons | src/routes/public.js:260-295 | the loop computes the reference grouping: links without a person are dropped, the three roles go to their buckets in order, other roles are dropped |
| PublicApi.BucketMembers | src/routes/public.js:266-294 | an entry is in a bucket exactly when some link with an existing person has that bucket's role |
| PublicApi.BucketSizes | src/routes/public.js:260-295 | the bucket sizes sum to the number of placed links, which is at most the number of links |
| PublicApi.GetCaseFacts | src/routes/public.js:235-248 | a case is served exactly when a stored PUBLISHED case has the id, and otherwise the answer is 404; what is served is such a case |
| PublicApi.GetCaseEntries | src/routes/public.js:253-295 | every grouped entry comes from a link of the requested case with that role and an existing person |
| Seqs.DedupIsFirstOccurrences | scripts/scrape-kathmandupost.js:114 | removing duplicates keeps the first occurrence of each element, in order |
| Seqs.DedupIdempotent | scripts/scrape-kathmandupost.js:223 | removing duplicates twice equals removing them once |
| Sorting.TopN | scripts/analyze-ciaa-cases.js:95-97 | the first n of a descending sort: sorted, drawn from the input, and no element left out is larger |
| Sorting.SortStable | scripts/analyze-ciaa-cases.js:96 | the sort is stable: the elements of each key value keep their input order |
| Sorting.TopNStable | scripts/analyze-ciaa-cases.js:96-97 | the elements of each key value kept by the cut are the first ones of the input with that key |
| Tally.CountByCounts | scripts/scrape-ciaa.js:224-227 | a counter built key by key equals that key's multiplicity |
| Tally.CountByOrder | scripts/analyze-ciaa-cases.js:31-40 | the counters come in the order their keys were first met, as `Object.entries` lists a plain object's keys |

## Findings

| source | as written | input that shows it | evidently intended | confidence | as-written member | corrected member |
|---|---|---|---|---|---|---|
| scripts/import-ciaa-cases.js:119-150 | the duplicate check `Case.findOne({ detailUrl })` looks up a field that the `Case` schema (src/models/Case.js:3-52) does not declare, so `Case.create` drops it and no case the import creates can ever be found again | two accepted records with the same `detailUrl`, not in the store before the run, or the same file imported twice: every copy is created (`DuplicateUrlCreatedTwice`) | a record whose `detailUrl` is already stored, or was created earlier in the run, is skipped | medium, not executed: read from the schema and Mongoose's default strict mode | Importer.ImportCasesAsWritten | Importer.ImportCases |

## Left out

- HTTP (axios), timeouts, headers and the courtesy delays are not modelled. Fetching is an oracle that returns a parsed page, or `None` for any error.
- Cheerio and CSS selection are not modelled. Rows, cells, anchors, pagination anchors and per-selector paragraph texts are inputs.
- The Kathmandu Post article's date attributes are passed through, not parsed.
- The general regular-expression engine is not modelled. The fixed patterns (date, article href, amount token, accused names) are hand-written predicates.
- The user-supplied `location`, `politicalParty` and `search` patterns and Mongo `$text` search are the `Engine` predicates. An invalid user regular expression (a 500 response) is not modelled.
- `fs` reads and writes, JSON, `process.exit`, console output and its ordering, and the `scrapedAt` timestamps are not modelled.
- Mongo connection and the pipeline's `$lookup`/`$project` mechanics are not modelled. The store is a set of sequences in stored order.
- Ties in the date sort keep store order. Mongo does not promise that.
- A malformed ObjectId in `GET /cases/:id` (a cast error, 500) is not modelled. Ids are naturals.
- Mongoose schema validation inside `Case.create` is an oracle, `accept`.
- The `Case` schema (src/models/Case.js:3-52) declares none of `category`, `categoryType`, `fiscalYear`, `fiscalYearGregorian`, `accusedPerson`, `office`, `accusation`, `detailUrl`, `sourceUrl` and `dataSource`, so strict mode drops all of them from every case `Case.create` stores. `CaseDoc` is the object passed to `Case.create`, not the stored document. The consequence for de-duplication is the row under "## Findings".
- The importer's `findOne({ detailUrl })` is modelled as Mongoose 7 and later run it: the filter is kept and matches only cases that already carry the URL. Under Mongoose 6's default `strictQuery` the unknown filter is stripped, and every record with a URL is skipped once any case exists; that variant is not modelled, since the dependency version is not part of this model.
- Importer.ImportOne: models the intended step, in which a created record's URL joins the store. With the `Case` schema it does not; `ImportOneAsWritten` is that step.
- Importer.ImportOneConsistent: the store invariant holds for the intended store only; with the `Case` schema the store keeps only the initial URLs.
- Importer.ImportFromConsistent: as for `ImportOneConsistent`; records created earlier in the run are not findable with the `Case` schema.
- Importer.ImportCases: models the intended import, which skips a URL created earlier in the run. As written such records are created again; `ImportCasesAsWritten` is that import.
- Importer.ImportFromIsNewDocs: the record-by-record definition counts an earlier accepted record's URL as stored, which holds for the intended store only; `ImportFromAsWrittenIsFreshDocs` is the as-written counterpart.
- Importer.NewDocsUrls: a created URL becomes findable in the intended store only.
- `new Date(ciaaCase.date)` in the importer is not modelled.
- Time zones, daylight saving and date parsing are not modelled. A stored date is a `Stamp` of local calendar fields, and a month or day overflow in the year bounds cannot occur with the constants used.
- Floating point is not modelled. Amounts are the exact decimal value of the longest numeric prefix. The total, average, maximum and minimum amounts, the detail-link percentage and `toLocaleString` are not modelled.
- `parseInt` on numerals beyond 2^53, and query parameters given more than once (arrays), are not modelled.
- Object-keyed counters whose key is an integer-like string or an `Object.prototype` name are not modelled. Such keys reorder or shadow the entries.
- String lengths and `substring` count Unicode code points, not UTF-16 units. `LexLe`, the date range's string order, compares code points where JavaScript compares UTF-16 units; the two orders differ only between a character above U+FFFF and one in U+E000–U+FFFF. Case mapping covers ASCII letters only.
- The CRUD routers, index creation, Express wiring, the non-enum schema fields and the two live-site test scripts are not modelled.
- NewsDiscovery.ScanNames: states soundness only. Every name it returns has the name shape and follows the prefix. That it finds every non-overlapping match is stated for one position, by `NameAtComplete`, not for the whole scan.
- NewsDiscovery.CrawlMonthlyArchive: states that every URL is on the site and that a failed fetch gives nothing. The exact filter is stated separately, by `CaseLinksMembers`.
- Catalogue.LookupCategory: a key that names an `Object.prototype` member (`constructor`, `toString`, `__proto__`, …) finds that inherited member in the source; the model finds no category for it.
- Crawl.HistoricalCategories: an `Object.prototype` key does not make the source throw; its run goes on with the inherited member in place of a category. The model fails the run on it, as on any other key outside the table.
- Crawl.ScrapeAllHistorical: fails exactly on a key outside the table, so an `Object.prototype` key is not modelled as the source handles it (see `HistoricalCategories`).
- Crawl.KnownKeys: an `Object.prototype` key passes the source's `!CATEGORIES[category]` test; the model drops it.
- Crawl.UnknownKeysSkipped: stated for keys outside the table; an `Object.prototype` key is not skipped by the source.
- Crawl.CurrentCategories: an `Object.prototype` key is not skipped by the source, which crawls the inherited member in place of a category; the model skips it.
- Importer.MapCategoryToStatus: a category string that names an `Object.prototype` member yields that inherited member, not `ALLEGED`, in the source; the model maps it to ALLEGED.
- PublicApi.YearWindowSpec: a year whose 1 January or 31 December lies outside the ECMAScript time range (beyond about ±275760) makes an Invalid Date in the source; the model computes the window as for any other year.
- PublicApi.ListCasesFacts: a skip or limit beyond the 64-bit range Mongo accepts (an error, 500) and the Invalid Date window of an out-of-range year are not modelled; the model answers with unbounded integers and the calendar window.

=== FILE: analysis.dfy ===
/**
 * The statistics pass over the scraped CIAA records: the per-category
 * groups, Devanagari digit conversion, the amount-token scan over titles,
 * the per-accusation counters, the top-10 amounts, the date range and the
 * count of records with a detail link.
 */
module Analysis {
  import opened Common
  import opened Text
  import opened Tally
  import opened Sorting
  import opened Seqs
  import opened Listing

  // ---------------------------------------------------------------------
  // Digit glyphs (`convertNepaliToEnglish`)

  const NepaliDigits: string := "\U{0966}\U{0967}\U{0968}\U{0969}\U{096A}\U{096B}\U{096C}\U{096D}\U{096E}\U{096F}"
  const EnglishDigits: string := "0123456789"

  predicate IsNepaliDigit(c: char) {
    '\U{0966}' <= c <= '\U{096F}'
  }

  /** The reference mapping: a Devanagari digit becomes the ASCII digit of the same value. */
  function AsciiDigitOf(c: char): char {
    if IsNepaliDigit(c) then (c as int - 0x0966 + '0' as int) as char else c
  }

  lemma DigitTables(j: nat)
    requires j < 10
    ensures NepaliDigits[j] as int == 0x0966 + j
    ensures EnglishDigits[j] as int == '0' as int + j
  {
  }

  /** Replace every occurrence of the character `from` by `to`. */
  function ReplaceChar(s: string, from: char, to: char): (r: string)
    ensures |r| == |s|
    ensures forall i :: 0 <= i < |s| ==> r[i] == (if s[i] == from then to else s[i])
  {
    seq(|s|, i requires 0 <= i < |s| => if s[i] == from then to else s[i])
  }

  /** The first `k` rounds of the replace loop, digit 0 first. */
  function ConvertPasses(s: string, k: nat): string
    requires k <= 10
  {
    if k == 0 then s
    else ReplaceChar(ConvertPasses(s, k - 1), NepaliDigits[k - 1], EnglishDigits[k - 1])
  }

  /** `convertNepaliToEnglish`: ten global replacements, one per digit. */
  function ConvertNepaliToEnglish(s: string): string {
    ConvertPasses(s, 10)
  }

  /** After `k` rounds exactly the Devanagari digits below `k` have been converted. */
  lemma {:induction false} ConvertPassesPointwise(s: string, k: nat)
    requires k <= 10
    ensures |ConvertPasses(s, k)| == |s|
    ensures forall i :: 0 <= i < |s| ==>
      ConvertPasses(s, k)[i] == (if IsNepaliDigit(s[i]) && s[i] as int - 0x0966 < k then AsciiDigitOf(s[i]) else s[i])
  {
    if k > 0 {
      ConvertPassesPointwise(s, k - 1);
      DigitTables(k - 1);
    }
  }

  /**
   * The replace loop agrees with the one-pass reference mapping, so it
   * preserves length, leaves no Devanagari digit behind and is idempotent.
   */
  lemma ConvertNepaliToEnglishSpec(s: string)
    ensures |ConvertNepaliToEnglish(s)| == |s|
    ensures forall i :: 0 <= i < |s| ==> ConvertNepaliToEnglish(s)[i] == AsciiDigitOf(s[i])
    ensures forall i :: 0 <= i < |s| ==> !IsNepaliDigit(ConvertNepaliToEnglish(s)[i])
    ensures ConvertNepaliToEnglish(ConvertNepaliToEnglish(s)) == ConvertNepaliToEnglish(s)
  {
    ConvertPassesPointwise(s, 10);
    var r := ConvertNepaliToEnglish(s);
    ConvertPassesPointwise(r, 10);
  }

  // ---------------------------------------------------------------------
  // Amount tokens in titles

  const Ra: char := '\U{0930}'
  const UuSign: char := '\U{0942}'
  const Danda: char := '\U{0964}'

  /** One character of the captured amount: an ASCII or Devanagari digit, `,`, the danda or `.`. */
  predicate IsAmountChar(c: char) {
    IsAsciiDigit(c) || IsNepaliDigit(c) || c == ',' || c == Danda || c == '.'
  }

  /**
   * The words of the amount pattern: the letter ra, the vowel sign uu if
   * `uu`, a full stop, one whitespace character if `space`, then a
   * non-empty run of amount characters.
   */
  predicate TokenWith(w: string, uu: bool, space: bool) {
    var dot := if uu then 2 else 1;
    var run := dot + (if space then 2 else 1);
    |w| > run && w[0] == Ra && (uu ==> w[1] == UuSign) && w[dot] == '.'
    && (space ==> IsJsSpace(w[dot + 1]))
    && forall q :: run <= q < |w| ==> IsAmountChar(w[q])
  }

  predicate Token(w: string) {
    TokenWith(w, false, false) || TokenWith(w, false, true) || TokenWith(w, true, false) || TokenWith(w, true, true)
  }

  /** A match: the whole token is `t[start..end]`, the captured amount `t[amount..end]`. */
  datatype AmountMatch = AmountMatch(start: nat, amount: nat, end: nat)

  /** The end of the maximal run of amount characters from `j`. */
  function RunEnd(t: string, j: nat): (e: nat)
    requires j <= |t|
    ensures j <= e <= |t|
    decreases |t| - j
  {
    if j < |t| && IsAmountChar(t[j]) then RunEnd(t, j + 1) else j
  }

  /** The run is maximal: amount characters up to its end, and none at its end. */
  lemma {:induction false} RunEndSpec(t: string, j: nat)
    requires j <= |t|
    ensures forall q :: j <= q < RunEnd(t, j) ==> IsAmountChar(t[q])
    ensures RunEnd(t, j) < |t| ==> !IsAmountChar(t[RunEnd(t, j)])
    decreases |t| - j
  {
    if j < |t| && IsAmountChar(t[j]) {
      RunEndSpec(t, j + 1);
    }
  }

  /**
   * The pattern anchored at `i`, matched greedily. `MatchAtIsLongestToken`
   * shows this is the longest token starting at `i`, or `None` when no
   * token starts there.
   */
  function MatchAt(t: string, i: nat): (m: Option<AmountMatch>)
    requires i <= |t|
    ensures m.Some? ==> m.value.start == i < m.value.amount < m.value.end <= |t|
  {
    if i < |t| && t[i] == Ra then
      var dot := if i + 1 < |t| && t[i + 1] == UuSign then i + 2 else i + 1;
      if dot < |t| && t[dot] == '.' then
        var run := if dot + 1 < |t| && IsJsSpace(t[dot + 1]) then dot + 2 else dot + 1;
        var e := RunEnd(t, run);
        if e > run then Some(AmountMatch(i, run, e)) else None
      else None
    else None
  }

  /** `MatchAt` returns the longest token starting at `i`, and `None` exactly when there is none. */
  lemma MatchAtIsLongestToken(t: string, i: nat)
    requires i <= |t|
    ensures MatchAt(t, i).Some? ==>
      Token(t[i..MatchAt(t, i).value.end]) && forall e :: MatchAt(t, i).value.end < e <= |t| ==> !Token(t[i..e])
    ensures MatchAt(t, i).None? ==> forall e :: i < e <= |t| ==> !Token(t[i..e])
  {
    if i < |t| && t[i] == Ra {
      var dot := if i + 1 < |t| && t[i + 1] == UuSign then i + 2 else i + 1;
      if dot < |t| && t[dot] == '.' {
        var run := if dot + 1 < |t| && IsJsSpace(t[dot + 1]) then dot + 2 else dot + 1;
        var e := RunEnd(t, run);
        if e > run {
          MatchFacts(t, i, dot, run, e);
        } else {
          NoMatchFacts(t, i, dot, run);
        }
      } else {
        forall e | i < e <= |t| ensures !Token(t[i..e]) {
          var w := t[i..e];
          assert |w| > 2 ==> w[1] == t[i + 1] && w[2] == t[i + 2];
        }
      }
    } else {
      forall e | i < e <= |t| ensures !Token(t[i..e]) {
        assert t[i..e][0] == t[i];
      }
    }
  }

  lemma MatchFacts(t: string, i: nat, dot: nat, run: nat, e: nat)
    requires i < |t| && t[i] == Ra
    requires dot == (if i + 1 < |t| && t[i + 1] == UuSign then i + 2 else i + 1)
    requires dot < |t| && t[dot] == '.'
    requires run == (if dot + 1 < |t| && IsJsSpace(t[dot + 1]) then dot + 2 else dot + 1)
    requires e == RunEnd(t, run) && e > run
    ensures Token(t[i..e]) && forall e' :: e < e' <= |t| ==> !Token(t[i..e'])
  {
    RunEndSpec(t, run);
    var w := t[i..e];
    assert TokenWith(w, dot == i + 2, run == dot + 2);
    forall e' | e < e' <= |t| ensures !Token(t[i..e']) {
      var w' := t[i..e'];
      assert w'[e - i] == t[e];
      assert w'[dot - i] == '.';
    }
  }

  lemma NoMatchFacts(t: string, i: nat, dot: nat, run: nat)
    requires i < |t| && t[i] == Ra
    requires dot == (if i + 1 < |t| && t[i + 1] == UuSign then i + 2 else i + 1)
    requires dot < |t| && t[dot] == '.'
    requires run == (if dot + 1 < |t| && IsJsSpace(t[dot + 1]) then dot + 2 else dot + 1)
    requires RunEnd(t, run) == run
    ensures forall e :: i < e <= |t| ==> !Token(t[i..e])
  {
    RunEndSpec(t, run);
    forall e | i < e <= |t| ensures !Token(t[i..e]) {
      var w := t[i..e];
      if |w| > run - i {
        assert w[run - i] == t[run];
      }
      assert |w| > dot - i ==> w[dot - i] == '.';
    }
  }

  /**
   * All matches of the global amount pattern, left to right: each search
   * resumes where the previous match ended.
   */
  function ScanFrom(t: string, from: nat): (ms: seq<AmountMatch>)
    requires from <= |t|
    decreases |t| - from
  {
    if from == |t| then []
    else
      match MatchAt(t, from)
      case Some(m) => [m] + ScanFrom(t, m.end)
      case None => ScanFrom(t, from + 1)
  }

  /**
   * The scan reports only real matches: each starts at or after `from` and
   * is what `MatchAt` finds at its start.
   */
  lemma {:induction false} ScanSound(t: string, from: nat)
    requires from <= |t|
    ensures forall k :: 0 <= k < |ScanFrom(t, from)| ==>
      from <= ScanFrom(t, from)[k].start <= |t| && MatchAt(t, ScanFrom(t, from)[k].start) == Some(ScanFrom(t, from)[k])
    decreases |t| - from
  {
    if from < |t| {
      match MatchAt(t, from)
      case None =>
        ScanSound(t, from + 1);
        ScanSkips(t, from);
      case Some(m) =>
        ScanSound(t, m.end);
        ScanTakes(t, from, m);
    }
  }

  /** The matches come left to right and do not overlap: each later one starts at or after an earlier one's end. */
  lemma {:induction false} ScanOrdered(t: string, from: nat)
    requires from <= |t|
    ensures forall i, j :: 0 <= i < j < |ScanFrom(t, from)| ==> ScanFrom(t, from)[i].end <= ScanFrom(t, from)[j].start
    decreases |t| - from
  {
    if from < |t| {
      match MatchAt(t, from)
      case None =>
        ScanOrdered(t, from + 1);
        ScanSkips(t, from);
      case Some(m) =>
        ScanTakes(t, from, m);
        ScanOrdered(t, m.end);
        ScanSound(t, m.end);
        OrderedCons(m, ScanFrom(t, m.end));
    }
  }

  /** Putting a match in front of ordered matches that start at or after its end keeps them ordered. */
  lemma OrderedCons(m: AmountMatch, rest: seq<AmountMatch>)
    requires forall k :: 0 <= k < |rest| ==> m.end <= rest[k].start
    requires forall i, j :: 0 <= i < j < |rest| ==> rest[i].end <= rest[j].start
    ensures forall i, j :: 0 <= i < j < |[m] + rest| ==> ([m] + rest)[i].end <= ([m] + rest)[j].start
  {
    var ms := [m] + rest;
    forall i, j | 0 <= i < j < |ms|
      ensures ms[i].end <= ms[j].start
    {
      assert ms[j] == rest[j - 1];
      if i > 0 {
        assert ms[i] == rest[i - 1];
      }
    }
  }

  /**
   * Every position where the pattern matches is reported (and, by
   * `ScanSound`, only such positions are).
   */
  lemma ScanFindsEveryMatch(t: string, from: nat, p: nat)
    requires from <= p < |t| && MatchAt(t, p).Some?
    ensures exists k :: 0 <= k < |ScanFrom(t, from)| && ScanFrom(t, from)[k].start == p
  {
    var k := ScanIndex(t, from, p);
  }

  /** The position in the scan of the match that starts at `p`. */
  lemma {:induction false} ScanIndex(t: string, from: nat, p: nat) returns (k: nat)
    requires from <= p < |t| && MatchAt(t, p).Some?
    ensures k < |ScanFrom(t, from)| && ScanFrom(t, from)[k].start == p
    decreases |t| - from
  {
    if p == from {
      ScanHead(t, from);
      k := 0;
    } else if MatchAt(t, from).None? {
      var j := ScanIndex(t, from + 1, p);
      ScanSkipIndex(t, from, j);
      k := j;
    } else {
      NextMatchAfterEnd(t, from, p);
      var j := ScanIndex(t, MatchAt(t, from).value.end, p);
      ScanTakeIndex(t, from, j);
      k := j + 1;
    }
  }

  lemma ScanHead(t: string, from: nat)
    requires from < |t| && MatchAt(t, from).Some?
    ensures 0 < |ScanFrom(t, from)| && ScanFrom(t, from)[0].start == from
  {
    ScanTakes(t, from, MatchAt(t, from).value);
  }

  lemma ScanSkipIndex(t: string, from: nat, j: nat)
    requires from < |t| && MatchAt(t, from).None? && j < |ScanFrom(t, from + 1)|
    ensures j < |ScanFrom(t, from)| && ScanFrom(t, from)[j] == ScanFrom(t, from + 1)[j]
  {
    ScanSkips(t, from);
  }

  lemma ScanTakeIndex(t: string, from: nat, j: nat)
    requires from < |t| && MatchAt(t, from).Some?
    requires j < |ScanFrom(t, MatchAt(t, from).value.end)|
    ensures j + 1 < |ScanFrom(t, from)| && ScanFrom(t, from)[j + 1] == ScanFrom(t, MatchAt(t, from).value.end)[j]
  {
    ScanTakes(t, from, MatchAt(t, from).value);
  }

  /** Matches do not overlap: a later match starts at or after an earlier one's end. */
  lemma NextMatchAfterEnd(t: string, from: nat, p: nat)
    requires from < p < |t| && MatchAt(t, from).Some? && MatchAt(t, p).Some?
    ensures MatchAt(t, from).value.end <= p
  {
    RunEndSpec(t, MatchAt(t, from).value.amount);
  }

  /** Where nothing matches, the scan moves on by one character. */
  lemma ScanSkips(t: string, from: nat)
    requires from < |t| && MatchAt(t, from).None?
    ensures ScanFrom(t, from) == ScanFrom(t, from + 1)
  {
  }

  /** After a match, the scan resumes at the match's end. */
  lemma ScanTakes(t: string, from: nat, m: AmountMatch)
    requires from < |t| && MatchAt(t, from) == Some(m)
    ensures m.end <= |t| && ScanFrom(t, from) == [m] + ScanFrom(t, m.end)
  {
  }

  // ---------------------------------------------------------------------
  // Amount values

  /** Delete every comma and every danda. */
  function StripSeparators(s: string): string
  {
    if |s| == 0 then []
    else (if s[0] == ',' || s[0] == Danda then [] else [s[0]]) + StripSeparators(s[1..])
  }

  /** Commas and dandas are deleted, every other character is kept in order. */
  lemma {:induction false} StripSeparatorsSpec(s: string)
    ensures forall c :: c in StripSeparators(s) <==> c in s && c != ',' && c != Danda
    ensures |StripSeparators(s)| == |s| - multiset(s)[','] - multiset(s)[Danda]
  {
    if |s| > 0 {
      StripSeparatorsSpec(s[1..]);
      assert s == [s[0]] + s[1..];
    }
  }

  /** The longest prefix of ASCII digits. */
  function LeadingDigits(s: string): (d: string)
    ensures |d| <= |s| && d == s[..|d|] && AllDigits(d)
    ensures |d| < |s| ==> !IsAsciiDigit(s[|d|])
  {
    if |s| > 0 && IsAsciiDigit(s[0]) then [s[0]] + LeadingDigits(s[1..]) else []
  }

  function Pow10(n: nat): (p: nat)
    ensures p >= 1
  {
    if n == 0 then 1 else 10 * Pow10(n - 1)
  }

  /**
   * `parseFloat` on a string of ASCII digits and full stops: the longest
   * prefix `digits [. digits]` with at least one digit, read as an exact
   * decimal; `None` stands for `NaN`.
   */
  function ParseDecimal(s: string): (v: Option<real>)
    ensures v.None? <==> !(|s| > 0 && (IsAsciiDigit(s[0]) || (s[0] == '.' && |s| > 1 && IsAsciiDigit(s[1]))))
    ensures v.Some? ==> v.value >= 0.0
  {
    var whole := LeadingDigits(s);
    var rest := s[|whole|..];
    var frac := FractionDigits(rest);
    assert |whole| > 0 <==> |s| > 0 && IsAsciiDigit(s[0]);
    assert |whole| == 0 ==> rest == s;
    if |whole| + |frac| == 0 then None else Some(DecimalValue(whole, frac))
  }

  /** The digits after a leading full stop, or none. */
  function FractionDigits(rest: string): (frac: string)
    ensures AllDigits(frac)
  {
    if |rest| > 0 && rest[0] == '.' then LeadingDigits(rest[1..]) else ""
  }

  /** The exact value of `whole.frac`. */
  function DecimalValue(whole: string, frac: string): (v: real)
    requires AllDigits(whole) && AllDigits(frac)
    ensures v >= 0.0
  {
    DigitsValue(whole) as real + QuotientNonNegative(DigitsValue(frac), Pow10(|frac|))
  }

  /** `n / d` on reals, for a positive `d`: never negative. */
  function QuotientNonNegative(n: nat, d: nat): (q: real)
    requires d > 0
    ensures q >= 0.0
  {
    n as real / d as real
  }

  /** A digit string has a positive value exactly when it holds a non-zero digit. */
  lemma {:induction false} DigitsValuePositive(d: string)
    requires AllDigits(d)
    ensures DigitsValue(d) > 0 <==> exists i :: 0 <= i < |d| && d[i] != '0'
  {
    if |d| > 0 {
      var init := d[..|d| - 1];
      DigitsValuePositive(init);
      assert forall i :: 0 <= i < |init| ==> init[i] == d[i];
      if DigitsValue(init) == 0 && d[|d| - 1] == '0' {
        forall i | 0 <= i < |d| ensures d[i] == '0' {
          if i < |init| {
            assert init[i] == '0';
          }
        }
      }
    }
  }

  /** The longest digit prefix stops where the digits stop. */
  lemma {:induction false} LeadingDigitsStop(d: string, rest: string)
    requires AllDigits(d) && (|rest| == 0 || !IsAsciiDigit(rest[0]))
    ensures LeadingDigits(d + rest) == d
  {
    if |d| > 0 {
      assert (d + rest)[1..] == d[1..] + rest;
      LeadingDigitsStop(d[1..], rest);
      assert d == [d[0]] + d[1..];
    } else {
      assert d + rest == rest;
    }
  }

  /**
   * `parseFloat` reads the longest `digits . digits` prefix and ignores
   * what follows: a second full stop, letters, or nothing.
   */
  lemma ParseDecimalPrefix(whole: string, frac: string, junk: string)
    requires AllDigits(whole) && AllDigits(frac) && |whole| + |frac| > 0
    requires |junk| == 0 || !IsAsciiDigit(junk[0])
    ensures var v := ParseDecimal(whole + "." + frac + junk);
      v.Some? && v.value == DigitsValue(whole) as real + DigitsValue(frac) as real / Pow10(|frac|) as real
  {
    ParseDecimalPrefixParts(whole, frac, junk);
    DecimalValueIs(whole, frac);
  }

  lemma ParseDecimalPrefixParts(whole: string, frac: string, junk: string)
    requires AllDigits(whole) && AllDigits(frac) && |whole| + |frac| > 0
    requires |junk| == 0 || !IsAsciiDigit(junk[0])
    ensures ParseDecimal(whole + "." + frac + junk) == Some(DecimalValue(whole, frac))
  {
    var tail := frac + junk;
    var rest := "." + tail;
    var s := whole + rest;
    assert whole + "." + frac + junk == s;
    LeadingDigitsStop(whole, rest);
    assert s[|whole|..] == rest;
    assert rest[1..] == tail;
    LeadingDigitsStop(frac, junk);
    ParseDecimalParts(s, whole, frac);
  }

  /** `ParseDecimal` given its two digit runs. */
  lemma ParseDecimalParts(s: string, whole: string, frac: string)
    requires LeadingDigits(s) == whole && |whole| + |frac| > 0
    requires FractionDigits(s[|whole|..]) == frac
    ensures AllDigits(whole) && AllDigits(frac)
    ensures ParseDecimal(s) == Some(DecimalValue(whole, frac))
  {
  }

  lemma DecimalValueIs(whole: string, frac: string)
    requires AllDigits(whole) && AllDigits(frac)
    ensures DecimalValue(whole, frac) == DigitsValue(whole) as real + DigitsValue(frac) as real / Pow10(|frac|) as real
  {
  }

  /** Without a fractional part, the digits before the first non-digit, non-stop character are read. */
  lemma ParseDecimalWhole(whole: string, junk: string)
    requires AllDigits(whole) && |whole| > 0
    requires |junk| == 0 || (!IsAsciiDigit(junk[0]) && junk[0] != '.')
    ensures ParseDecimal(whole + junk) == Some(DigitsValue(whole) as real)
  {
    var s := whole + junk;
    LeadingDigitsStop(whole, junk);
    assert s[|whole|..] == junk;
    ParseDecimalNoFraction(s, whole);
  }

  /** `ParseDecimal` when the digit run is not followed by a full stop. */
  lemma ParseDecimalNoFraction(s: string, whole: string)
    requires LeadingDigits(s) == whole && |whole| > 0
    requires var rest := s[|whole|..]; |rest| == 0 || rest[0] != '.'
    ensures AllDigits(whole)
    ensures ParseDecimal(s) == Some(DigitsValue(whole) as real)
  {
    assert FractionDigits(s[|whole|..]) == "";
    assert ParseDecimal(s) == Some(DecimalValue(whole, ""));
    DecimalValueWhole(whole);
  }

  lemma DecimalValueWhole(whole: string)
    requires AllDigits(whole)
    ensures DecimalValue(whole, "") == DigitsValue(whole) as real
  {
    assert DigitsValue("") == 0 && Pow10(0) == 1;
    assert QuotientNonNegative(0, 1) == 0.0;
  }

  /** A non-empty digit string reads as its own value. */
  lemma ParseDecimalOfDigits(s: string)
    requires |s| > 0 && AllDigits(s)
    ensures ParseDecimal(s) == Some(DigitsValue(s) as real)
  {
    LeadingDigitsOfDigits(s);
    assert s[|s|..] == [];
    assert DigitsValue("") == 0 && Pow10(0) == 1;
    assert QuotientNonNegative(0, 1) == 0.0;
  }

  /** Reading back the decimal rendering of `n` gives `n`. */
  lemma ParseDecimalOfNat(n: nat)
    ensures ParseDecimal(NatToString(n)) == Some(n as real)
  {
    NatToStringRoundTrip(n);
    ParseDecimalOfDigits(NatToString(n));
  }

  lemma {:induction false} LeadingDigitsOfDigits(s: string)
    requires AllDigits(s)
    ensures LeadingDigits(s) == s
  {
    if |s| > 0 {
      LeadingDigitsOfDigits(s[1..]);
    }
  }

  /** The value kept for one captured amount: digits converted, separators deleted, parsed, and kept only when positive. */
  function AmountOf(captured: string): (v: Option<real>)
    ensures v.Some? ==> v.value > 0.0
    ensures v.Some? <==>
      ParseDecimal(StripSeparators(ConvertNepaliToEnglish(captured))).Some? &&
      ParseDecimal(StripSeparators(ConvertNepaliToEnglish(captured))).value > 0.0
    ensures v.Some? ==> v == ParseDecimal(StripSeparators(ConvertNepaliToEnglish(captured)))
  {
    var parsed := ParseDecimal(StripSeparators(ConvertNepaliToEnglish(captured)));
    if parsed.Some? && parsed.value > 0.0 then parsed else None
  }

  lemma {:induction false} StripAppend(a: string, b: string)
    ensures StripSeparators(a + b) == StripSeparators(a) + StripSeparators(b)
  {
    if |a| > 0 {
      StripAppend(a[1..], b);
      assert (a + b)[1..] == a[1..] + b;
    } else {
      assert a + b == b;
    }
  }

  lemma ConvertAppend(a: string, b: string)
    ensures ConvertNepaliToEnglish(a + b) == ConvertNepaliToEnglish(a) + ConvertNepaliToEnglish(b)
  {
    ConvertNepaliToEnglishSpec(a);
    ConvertNepaliToEnglishSpec(b);
    ConvertNepaliToEnglishSpec(a + b);
  }

  /**
   * A comma or a danda anywhere in the captured amount is simply deleted:
   * the danda is not read as a decimal point, so `1,25,66,555` danda `50`
   * reads as 1256655550.
   */
  lemma SeparatorIgnored(a: string, sep: char, b: string)
    requires sep == ',' || sep == Danda
    ensures AmountOf(a + [sep] + b) == AmountOf(a + b)
  {
    SeparatorNormalisesAway(a, sep, b);
  }

  lemma SeparatorNormalisesAway(a: string, sep: char, b: string)
    requires sep == ',' || sep == Danda
    ensures StripSeparators(ConvertNepaliToEnglish(a + [sep] + b)) == StripSeparators(ConvertNepaliToEnglish(a + b))
  {
    ConvertAppend(a + [sep], b);
    ConvertAppend(a, [sep]);
    ConvertAppend(a, b);
    ConvertSingle(sep);
    var ca, cb := ConvertNepaliToEnglish(a), ConvertNepaliToEnglish(b);
    StripAppend(ca + [sep], cb);
    StripAppend(ca, [sep]);
    StripAppend(ca, cb);
    assert StripSeparators([sep]) == [] by {
      assert [sep][1..] == [];
    }
  }

  lemma ConvertSingle(c: char)
    ensures ConvertNepaliToEnglish([c]) == [AsciiDigitOf(c)]
  {
    ConvertNepaliToEnglishSpec([c]);
  }

  /** A captured amount made of digits alone (either script) reads as that integer, and is kept only when non-zero. */
  lemma DigitAmount(s: string)
    requires forall i :: 0 <= i < |s| ==> IsAsciiDigit(s[i]) || IsNepaliDigit(s[i])
    ensures var d := ConvertNepaliToEnglish(s);
      AllDigits(d) &&
      AmountOf(s) == (if DigitsValue(d) > 0 then Some(DigitsValue(d) as real) else None)
  {
    ConvertNepaliToEnglishSpec(s);
    var d := ConvertNepaliToEnglish(s);
    assert AllDigits(d) by {
      forall i | 0 <= i < |d| ensures IsAsciiDigit(d[i]) {
        assert d[i] == AsciiDigitOf(s[i]);
      }
    }
    StripDigits(d);
    if |d| > 0 {
      ParseDecimalOfDigits(d);
    }
  }

  lemma {:induction false} StripDigits(d: string)
    requires AllDigits(d)
    ensures StripSeparators(d) == d
  {
    if |d| > 0 {
      StripDigits(d[1..]);
      assert d == [d[0]] + d[1..];
    }
  }

  lemma DigitsValueSnoc(s: string, c: char)
    requires AllDigits(s) && IsAsciiDigit(c)
    ensures AllDigits(s + [c]) && DigitsValue(s + [c]) == DigitsValue(s) * 10 + (c as int - '0' as int)
  {
    assert (s + [c])[..|s|] == s;
  }

  /** The captured amount of `रू.१।५` is recorded as 15, not 1.5. */
  lemma DandaExample()
    ensures AmountOf("\U{0967}\U{0964}\U{096B}") == Some(15.0)
  {
    DandaSpelling();
    SeparatorIgnored("\U{0967}", Danda, "\U{096B}");
    FifteenExample();
  }

  lemma DandaSpelling()
    ensures "\U{0967}" + [Danda] + "\U{096B}" == "\U{0967}\U{0964}\U{096B}"
    ensures "\U{0967}" + "\U{096B}" == "\U{0967}\U{096B}"
  {
  }

  lemma FifteenExample()
    ensures AmountOf("\U{0967}\U{096B}") == Some(15.0)
  {
    FifteenConverted();
    FifteenDigits();
    DigitAmount("\U{0967}\U{096B}");
  }

  lemma FifteenConverted()
    ensures ConvertNepaliToEnglish("\U{0967}\U{096B}") == "15"
  {
    ConvertAppend("\U{0967}", "\U{096B}");
    ConvertSingle('\U{0967}');
    ConvertSingle('\U{096B}');
    assert "\U{0967}" + "\U{096B}" == "\U{0967}\U{096B}";
    assert [AsciiDigitOf('\U{0967}')] + [AsciiDigitOf('\U{096B}')] == "15";
  }

  lemma FifteenDigits()
    ensures AllDigits("15") && DigitsValue("15") == 15
  {
    DigitsValueSnoc("", '1');
    assert "" + ['1'] == "1";
    DigitsValueSnoc("1", '5');
    assert "1" + ['5'] == "15";
  }

  // ---------------------------------------------------------------------
  // Observations and the top-10 list

  /** One amount found in a title (`casesWithAmounts` entry). */
  datatype Observation = Observation(id: string, category: string, amount: real, amountText: string, title: string)

  /** The first hundred characters of the title followed by an ellipsis. */
  function TitlePreview(title: string): (p: string)
    ensures |p| <= 103 && EndsWith(p, "...")
    ensures |p| - 3 == (if |title| <= 100 then |title| else 100)
    ensures p[..|p| - 3] == title[..|p| - 3]
  {
    (if |title| <= 100 then title else title[..100]) + "..."
  }

  /** Whether a match yields a kept observation. */
  function Kept(t: string): AmountMatch -> bool {
    (m: AmountMatch) => m.start <= m.amount <= m.end <= |t| && AmountOf(t[m.amount..m.end]).Some?
  }

  /** The observation one match yields: one when its amount reads as a positive number, none otherwise. */
  function ObservationAt(c: CaseRecord, m: AmountMatch): (obs: seq<Observation>)
    ensures |obs| == if Kept(c.title)(m) then 1 else 0
    ensures forall o :: o in obs ==> o.amount > 0.0 && o.id == c.id && o.category == c.category
    ensures forall o :: o in obs ==>
      m.start <= m.amount <= m.end <= |c.title| &&
      o.amountText == c.title[m.start..m.end] && AmountOf(c.title[m.amount..m.end]) == Some(o.amount)
  {
    if m.start <= m.amount <= m.end <= |c.title| then
      var v := AmountOf(c.title[m.amount..m.end]);
      if v.Some? then [Observation(c.id, c.category, v.value, c.title[m.start..m.end], TitlePreview(c.title))] else []
    else []
  }

  function ObservationFn(c: CaseRecord): AmountMatch -> seq<Observation> {
    (m: AmountMatch) => ObservationAt(c, m)
  }

  /** The observations of one case's title for the given matches, in order. */
  function ObservationsOf(c: CaseRecord, ms: seq<AmountMatch>): (obs: seq<Observation>)
    ensures |obs| == CountWhere(ms, Kept(c.title))
    ensures forall i :: 0 <= i < |obs| ==> obs[i].amount > 0.0 && obs[i].id == c.id && obs[i].category == c.category
  {
    var obs := FlatMap(ObservationFn(c), ms);
    FlatMapCount(ObservationFn(c), Kept(c.title), ms);
    assert forall i :: 0 <= i < |obs| ==> obs[i].amount > 0.0 && obs[i].id == c.id && obs[i].category == c.category by {
      forall i | 0 <= i < |obs|
        ensures obs[i].amount > 0.0 && obs[i].id == c.id && obs[i].category == c.category
      {
        var k := FlatMapIndex(ObservationFn(c), ms, i);
      }
    }
    obs
  }

  /** Each observation comes from a match: it carries the matched text and the amount read from it. */
  lemma ObservationSource(c: CaseRecord, ms: seq<AmountMatch>, i: nat) returns (k: nat)
    requires i < |ObservationsOf(c, ms)|
    ensures k < |ms| && ms[k].start <= ms[k].amount <= ms[k].end <= |c.title|
    ensures ObservationsOf(c, ms)[i].amountText == c.title[ms[k].start..ms[k].end]
    ensures AmountOf(c.title[ms[k].amount..ms[k].end]) == Some(ObservationsOf(c, ms)[i].amount)
  {
    k := FlatMapIndex(ObservationFn(c), ms, i);
    assert ObservationsOf(c, ms)[i] in ObservationAt(c, ms[k]);
  }

  /** Every kept amount of one case's title. */
  function TitleObservations(c: CaseRecord): (obs: seq<Observation>)
    ensures |obs| == CountWhere(ScanFrom(c.title, 0), Kept(c.title))
    ensures forall o :: o in obs ==> o.amount > 0.0 && o.id == c.id
  {
    ObservationsOf(c, ScanFrom(c.title, 0))
  }

  /** `casesWithAmounts`: the observations of all cases, case by case. */
  function AllObservations(cases: seq<CaseRecord>): (obs: seq<Observation>)
    ensures forall o :: o in obs ==> o.amount > 0.0
    ensures forall o :: o in obs ==> exists c :: c in cases && o.id == c.id
  {
    if |cases| == 0 then []
    else
      var init := AllObservations(cases[..|cases| - 1]);
      var last := TitleObservations(cases[|cases| - 1]);
      assert forall o :: o in init ==> exists c :: c in cases && o.id == c.id by {
        forall o | o in init ensures exists c :: c in cases && o.id == c.id {
          var c :| c in cases[..|cases| - 1] && o.id == c.id;
          assert c in cases;
        }
      }
      init + last
  }

  function AmountKey(o: Observation): real {
    o.amount
  }

  /** The observations of consecutive case lists follow each other: cases are visited in order. */
  lemma {:induction false} AllObservationsAppend(a: seq<CaseRecord>, b: seq<CaseRecord>)
    ensures AllObservations(a + b) == AllObservations(a) + AllObservations(b)
    decreases |b|
  {
    if |b| == 0 {
      assert a + b == a;
    } else {
      var b0 := b[..|b| - 1];
      var last := b[|b| - 1];
      assert (a + b)[..|a + b| - 1] == a + b0;
      assert (a + b)[|a + b| - 1] == last;
      AllObservationsAppend(a, b0);
      AllObservationsSnoc(a + b);
      AllObservationsSnoc(b);
      AppendAssoc(AllObservations(a), AllObservations(b0), TitleObservations(last));
    }
  }

  /** The last case's observations come after those of the cases before it. */
  lemma AllObservationsSnoc(cases: seq<CaseRecord>)
    requires |cases| > 0
    ensures AllObservations(cases) == AllObservations(cases[..|cases| - 1]) + TitleObservations(cases[|cases| - 1])
  {
  }

  /** One case contributes exactly the kept amounts of its title. */
  lemma AllObservationsSingle(c: CaseRecord)
    ensures AllObservations([c]) == TitleObservations(c)
  {
    assert [c][..0] == [];
  }

  /** An observation is collected exactly when it is one of some case's kept title amounts. */
  lemma AllObservationsMembers(cases: seq<CaseRecord>, o: Observation)
    ensures o in AllObservations(cases) <==> exists k :: 0 <= k < |cases| && o in TitleObservations(cases[k])
  {
    AllObservationsIsFlatMap(cases);
    if o in AllObservations(cases) {
      var k := FlatMapOrigin(TitleObservations, cases, o);
    }
    if exists k :: 0 <= k < |cases| && o in TitleObservations(cases[k]) {
      var k :| 0 <= k < |cases| && o in TitleObservations(cases[k]);
      FlatMapKeeps(TitleObservations, cases, k, o);
    }
  }

  /** The observations are each case's title observations, in case order. */
  lemma {:induction false} AllObservationsIsFlatMap(cases: seq<CaseRecord>)
    ensures AllObservations(cases) == FlatMap(TitleObservations, cases)
  {
    if |cases| > 0 {
      AllObservationsIsFlatMap(cases[..|cases| - 1]);
      AllObservationsSnoc(cases);
    }
  }

  /** The ten largest amounts in descending order: no observation left out is larger than one listed. */
  function TopAmounts(cases: seq<CaseRecord>): (top: seq<Observation>)
    ensures |top| == if |AllObservations(cases)| <= 10 then |AllObservations(cases)| else 10
    ensures forall i, j :: 0 <= i < j < |top| ==> top[i].amount >= top[j].amount
    ensures multiset(top) <= multiset(AllObservations(cases))
    ensures forall i, o :: 0 <= i < |top| && o in multiset(AllObservations(cases)) - multiset(top) ==> o.amount <= top[i].amount
  {
    var obs := AllObservations(cases);
    var top := TopN(obs, AmountKey, 10);
    assert forall o :: AmountKey(o) == o.amount;
    top
  }

  /** Among equal amounts the earlier observation is listed first, and a later one only if the earlier one is. */
  lemma TopAmountsTies(cases: seq<CaseRecord>, v: real)
    ensures WithKey(TopAmounts(cases), AmountKey, v) <= WithKey(AllObservations(cases), AmountKey, v)
  {
    TopNStable(AllObservations(cases), AmountKey, 10, v);
  }

  // ---------------------------------------------------------------------
  // Category groups and detail links

  /**
   * The sizes of the `byCategory` groups, one per category in first-seen
   * order: they sum to the number of cases and each counts its category's
   * cases.
   */
  function ByCategory(cases: seq<CaseRecord>): (t: Tally)
    ensures Total(t) == |cases|
    ensures DistinctKeys(t)
    ensures forall q :: CountOf(t, q) == multiset(CategoryKeys(cases))[q]
    ensures KeysOf(t) == Seqs.Dedup(CategoryKeys(cases))
  {
    var keys := CategoryKeys(cases);
    CountByTotal(keys);
    CountByDistinct(keys);
    CountByOrder(keys);
    assert forall q :: CountOf(CountBy(keys), q) == multiset(keys)[q] by {
      forall q ensures CountOf(CountBy(keys), q) == multiset(keys)[q] {
        CountByCounts(keys, q);
      }
    }
    CountBy(keys)
  }

  /** `c.detailUrl` is truthy: present and not empty. */
  predicate HasDetailUrl(c: CaseRecord) {
    c.detailUrl.Some? && c.detailUrl.value != ""
  }

  /**
   * The number of cases with a non-empty detail link: all cases exactly when
   * every case has a detail link, none exactly when no case has one.
   */
  function WithDetails(cases: seq<CaseRecord>): (n: nat)
    ensures n <= |cases|
    ensures n == |cases| <==> forall i :: 0 <= i < |cases| ==> HasDetailUrl(cases[i])
    ensures n == 0 <==> forall i :: 0 <= i < |cases| ==> !HasDetailUrl(cases[i])
  {
    CountWhereAll(cases, HasDetailUrl);
    CountWhereNone(cases, HasDetailUrl);
    CountWhere(cases, HasDetailUrl)
  }

  /** The cases with a detail link in two runs are those of the first run plus those of the second. */
  lemma WithDetailsAppend(a: seq<CaseRecord>, b: seq<CaseRecord>)
    ensures WithDetails(a + b) == WithDetails(a) + WithDetails(b)
  {
    CountWhereAppend(a, b, HasDetailUrl);
  }

  /** A single case counts exactly when its detail link is truthy. */
  lemma WithDetailsSingle(c: CaseRecord)
    ensures WithDetails([c]) == if HasDetailUrl(c) then 1 else 0
  {
    assert [c][..0] == [];
  }

  // ---------------------------------------------------------------------
  // Accusation counters

  /** The accusation, or "Not specified" when it is empty. */
  function AccusationKey(c: CaseRecord): string {
    if c.accusation == "" then "Not specified" else c.accusation
  }

  function AccusationKeys(cases: seq<CaseRecord>): (keys: seq<string>)
    ensures |keys| == |cases|
    ensures forall i :: 0 <= i < |cases| ==> keys[i] == AccusationKey(cases[i])
  {
    seq(|cases|, i requires 0 <= i < |cases| => AccusationKey(cases[i]))
  }

  /**
   * `byAccusation`: one counter per accusation in first-seen order; the
   * counters sum to the number of cases and each counts its key's cases.
   */
  function ByAccusation(cases: seq<CaseRecord>): (t: Tally)
    ensures Total(t) == |cases|
    ensures DistinctKeys(t)
    ensures forall q :: CountOf(t, q) == multiset(AccusationKeys(cases))[q]
    ensures KeysOf(t) == Seqs.Dedup(AccusationKeys(cases))
  {
    var keys := AccusationKeys(cases);
    CountByTotal(keys);
    CountByDistinct(keys);
    CountByOrder(keys);
    assert forall q :: CountOf(CountBy(keys), q) == multiset(keys)[q] by {
      forall q ensures CountOf(CountBy(keys), q) == multiset(keys)[q] {
        CountByCounts(keys, q);
      }
    }
    CountBy(keys)
  }

  /** A case with an empty accusation is counted under `Not specified`. */
  lemma EmptyAccusationCounted(cases: seq<CaseRecord>, i: nat)
    requires i < |cases| && cases[i].accusation == ""
    ensures CountOf(ByAccusation(cases), "Not specified") >= 1
  {
    var keys := AccusationKeys(cases);
    assert keys[i] == "Not specified";
    assert "Not specified" in multiset(keys);
  }

  function CountKey(e: (string, nat)): real {
    e.1 as real
  }

  /** The printed order: counters sorted by count, largest first. */
  function RankedAccusations(cases: seq<CaseRecord>): (r: Tally)
    ensures multiset(r) == multiset(ByAccusation(cases))
    ensures forall i, j :: 0 <= i < j < |r| ==> r[i].1 >= r[j].1
  {
    SortDesc(ByAccusation(cases), CountKey)
  }

  /** Accusations with equal counts stay in the order they were first met. */
  lemma RankedAccusationsStable(cases: seq<CaseRecord>, v: real)
    ensures WithKey(RankedAccusations(cases), CountKey, v) == WithKey(ByAccusation(cases), CountKey, v)
  {
    SortStable(ByAccusation(cases), CountKey, v);
  }

  // ---------------------------------------------------------------------
  // Date range

  /** The default `Array.prototype.sort` order on strings: lexicographic by character. */
  predicate LexLe(a: string, b: string)
    decreases |a|
  {
    |a| == 0 || (|b| > 0 && (a[0] < b[0] || (a[0] == b[0] && LexLe(a[1..], b[1..]))))
  }

  lemma {:induction false} LexLeTotal(a: string, b: string)
    ensures LexLe(a, b) || LexLe(b, a)
    decreases |a|
  {
    if |a| > 0 && |b| > 0 && a[0] == b[0] {
      LexLeTotal(a[1..], b[1..]);
    }
  }

  lemma {:induction false} LexLeTrans(a: string, b: string, c: string)
    requires LexLe(a, b) && LexLe(b, c)
    ensures LexLe(a, c)
    decreases |a|
  {
    if |a| > 0 && a[0] == b[0] && b[0] == c[0] {
      LexLeTrans(a[1..], b[1..], c[1..]);
    }
  }

  lemma {:induction false} LexLeAntisymmetric(a: string, b: string)
    requires LexLe(a, b) && LexLe(b, a)
    ensures a == b
    decreases |a|
  {
    if |a| > 0 {
      LexLeAntisymmetric(a[1..], b[1..]);
      assert a == [a[0]] + a[1..] && b == [b[0]] + b[1..];
    }
  }

  /** The non-empty date strings of the cases, in case order. */
  function NonEmptyDates(cases: seq<CaseRecord>): (ds: seq<string>)
    ensures forall d :: d in ds <==> d != "" && exists c :: c in cases && c.date == d
    ensures |ds| == 0 <==> forall c :: c in cases ==> c.date == ""
  {
    if |cases| == 0 then []
    else
      var init := NonEmptyDates(cases[..|cases| - 1]);
      var last := cases[|cases| - 1];
      assert cases == cases[..|cases| - 1] + [last];
      if last.date != "" then init + [last.date] else init
  }

  /** Smallest and largest of a non-empty list of strings. */
  function Extremes(ds: seq<string>): (r: (string, string))
    requires |ds| > 0
    ensures r.0 in ds && r.1 in ds
    ensures forall d :: d in ds ==> LexLe(r.0, d) && LexLe(d, r.1)
  {
    if |ds| == 1 then
      LexLeRefl(ds[0]);
      (ds[0], ds[0])
    else
      var init := ds[..|ds| - 1];
      var (lo, hi) := Extremes(init);
      var d := ds[|ds| - 1];
      assert ds == init + [d];
      LexLeTotal(d, lo);
      LexLeTotal(d, hi);
      LexLeRefl(d);
      var lo' := if LexLe(d, lo) then d else lo;
      var hi' := if LexLe(hi, d) then d else hi;
      assert forall x :: x in init ==> LexLe(lo', x) && LexLe(x, hi') by {
        forall x | x in init ensures LexLe(lo', x) && LexLe(x, hi') {
          if LexLe(d, lo) { LexLeTrans(d, lo, x); }
          if LexLe(hi, d) { LexLeTrans(x, hi, d); }
        }
      }
      (lo', hi')
  }

  lemma {:induction false} LexLeRefl(a: string)
    ensures LexLe(a, a)
    decreases |a|
  {
    if |a| > 0 {
      LexLeRefl(a[1..]);
    }
  }

  /** Earliest and latest date after sorting, or `None` when no case has a date. */
  function DateRange(cases: seq<CaseRecord>): (r: Option<(string, string)>)
    ensures r.None? <==> forall c :: c in cases ==> c.date == ""
    ensures r.Some? ==> r.value.0 != "" && r.value.1 != ""
    ensures r.Some? ==> exists c :: c in cases && c.date == r.value.0
    ensures r.Some? ==> exists c :: c in cases && c.date == r.value.1
    ensures r.Some? ==> forall c :: c in cases && c.date != "" ==> LexLe(r.value.0, c.date) && LexLe(c.date, r.value.1)
  {
    var ds := NonEmptyDates(cases);
    if |ds| == 0 then
      None
    else
      assert ds[0] in ds;
      Some(Extremes(ds))
  }
}

=== FILE: catalogue.dfy ===
/**
 * Fixed tables of the system: the CIAA press-release categories, the
 * fiscal-year list of the historical crawler, and the enumerations that the
 * document schemas declare.
 */
module Catalogue {
  import opened Common
  import opened Text

  // ---------------------------------------------------------------------
  // Schema enumerations (src/models)

  /** `Case.caseStatus`. */
  datatype CaseStatus = Alleged | UnderInvestigation | CaseFiled | OnTrial | Convicted | Acquitted | Closed

  /** `Case.visibility`; new cases default to `Draft`. */
  datatype Visibility = Draft | Published

  /** `CasePerson.roleInCase`. */
  datatype Role = Accused | Investigator | Witness

  /** `CasePerson.statusLabel`. */
  datatype StatusLabel = LabelAlleged | LabelCaseFiled | LabelOnTrial | LabelConvicted | LabelAcquitted

  /** `Source.type`. */
  datatype SourceType = News | Official | Court

  function RoleName(r: Role): string {
    match r
    case Accused => "ACCUSED"
    case Investigator => "INVESTIGATOR"
    case Witness => "WITNESS"
  }

  /** The stored string of a role, or `None` for a string outside the enumeration. */
  function ParseRole(s: string): (r: Option<Role>)
    ensures r.Some? ==> RoleName(r.value) == s
  {
    if s == "ACCUSED" then Some(Accused)
    else if s == "INVESTIGATOR" then Some(Investigator)
    else if s == "WITNESS" then Some(Witness)
    else None
  }

  /** Every role's stored string parses back to that role. */
  lemma ParseRoleName(r: Role)
    ensures ParseRole(RoleName(r)) == Some(r)
  {
  }

  // ---------------------------------------------------------------------
  // CIAA press-release categories

  datatype Category = ChargeSheet | StingOperation | Appeal | Others {
    /** The key a caller names the category by. */
    function Key(): string {
      match this
      case ChargeSheet => "charge"
      case StingOperation => "sting"
      case Appeal => "appeal"
      case Others => "others"
    }

    function Name(): string {
      match this
      case ChargeSheet => "Charge Sheet"
      case StingOperation => "Sting Operation"
      case Appeal => "Appeal"
      case Others => "Others"
    }

    function Url(): string {
      "https://ciaa.gov.np/pressreleaseCategory/" + Key()
    }

    /** The `categoryType` label, one per category. */
    function Kind(): string {
      match this
      case ChargeSheet => "court_filing"
      case StingOperation => "arrest"
      case Appeal => "appeal"
      case Others => "other"
    }
  }

  /** The historical crawler's table has no `others` entry. */
  const HistoricalCategories: seq<Category> := [ChargeSheet, StingOperation, Appeal]

  const CurrentCategories: seq<Category> := [ChargeSheet, StingOperation, Appeal, Others]

  /** The categories a run visits when the caller names none. */
  const DefaultCategoryKeys: seq<string> := ["charge", "sting", "appeal"]

  /** `CATEGORIES[key]`: the first table entry with that key, `undefined` otherwise. */
  function LookupCategory(table: seq<Category>, key: string): (r: Option<Category>)
    ensures r.Some? ==> r.value in table && r.value.Key() == key
    ensures r.None? ==> forall c :: c in table ==> c.Key() != key
  {
    if |table| == 0 then None
    else if table[0].Key() == key then Some(table[0])
    else LookupCategory(table[1..], key)
  }

  /** Category keys, names and `categoryType` labels are pairwise distinct and free of `_` and `/`. */
  lemma CategoryLabelsDistinct(a: Category, b: Category)
    ensures a.Key() == b.Key() <==> a == b
    ensures a.Name() == b.Name() <==> a == b
    ensures a.Kind() == b.Kind() <==> a == b
    ensures '_' !in a.Key() && '/' !in a.Key()
  {
  }

  // ---------------------------------------------------------------------
  // Fiscal years (Nepali calendar)

  /** One fiscal-year filter value with its Bikram Sambat and Gregorian labels. */
  datatype FiscalYear = FiscalYear(value: string, yearLabel: string, gregorian: string)

  const FiscalYears: seq<FiscalYear> := [
    FiscalYear("2", "2072/73", "2015/16"),
    FiscalYear("3", "2073/74", "2016/17"),
    FiscalYear("4", "2074/75", "2017/18"),
    FiscalYear("5", "2075/76", "2018/19"),
    FiscalYear("6", "2076/77", "2019/20"),
    FiscalYear("7", "2077/78", "2020/21"),
    FiscalYear("8", "2078/79", "2021/22"),
    FiscalYear("9", "2079/80", "2022/23"),
    FiscalYear("10", "2080/81", "2023/24"),
    FiscalYear("11", "2081/82", "2024/25"),
    FiscalYear("12", "2082/83", "2025/26")
  ]

  /** The `fiscalYearGregorian` reported for a crawl without a fiscal-year filter. */
  const CurrentGregorian: string := "2025/26"

  /**
   * A fiscal-year value usable inside a synthetic id: non-empty (so `||`
   * keeps it), free of the `_` separator, and different from `current`.
   */
  predicate IdSafeValue(v: string) {
    |v| > 0 && '_' !in v && v != "current"
  }

  /** The table has eleven entries whose values are id-safe and pairwise distinct. */
  lemma FiscalYearsWellFormed()
    ensures |FiscalYears| == 11
    ensures forall i :: 0 <= i < |FiscalYears| ==> IdSafeValue(FiscalYears[i].value) && AllDigits(FiscalYears[i].value)
    ensures forall i, j :: 0 <= i < j < |FiscalYears| ==> FiscalYears[i].value != FiscalYears[j].value
    ensures forall i, j :: 0 <= i < j < |FiscalYears| ==> FiscalYears[i].yearLabel != FiscalYears[j].yearLabel
  {
  }
}

=== FILE: common.dfy ===
/** Failure-carrying wrappers shared by every module of the model. */
module Common {

  /** A value that may be absent: JavaScript's `null` / `undefined`. */
  datatype Option<+T> = None | Some(value: T) {
    function GetOr(default: T): T {
      match this
      case Some(v) => v
      case None => default
    }
  }

  /** The outcome of an operation that can throw. */
  datatype Result<+T, +E> = Ok(value: T) | Err(error: E)
}

=== FILE: crawl.dfy ===
/**
 * The page walker shared by both CIAA scrapers, and the two run
 * coordinators around it: the historical one that walks every
 * (category, fiscal year) pair and keeps per-year and per-category
 * counters, and the current one that skips unknown categories and counts
 * records per category and records with an amount.
 */
module Crawl {
  import opened Common
  import opened Text
  import opened Tally
  import opened Catalogue
  import opened Listing
  import opened Seqs

  // ---------------------------------------------------------------------
  // The page walk (`scrapeCategoryByYear`, `scrapeCIAACategory`)

  /** What a walk produced: the records, in order, and the page numbers it fetched. */
  datatype Walk = Walk(cases: seq<CaseRecord>, pages: seq<nat>)

  /**
   * The walk from `page` on: fetch the page, keep its records, and go on
   * to the next page only when the page reported a next page AND held at
   * least one record; never go past `maxPages`.
   */
  function WalkFrom(scrape: nat -> PageResult, page: nat, maxPages: nat): Walk
    requires page >= 1
    decreases maxPages + 1 - page
  {
    if page > maxPages then Walk([], [])
    else
      var r := scrape(page);
      if r.hasNextPage && |r.cases| > 0 then
        var rest := WalkFrom(scrape, page + 1, maxPages);
        Walk(r.cases + rest.cases, [page] + rest.pages)
      else
        Walk(r.cases, [page])
  }

  /**
   * The shape of a walk: pages are fetched consecutively from `page` and
   * never past `maxPages`; every page but the last had a next page and
   * some records; the last one lacked either, or was page `maxPages`.
   */
  lemma {:induction false} WalkShape(scrape: nat -> PageResult, page: nat, maxPages: nat)
    requires page >= 1
    ensures var w := WalkFrom(scrape, page, maxPages);
      && (page > maxPages <==> |w.pages| == 0)
      && (page <= maxPages ==> |w.pages| <= maxPages - page + 1)
      && (forall i :: 0 <= i < |w.pages| ==> w.pages[i] == page + i)
      && (forall i :: 0 <= i < |w.pages| - 1 ==>
            scrape(w.pages[i]).hasNextPage && |scrape(w.pages[i]).cases| > 0)
      && (|w.pages| > 0 ==>
            var last := scrape(w.pages[|w.pages| - 1]);
            !last.hasNextPage || |last.cases| == 0 || w.pages[|w.pages| - 1] == maxPages)
    decreases maxPages + 1 - page
  {
    if page <= maxPages {
      var r := scrape(page);
      if r.hasNextPage && |r.cases| > 0 {
        WalkShape(scrape, page + 1, maxPages);
        var rest := WalkFrom(scrape, page + 1, maxPages);
        var ps := [page] + rest.pages;
        assert WalkFrom(scrape, page, maxPages).pages == ps;
        forall i | 1 <= i < |ps|
          ensures ps[i] == rest.pages[i - 1]
        {
        }
      }
    }
  }

  /** The records of the given pages, concatenated in page order. */
  function CasesOf(scrape: nat -> PageResult, pages: seq<nat>): seq<CaseRecord>
  {
    if |pages| == 0 then [] else scrape(pages[0]).cases + CasesOf(scrape, pages[1..])
  }

  /** A walk's output is exactly the in-order concatenation of the pages it fetched. */
  lemma CasesOfCons(scrape: nat -> PageResult, page: nat, rest: seq<nat>)
    ensures CasesOf(scrape, [page] + rest) == scrape(page).cases + CasesOf(scrape, rest)
  {
    assert ([page] + rest)[1..] == rest;
  }

  /** A page with records and a next-page indicator is followed by the walk from the next page. */
  lemma WalkContinues(scrape: nat -> PageResult, page: nat, maxPages: nat)
    requires 1 <= page <= maxPages && scrape(page).hasNextPage && |scrape(page).cases| > 0
    ensures WalkFrom(scrape, page, maxPages) ==
      Walk(scrape(page).cases + WalkFrom(scrape, page + 1, maxPages).cases, [page] + WalkFrom(scrape, page + 1, maxPages).pages)
  {
  }

  /** A page without records or without a next-page indicator ends the walk. */
  lemma WalkStops(scrape: nat -> PageResult, page: nat, maxPages: nat)
    requires 1 <= page <= maxPages && !(scrape(page).hasNextPage && |scrape(page).cases| > 0)
    ensures WalkFrom(scrape, page, maxPages) == Walk(scrape(page).cases, [page])
  {
  }

  /** Past `maxPages` nothing is fetched. */
  lemma WalkEnds(scrape: nat -> PageResult, page: nat, maxPages: nat)
    requires page > maxPages
    ensures WalkFrom(scrape, page, maxPages) == Walk([], [])
  {
  }

  /** A walk's output is exactly the in-order concatenation of the pages it fetched. */
  lemma {:induction false} WalkIsConcatenation(scrape: nat -> PageResult, page: nat, maxPages: nat)
    requires page >= 1
    ensures WalkFrom(scrape, page, maxPages).cases == CasesOf(scrape, WalkFrom(scrape, page, maxPages).pages)
    decreases maxPages + 1 - page
  {
    if page <= maxPages {
      var r := scrape(page);
      if r.hasNextPage && |r.cases| > 0 {
        WalkIsConcatenation(scrape, page + 1, maxPages);
        CasesOfCons(scrape, page, WalkFrom(scrape, page + 1, maxPages).pages);
      } else {
        CasesOfCons(scrape, page, []);
      }
    }
  }

  /** A first page without a next-page indicator is the only page fetched. */
  lemma SinglePageWhenNoNext(scrape: nat -> PageResult, maxPages: nat)
    requires maxPages >= 1 && !scrape(1).hasNextPage
    ensures WalkFrom(scrape, 1, maxPages) == Walk(scrape(1).cases, [1])
  {
  }

  /**
   * The `while (hasMore && currentPage <= maxPages)` loop itself; it
   * computes the same walk as `WalkFrom` started at page 1.
   */
  method WalkPages(scrape: nat -> PageResult, maxPages: nat) returns (cases: seq<CaseRecord>, pages: seq<nat>)
    ensures Walk(cases, pages) == WalkFrom(scrape, 1, maxPages)
    ensures |pages| <= maxPages
    ensures cases == CasesOf(scrape, pages)
  {
    cases, pages := [], [];
    var currentPage := 1;
    var hasMore := true;
    while hasMore && currentPage <= maxPages
      invariant hasMore && currentPage >= 1
      invariant WalkFrom(scrape, 1, maxPages).cases == cases + WalkFrom(scrape, currentPage, maxPages).cases
      invariant WalkFrom(scrape, 1, maxPages).pages == pages + WalkFrom(scrape, currentPage, maxPages).pages
      decreases maxPages + 1 - currentPage
    {
      var result := scrape(currentPage);
      ghost var before := Walk(cases, pages);
      cases := cases + result.cases;
      pages := pages + [currentPage];
      hasMore := result.hasNextPage && |result.cases| > 0;
      if hasMore {
        WalkContinues(scrape, currentPage, maxPages);
        ghost var rest := WalkFrom(scrape, currentPage + 1, maxPages);
        AppendAssoc(before.cases, result.cases, rest.cases);
        AppendAssoc(before.pages, [currentPage], rest.pages);
        currentPage := currentPage + 1;
      } else {
        WalkStops(scrape, currentPage, maxPages);
        break;
      }
    }
    if currentPage > maxPages {
      WalkEnds(scrape, currentPage, maxPages);
      assert cases + [] == cases && pages + [] == pages;
    }
    assert |pages| <= maxPages by {
      WalkShape(scrape, 1, maxPages);
    }
    WalkIsConcatenation(scrape, 1, maxPages);
  }

  /** The page oracle a category walk drives: `scrapeCIAAPage` for page `p`. */
  function PageOracle(f: Flavour, fetch: Fetch, category: Category, fiscal: Option<FiscalYear>): nat -> PageResult
  {
    (p: nat) => ScrapePage(f, fetch, PageContext(category, fiscal, p))
  }

  // ---------------------------------------------------------------------
  // Historical run (`scrapeAllHistoricalData`)

  /** Records collected so far with the per-fiscal-year and per-category-name counters. */
  datatype HistoricalRun = HistoricalRun(cases: seq<CaseRecord>, byYear: Tally, byCategory: Tally)

  /** Both counter tables account for every record collected. */
  predicate Balanced(run: HistoricalRun) {
    Total(run.byYear) == |run.cases| && Total(run.byCategory) == |run.cases|
  }

  /** One finished (category, fiscal year) walk appended to the run. */
  function Record(run: HistoricalRun, category: Category, fy: FiscalYear, cases: seq<CaseRecord>): (r: HistoricalRun)
    ensures Balanced(run) ==> Balanced(r)
    ensures r.cases == run.cases + cases
    ensures CountOf(r.byYear, fy.yearLabel) == CountOf(run.byYear, fy.yearLabel) + |cases|
    ensures CountOf(r.byCategory, category.Name()) == CountOf(run.byCategory, category.Name()) + |cases|
    ensures forall y :: CountOf(r.byYear, y) == CountOf(run.byYear, y) + (if y == fy.yearLabel then |cases| else 0)
    ensures forall q :: CountOf(r.byCategory, q) == CountOf(run.byCategory, q) + (if q == category.Name() then |cases| else 0)
  {
    BumpTotal(run.byYear, fy.yearLabel, |cases|);
    BumpTotal(run.byCategory, category.Name(), |cases|);
    assert forall y :: CountOf(Bump(run.byYear, fy.yearLabel, |cases|), y) == CountOf(run.byYear, y) + (if y == fy.yearLabel then |cases| else 0) by {
      forall y ensures CountOf(Bump(run.byYear, fy.yearLabel, |cases|), y) == CountOf(run.byYear, y) + (if y == fy.yearLabel then |cases| else 0) {
        BumpCount(run.byYear, fy.yearLabel, |cases|, y);
      }
    }
    assert forall q :: CountOf(Bump(run.byCategory, category.Name(), |cases|), q) == CountOf(run.byCategory, q) + (if q == category.Name() then |cases| else 0) by {
      forall q ensures CountOf(Bump(run.byCategory, category.Name(), |cases|), q) == CountOf(run.byCategory, q) + (if q == category.Name() then |cases| else 0) {
        BumpCount(run.byCategory, category.Name(), |cases|, q);
      }
    }
    HistoricalRun(run.cases + cases,
                  Bump(run.byYear, fy.yearLabel, |cases|),
                  Bump(run.byCategory, category.Name(), |cases|))
  }

  /** A prefix of a prefix is a prefix. */
  lemma PrefixOfPrefix(a: seq<CaseRecord>, b: seq<CaseRecord>, c: seq<CaseRecord>)
    requires |a| <= |b| <= |c| && b[..|a|] == a && c[..|b|] == b
    ensures c[..|a|] == a
  {
    assert c[..|a|] == c[..|b|][..|a|];
  }

  /** One (category, fiscal year) walk of a historical run and the records it collected. */
  datatype Piece = Piece(category: Category, fy: FiscalYear, cases: seq<CaseRecord>)

  /** The walks of one category, one per fiscal year, in year order. */
  function YearPieces(fetch: Fetch, category: Category, years: seq<FiscalYear>, maxPages: nat): seq<Piece>
  {
    if |years| == 0 then []
    else
      [Piece(category, years[0], WalkFrom(PageOracle(Historical, fetch, category, Some(years[0])), 1, maxPages).cases)]
        + YearPieces(fetch, category, years[1..], maxPages)
  }

  /** The walks of a run over `keys`: category-major in key order, fiscal-year-minor. */
  function KeyPieces(fetch: Fetch, keys: seq<string>, years: seq<FiscalYear>, maxPages: nat): seq<Piece>
  {
    if |keys| == 0 then []
    else
      match LookupCategory(Catalogue.HistoricalCategories, keys[0])
      case None => KeyPieces(fetch, keys[1..], years, maxPages)
      case Some(category) => YearPieces(fetch, category, years, maxPages) + KeyPieces(fetch, keys[1..], years, maxPages)
  }

  /** The records of the walks, concatenated in walk order. */
  function PiecesCases(ps: seq<Piece>): seq<CaseRecord>
  {
    if |ps| == 0 then [] else ps[0].cases + PiecesCases(ps[1..])
  }

  /** The number of records the walks of fiscal-year label `y` collected. */
  function YearTotal(ps: seq<Piece>, y: string): nat
  {
    if |ps| == 0 then 0 else (if ps[0].fy.yearLabel == y then |ps[0].cases| else 0) + YearTotal(ps[1..], y)
  }

  /** The number of records the walks of category name `q` collected. */
  function CategoryTotal(ps: seq<Piece>, q: string): nat
  {
    if |ps| == 0 then 0 else (if ps[0].category.Name() == q then |ps[0].cases| else 0) + CategoryTotal(ps[1..], q)
  }

  /** Records and totals of two runs of walks are those of the first run followed by, or added to, those of the second. */
  lemma {:induction false} PiecesAppend(a: seq<Piece>, b: seq<Piece>)
    ensures PiecesCases(a + b) == PiecesCases(a) + PiecesCases(b)
    ensures forall y :: YearTotal(a + b, y) == YearTotal(a, y) + YearTotal(b, y)
    ensures forall q :: CategoryTotal(a + b, q) == CategoryTotal(a, q) + CategoryTotal(b, q)
  {
    if |a| > 0 {
      assert (a + b)[0] == a[0] && (a + b)[1..] == a[1..] + b;
      PiecesAppend(a[1..], b);
      AppendAssoc(a[0].cases, PiecesCases(a[1..]), PiecesCases(b));
    } else {
      assert a + b == b;
    }
  }

  /** The inner loop over fiscal years for one category. */
  function HistoricalYears(fetch: Fetch, category: Category, years: seq<FiscalYear>, maxPages: nat, run: HistoricalRun): (r: HistoricalRun)
    ensures Balanced(run) ==> Balanced(r)
    ensures |run.cases| <= |r.cases| && r.cases[..|run.cases|] == run.cases
    ensures r.cases == run.cases + PiecesCases(YearPieces(fetch, category, years, maxPages))
    ensures forall y :: CountOf(r.byYear, y) == CountOf(run.byYear, y) + YearTotal(YearPieces(fetch, category, years, maxPages), y)
    ensures forall q :: CountOf(r.byCategory, q) == CountOf(run.byCategory, q) + CategoryTotal(YearPieces(fetch, category, years, maxPages), q)
  {
    if |years| == 0 then
      assert run.cases + [] == run.cases;
      run
    else
      var walk := WalkFrom(PageOracle(Historical, fetch, category, Some(years[0])), 1, maxPages);
      var next := Record(run, category, years[0], walk.cases);
      var r := HistoricalYears(fetch, category, years[1..], maxPages, next);
      var ps := YearPieces(fetch, category, years, maxPages);
      assert ps[1..] == YearPieces(fetch, category, years[1..], maxPages);
      AppendAssoc(run.cases, walk.cases, PiecesCases(ps[1..]));
      assert next.cases[..|run.cases|] == run.cases;
      PrefixOfPrefix(run.cases, next.cases, r.cases);
      r
  }

  /**
   * The outer loop over category keys. An unknown key makes
   * `CATEGORIES[category].name` throw a `TypeError`, which ends the run.
   */
  function HistoricalCategories(fetch: Fetch, keys: seq<string>, years: seq<FiscalYear>, maxPages: nat, run: HistoricalRun): (r: Result<HistoricalRun, string>)
    ensures r.Err? <==> exists i :: 0 <= i < |keys| && LookupCategory(Catalogue.HistoricalCategories, keys[i]).None?
    ensures r.Ok? && Balanced(run) ==> Balanced(r.value)
    ensures r.Ok? ==> |run.cases| <= |r.value.cases| && r.value.cases[..|run.cases|] == run.cases
    ensures r.Ok? ==> r.value.cases == run.cases + PiecesCases(KeyPieces(fetch, keys, years, maxPages))
    ensures r.Ok? ==> forall y :: CountOf(r.value.byYear, y) == CountOf(run.byYear, y) + YearTotal(KeyPieces(fetch, keys, years, maxPages), y)
    ensures r.Ok? ==> forall q :: CountOf(r.value.byCategory, q) == CountOf(run.byCategory, q) + CategoryTotal(KeyPieces(fetch, keys, years, maxPages), q)
  {
    if |keys| == 0 then
      assert run.cases + [] == run.cases;
      Ok(run)
    else
      match LookupCategory(Catalogue.HistoricalCategories, keys[0])
      case None => Err("TypeError: unknown category " + keys[0])
      case Some(category) =>
        var next := HistoricalYears(fetch, category, years, maxPages, run);
        var r := HistoricalCategories(fetch, keys[1..], years, maxPages, next);
        assert forall i :: 0 <= i < |keys[1..]| ==> keys[1..][i] == keys[i + 1];
        if r.Ok? then
          PrefixOfPrefix(run.cases, next.cases, r.value.cases);
          var mine := YearPieces(fetch, category, years, maxPages);
          var later := KeyPieces(fetch, keys[1..], years, maxPages);
          PiecesAppend(mine, later);
          AppendAssoc(run.cases, PiecesCases(mine), PiecesCases(later));
          r
        else r
  }

  /** A whole historical run: its counters always sum to the number of records it returns. */
  function ScrapeAllHistorical(fetch: Fetch, keys: seq<string>, years: seq<FiscalYear>, maxPages: nat): (r: Result<HistoricalRun, string>)
    ensures r.Err? <==> exists i :: 0 <= i < |keys| && LookupCategory(Catalogue.HistoricalCategories, keys[i]).None?
    ensures r.Ok? ==> Total(r.value.byYear) == |r.value.cases| && Total(r.value.byCategory) == |r.value.cases|
    ensures r.Ok? ==> r.value.cases == PiecesCases(KeyPieces(fetch, keys, years, maxPages))
    ensures r.Ok? ==> forall y :: CountOf(r.value.byYear, y) == YearTotal(KeyPieces(fetch, keys, years, maxPages), y)
    ensures r.Ok? ==> forall q :: CountOf(r.value.byCategory, q) == CategoryTotal(KeyPieces(fetch, keys, years, maxPages), q)
  {
    HistoricalCategories(fetch, keys, years, maxPages, HistoricalRun([], [], []))
  }

  // ---------------------------------------------------------------------
  // Current run (`scrapeAllCIAACategories`)

  /** Records collected and the URLs fetched, in order. */
  datatype CurrentRun = CurrentRun(cases: seq<CaseRecord>, fetched: seq<string>)

  /** The URLs a category walk fetched. */
  function FetchedUrls(category: Category, pages: seq<nat>): (urls: seq<string>)
    ensures |urls| == |pages|
    ensures forall i :: 0 <= i < |urls| ==> urls[i] == PageUrl(category.Url(), None, pages[i])
  {
    seq(|pages|, i requires 0 <= i < |pages| => PageUrl(category.Url(), None, pages[i]))
  }

  /** The walk of the current category a key names; nothing for a key outside the table. */
  function KeyWalk(fetch: Fetch, maxPages: nat, key: string): Walk
  {
    match LookupCategory(Catalogue.CurrentCategories, key)
    case None => Walk([], [])
    case Some(category) => WalkFrom(PageOracle(Current, fetch, category, None), 1, maxPages)
  }

  /** The records of each key's walk. */
  function KeyCases(fetch: Fetch, maxPages: nat): string -> seq<CaseRecord>
  {
    (key: string) => KeyWalk(fetch, maxPages, key).cases
  }

  /** The URLs each key's walk fetched. */
  function KeyFetches(fetch: Fetch, maxPages: nat): string -> seq<string>
  {
    (key: string) =>
      match LookupCategory(Catalogue.CurrentCategories, key)
      case None => []
      case Some(category) => FetchedUrls(category, KeyWalk(fetch, maxPages, key).pages)
  }

  /**
   * The loop over category keys; a key not in the table is skipped before
   * any fetch. The run holds, in key order, the records and fetched URLs of
   * the walk of every key that names a category.
   */
  function CurrentCategories(fetch: Fetch, keys: seq<string>, maxPages: nat): (r: CurrentRun)
    ensures forall u :: u in r.fetched ==> exists c :: c in Catalogue.CurrentCategories && StartsWith(u, c.Url())
    ensures r.cases == FlatMap(KeyCases(fetch, maxPages), KnownKeys(keys))
    ensures r.fetched == FlatMap(KeyFetches(fetch, maxPages), KnownKeys(keys))
  {
    if |keys| == 0 then CurrentRun([], [])
    else
      var rest := CurrentCategories(fetch, keys[1..], maxPages);
      match LookupCategory(Catalogue.CurrentCategories, keys[0])
      case None => rest
      case Some(category) =>
        var walk := WalkFrom(PageOracle(Current, fetch, category, None), 1, maxPages);
        var urls := FetchedUrls(category, walk.pages);
        FlatMapCons(KeyCases(fetch, maxPages), keys[0], KnownKeys(keys[1..]));
        FlatMapCons(KeyFetches(fetch, maxPages), keys[0], KnownKeys(keys[1..]));
        CurrentRun(walk.cases + rest.cases, urls + rest.fetched)
  }

  /** The keys that name a known category, in order. */
  function KnownKeys(keys: seq<string>): (k: seq<string>)
    ensures forall x :: x in k ==> x in keys && LookupCategory(Catalogue.CurrentCategories, x).Some?
    ensures forall x :: x in keys && LookupCategory(Catalogue.CurrentCategories, x).Some? ==> x in k
  {
    if |keys| == 0 then []
    else if LookupCategory(Catalogue.CurrentCategories, keys[0]).Some? then [keys[0]] + KnownKeys(keys[1..])
    else KnownKeys(keys[1..])
  }

  /** Unknown keys change nothing: neither the records nor the fetches. */
  lemma {:induction false} UnknownKeysSkipped(fetch: Fetch, keys: seq<string>, maxPages: nat)
    ensures CurrentCategories(fetch, keys, maxPages) == CurrentCategories(fetch, KnownKeys(keys), maxPages)
  {
    if |keys| > 0 {
      UnknownKeysSkipped(fetch, keys[1..], maxPages);
      if LookupCategory(Catalogue.CurrentCategories, keys[0]).Some? {
        var k := KnownKeys(keys);
        assert k[0] == keys[0] && k[1..] == KnownKeys(keys[1..]);
      }
    }
  }

  /** Every key of the default run names a historical category, so a default historical run never fails. */
  lemma DefaultHistoricalRunSucceeds(fetch: Fetch, years: seq<FiscalYear>, maxPages: nat)
    ensures ScrapeAllHistorical(fetch, Catalogue.DefaultCategoryKeys, years, maxPages).Ok?
  {
    DefaultKeysHistorical();
  }

  lemma DefaultKeysHistorical()
    ensures forall i :: 0 <= i < |Catalogue.DefaultCategoryKeys| ==>
      LookupCategory(Catalogue.HistoricalCategories, Catalogue.DefaultCategoryKeys[i]).Some?
  {
    var keys := Catalogue.DefaultCategoryKeys;
    assert LookupCategory(Catalogue.HistoricalCategories, keys[0]) == Some(ChargeSheet);
    assert LookupCategory(Catalogue.HistoricalCategories, keys[1]) == Some(StingOperation);
    assert LookupCategory(Catalogue.HistoricalCategories, keys[2]) == Some(Appeal);
  }

  /** Every key of the default run names a current category, so a default current run skips none. */
  lemma DefaultCurrentKeysKnown()
    ensures KnownKeys(Catalogue.DefaultCategoryKeys) == Catalogue.DefaultCategoryKeys
  {
    var keys := Catalogue.DefaultCategoryKeys;
    assert LookupCategory(Catalogue.CurrentCategories, keys[0]) == Some(ChargeSheet);
    assert LookupCategory(Catalogue.CurrentCategories, keys[1]) == Some(StingOperation);
    assert LookupCategory(Catalogue.CurrentCategories, keys[2]) == Some(Appeal);
    assert keys[1..][1..][1..] == [];
  }

  /** The run's closing summary. */
  datatype CurrentSummary = CurrentSummary(total: nat, byCategory: Tally, withAmounts: nat)

  predicate HasAmount(c: CaseRecord) {
    Trim(c.amount) != ""
  }

  /** The number of cases whose amount is non-blank. */
  function CountWithAmounts(cases: seq<CaseRecord>): (n: nat)
    ensures n <= |cases|
    ensures n == |cases| <==> forall i :: 0 <= i < |cases| ==> HasAmount(cases[i])
    ensures n == 0 <==> forall i :: 0 <= i < |cases| ==> !HasAmount(cases[i])
  {
    CountWhereAll(cases, HasAmount);
    CountWhereNone(cases, HasAmount);
    CountWhere(cases, HasAmount)
  }

  /** The records with an amount in two runs are those of the first run plus those of the second. */
  lemma CountWithAmountsAppend(a: seq<CaseRecord>, b: seq<CaseRecord>)
    ensures CountWithAmounts(a + b) == CountWithAmounts(a) + CountWithAmounts(b)
  {
    CountWhereAppend(a, b, HasAmount);
  }

  /** A single record counts exactly when its amount is non-blank. */
  lemma CountWithAmountsSingle(c: CaseRecord)
    ensures CountWithAmounts([c]) == if HasAmount(c) then 1 else 0
  {
    assert [c][..0] == [];
  }

  function Summarise(cases: seq<CaseRecord>): (s: CurrentSummary)
    ensures s.total == |cases|
    ensures Total(s.byCategory) == |cases|
    ensures forall q :: CountOf(s.byCategory, q) == multiset(CategoryKeys(cases))[q]
    ensures s.withAmounts <= s.total
    ensures s.withAmounts == CountWithAmounts(cases)
  {
    CountByTotal(CategoryKeys(cases));
    CountByDistinct(CategoryKeys(cases));
    var t := CountBy(CategoryKeys(cases));
    assert forall q :: CountOf(t, q) == multiset(CategoryKeys(cases))[q] by {
      forall q ensures CountOf(t, q) == multiset(CategoryKeys(cases))[q] {
        CountByCounts(CategoryKeys(cases), q);
      }
    }
    CurrentSummary(|cases|, t, CountWithAmounts(cases))
  }
}

=== FILE: importer.dfy ===
/**
 * The CIAA importer: the category-to-status table, location inference
 * from the office text, the record-to-case transform, and the import loop
 * that skips records whose `detailUrl` is already stored. The loop is given
 * twice: as intended, where a created case's `detailUrl` is stored, and as
 * written against the `Case` schema, which drops that field.
 */
module Importer {
  import opened Common
  import opened Text
  import opened Seqs
  import opened Catalogue
  import opened Listing

  // ---------------------------------------------------------------------
  // Field rules

  /** `mapCategoryToStatus`: the status a CIAA category name implies. */
  function MapCategoryToStatus(category: string): (s: CaseStatus)
    ensures s == CaseFiled <==> category == "Charge Sheet"
    ensures s == UnderInvestigation <==> category == "Sting Operation"
    ensures s == OnTrial <==> category == "Appeal"
    ensures s == Alleged <==> category != "Charge Sheet" && category != "Sting Operation" && category != "Appeal"
  {
    if category == "Charge Sheet" then CaseFiled
    else if category == "Sting Operation" then UnderInvestigation
    else if category == "Appeal" then OnTrial
    else Alleged
  }

  /** The status of every category the scrapers emit; only `Others` falls back to `ALLEGED`. */
  lemma StatusOfCategories()
    ensures MapCategoryToStatus(ChargeSheet.Name()) == CaseFiled
    ensures MapCategoryToStatus(StingOperation.Name()) == UnderInvestigation
    ensures MapCategoryToStatus(Appeal.Name()) == OnTrial
    ensures MapCategoryToStatus(Others.Name()) == Alleged
  {
  }

  const Locations: seq<string> := ["Kathmandu", "Pokhara", "Lalitpur", "Bhaktapur", "Biratnagar", "Chitwan", "Bharatpur"]

  const DefaultLocation: string := "Nepal"

  /** The first location, from position `i` on, that occurs in `office`. */
  function FirstLocationFrom(office: string, i: nat): (r: Option<nat>)
    requires i <= |Locations|
    ensures r.Some? ==> i <= r.value < |Locations| && Contains(office, Locations[r.value])
    ensures r.Some? ==> forall j :: i <= j < r.value ==> !Contains(office, Locations[j])
    ensures r.None? ==> forall j :: i <= j < |Locations| ==> !Contains(office, Locations[j])
    decreases |Locations| - i
  {
    if i == |Locations| then None
    else if ContainsScan(office, Locations[i]) then Some(i)
    else FirstLocationFrom(office, i + 1)
  }

  /**
   * `extractLocation`: `Nepal` for an empty office, `-` or `N/A`;
   * otherwise the first listed city the office text contains, or `Nepal`.
   */
  function ExtractLocation(office: string): (loc: string)
    ensures loc == DefaultLocation || loc in Locations
    ensures office == "" || office == "-" || office == "N/A" ==> loc == DefaultLocation
    ensures loc in Locations ==>
      exists k :: 0 <= k < |Locations| && loc == Locations[k] && Contains(office, loc)
                  && forall j :: 0 <= j < k ==> !Contains(office, Locations[j])
    ensures loc == DefaultLocation && office != "" && office != "-" && office != "N/A" ==>
      forall j :: 0 <= j < |Locations| ==> !Contains(office, Locations[j])
  {
    if office == "" || office == "-" || office == "N/A" then DefaultLocation
    else
      match FirstLocationFrom(office, 0)
      case Some(k) => Locations[k]
      case None => DefaultLocation
  }

  /** `x && x !== sentinel ? x : null`. */
  function NullUnless(x: string, sentinel: string): (r: Option<string>)
    ensures r.None? <==> x == "" || x == sentinel
    ensures r.Some? ==> r.value == x
  {
    if x != "" && x != sentinel then Some(x) else None
  }

  /** A stored case document (the fields the transform writes). */
  datatype CaseDoc = CaseDoc(
    title: string,
    summary: string,
    caseStatus: CaseStatus,
    institution: string,
    location: string,
    amountInvolved: Option<string>,
    dateText: string,
    visibility: Visibility,
    category: string,
    categoryType: string,
    fiscalYear: Option<string>,
    fiscalYearGregorian: Option<string>,
    accusedPerson: Option<string>,
    office: Option<string>,
    accusation: Option<string>,
    detailUrl: Option<string>,
    sourceUrl: string,
    dataSource: string)

  /** The record-to-case transform of the import loop. */
  function Transform(c: CaseRecord): (d: CaseDoc)
    ensures d.title != "" && d.summary != ""
    ensures c.title != "" ==> d.title == c.title && d.summary == c.title
    ensures c.title == "" ==> d.title == "Untitled" && d.summary == "No summary available"
    ensures d.caseStatus == MapCategoryToStatus(c.category) && d.location == ExtractLocation(c.office)
    ensures d.amountInvolved.None? <==> c.amount == "" || c.amount == "N/A"
    ensures d.accusedPerson.None? <==> c.accusedPerson == "" || c.accusedPerson == "N/A"
    ensures d.office.None? <==> c.office == "" || c.office == "N/A"
    ensures d.accusation.None? <==> c.accusation == "" || c.accusation == "-"
    ensures d.visibility == Published && d.dataSource == "CIAA" && d.institution == "CIAA - " + c.category
    ensures d.detailUrl == c.detailUrl
  {
    CaseDoc(
      title := if c.title != "" then c.title else "Untitled",
      summary := if c.title != "" then c.title else "No summary available",
      caseStatus := MapCategoryToStatus(c.category),
      institution := "CIAA - " + c.category,
      location := ExtractLocation(c.office),
      amountInvolved := NullUnless(c.amount, "N/A"),
      dateText := c.date,
      visibility := Published,
      category := c.category,
      categoryType := c.categoryType,
      fiscalYear := c.fiscalYear,
      fiscalYearGregorian := c.fiscalYearGregorian,
      accusedPerson := NullUnless(c.accusedPerson, "N/A"),
      office := NullUnless(c.office, "N/A"),
      accusation := NullUnless(c.accusation, "-"),
      detailUrl := c.detailUrl,
      sourceUrl := c.sourceUrl,
      dataSource := "CIAA")
  }

  // ---------------------------------------------------------------------
  // The import loop

  /** `if (ciaaCase.detailUrl)`. */
  predicate Truthy(u: Option<string>) {
    u.Some? && u.value != ""
  }

  /** Progress of the import: the `detailUrl`s in the store, the counters, and the cases created. */
  datatype ImportRun = ImportRun(stored: set<string>, imported: nat, skipped: nat, errors: nat, created: seq<CaseDoc>)

  /** The `detailUrl`s of the created cases. */
  function UrlsOf(docs: seq<CaseDoc>): set<string> {
    set i | 0 <= i < |docs| && docs[i].detailUrl.Some? :: docs[i].detailUrl.value
  }

  /**
   * What the loop maintains relative to the store it started from: the
   * store holds exactly the initial URLs plus those of the created cases,
   * and no created case repeats a stored or earlier created `detailUrl`.
   */
  predicate Consistent(initial: set<string>, run: ImportRun) {
    && run.stored == initial + UrlsOf(run.created)
    && run.imported == |run.created|
    && (forall i :: 0 <= i < |run.created| && Truthy(run.created[i].detailUrl) ==>
          run.created[i].detailUrl.value !in initial)
    && (forall i, j :: 0 <= i < j < |run.created| && Truthy(run.created[j].detailUrl) ==>
          run.created[i].detailUrl != run.created[j].detailUrl)
  }

  /**
   * One iteration, as intended: a record whose `detailUrl` is truthy and already stored
   * is skipped; otherwise it is transformed and created, which either
   * succeeds (`accept`) or counts as an error.
   */
  function ImportOne(run: ImportRun, c: CaseRecord, accept: CaseDoc -> bool): (r: ImportRun)
    ensures r.imported + r.skipped + r.errors == run.imported + run.skipped + run.errors + 1
    ensures r.skipped == run.skipped + 1 <==> Truthy(c.detailUrl) && c.detailUrl.value in run.stored
    ensures !Truthy(c.detailUrl) ==> r.skipped == run.skipped
    ensures Truthy(c.detailUrl) && c.detailUrl.value in run.stored ==> r.created == run.created && r.stored == run.stored
    ensures !(Truthy(c.detailUrl) && c.detailUrl.value in run.stored) && accept(Transform(c)) ==>
      r.created == run.created + [Transform(c)] && r.imported == run.imported + 1 && r.errors == run.errors
      && r.stored == run.stored + (if c.detailUrl.Some? then {c.detailUrl.value} else {})
    ensures !(Truthy(c.detailUrl) && c.detailUrl.value in run.stored) && !accept(Transform(c)) ==>
      r.created == run.created && r.imported == run.imported && r.errors == run.errors + 1
  {
    if Truthy(c.detailUrl) && c.detailUrl.value in run.stored then
      run.(skipped := run.skipped + 1)
    else
      var doc := Transform(c);
      if accept(doc) then
        var stored := if c.detailUrl.Some? then run.stored + {c.detailUrl.value} else run.stored;
        run.(stored := stored, imported := run.imported + 1, created := run.created + [doc])
      else
        run.(errors := run.errors + 1)
  }

  /** Creating one more case adds its `detailUrl`, if any, to the URLs of the created cases. */
  lemma UrlsOfSnoc(docs: seq<CaseDoc>, doc: CaseDoc)
    ensures UrlsOf(docs + [doc]) == UrlsOf(docs) + (if doc.detailUrl.Some? then {doc.detailUrl.value} else {})
  {
    var all := docs + [doc];
    var n := |docs|;
    forall u | u in UrlsOf(all)
      ensures u in UrlsOf(docs) || (doc.detailUrl.Some? && u == doc.detailUrl.value)
    {
      var i :| 0 <= i < |all| && all[i].detailUrl.Some? && all[i].detailUrl.value == u;
      if i < n {
        assert all[i] == docs[i];
      }
    }
    forall u | u in UrlsOf(docs)
      ensures u in UrlsOf(all)
    {
      var i :| 0 <= i < n && docs[i].detailUrl.Some? && docs[i].detailUrl.value == u;
      assert all[i] == docs[i];
    }
    if doc.detailUrl.Some? {
      assert all[n] == doc;
    }
  }

  lemma ImportOneConsistent(initial: set<string>, run: ImportRun, c: CaseRecord, accept: CaseDoc -> bool)
    requires Consistent(initial, run)
    ensures Consistent(initial, ImportOne(run, c, accept))
  {
    var r := ImportOne(run, c, accept);
    if r.created != run.created {
      var doc := Transform(c);
      assert r.created == run.created + [doc];
      UrlsOfSnoc(run.created, doc);
      if Truthy(doc.detailUrl) {
        forall i | 0 <= i < |run.created| && run.created[i].detailUrl.Some?
          ensures run.created[i].detailUrl.value in UrlsOf(run.created)
        {
        }
      }
    }
  }

  /** The loop over all records, in file order. */
  function ImportFrom(run: ImportRun, cases: seq<CaseRecord>, accept: CaseDoc -> bool): (r: ImportRun)
    ensures r.imported + r.skipped + r.errors == run.imported + run.skipped + run.errors + |cases|
    decreases |cases|
  {
    if |cases| == 0 then run
    else ImportFrom(ImportOne(run, cases[0], accept), cases[1..], accept)
  }

  lemma {:induction false} ImportFromConsistent(initial: set<string>, run: ImportRun, cases: seq<CaseRecord>, accept: CaseDoc -> bool)
    requires Consistent(initial, run)
    ensures Consistent(initial, ImportFrom(run, cases, accept))
    decreases |cases|
  {
    if |cases| > 0 {
      ImportOneConsistent(initial, run, cases[0], accept);
      ImportFromConsistent(initial, ImportOne(run, cases[0], accept), cases[1..], accept);
    }
  }

  /** Running the loop over one more record is one more iteration after the loop over the others. */
  lemma {:induction false} ImportFromSnoc(run: ImportRun, a: seq<CaseRecord>, c: CaseRecord, accept: CaseDoc -> bool)
    ensures ImportFrom(run, a + [c], accept) == ImportOne(ImportFrom(run, a, accept), c, accept)
    decreases |a|
  {
    if |a| == 0 {
      assert (a + [c])[1..] == [];
    } else {
      assert (a + [c])[0] == a[0] && (a + [c])[1..] == a[1..] + [c];
      ImportFromSnoc(ImportOne(run, a[0], accept), a[1..], c, accept);
    }
  }

  // ---------------------------------------------------------------------
  // What an import does, record by record, without the run's state

  /** The record carries URL `u` and its creation succeeds. */
  function AcceptsWithUrl(accept: CaseDoc -> bool, u: string): CaseRecord -> bool {
    (c: CaseRecord) => c.detailUrl == Some(u) && accept(Transform(c))
  }

  /** Some record with URL `u` was accepted. */
  predicate AcceptedWith(cases: seq<CaseRecord>, accept: CaseDoc -> bool, u: string) {
    CountWhere(cases, AcceptsWithUrl(accept, u)) > 0
  }

  /**
   * Record `c`, coming after `earlier`, finds its `detailUrl` already in the
   * store: the URL is truthy and was stored at the start or belongs to an
   * earlier record whose creation succeeded.
   */
  predicate StoredBefore(stored: set<string>, earlier: seq<CaseRecord>, c: CaseRecord, accept: CaseDoc -> bool) {
    Truthy(c.detailUrl) && (c.detailUrl.value in stored || AcceptedWith(earlier, accept, c.detailUrl.value))
  }

  /** The documents an import creates, in file order: each record not already stored whose creation succeeds, transformed. */
  function NewDocs(stored: set<string>, cases: seq<CaseRecord>, accept: CaseDoc -> bool): seq<CaseDoc>
  {
    if |cases| == 0 then []
    else
      var init, c := cases[..|cases| - 1], cases[|cases| - 1];
      NewDocs(stored, init, accept) + (if !StoredBefore(stored, init, c, accept) && accept(Transform(c)) then [Transform(c)] else [])
  }

  /** The number of records an import skips: those already stored when their turn comes. */
  function SkipCount(stored: set<string>, cases: seq<CaseRecord>, accept: CaseDoc -> bool): nat
  {
    if |cases| == 0 then 0
    else
      var init, c := cases[..|cases| - 1], cases[|cases| - 1];
      SkipCount(stored, init, accept) + (if StoredBefore(stored, init, c, accept) then 1 else 0)
  }

  /** A URL outside the initial store is among the created documents' exactly when some record with it was accepted. */
  lemma {:induction false} NewDocsUrls(stored: set<string>, cases: seq<CaseRecord>, accept: CaseDoc -> bool, u: string)
    requires u !in stored
    ensures u in UrlsOf(NewDocs(stored, cases, accept)) <==> AcceptedWith(cases, accept, u)
  {
    if |cases| > 0 {
      var init, c := cases[..|cases| - 1], cases[|cases| - 1];
      var prev := NewDocs(stored, init, accept);
      NewDocsUrls(stored, init, accept, u);
      if !StoredBefore(stored, init, c, accept) && accept(Transform(c)) {
        assert NewDocs(stored, cases, accept) == prev + [Transform(c)];
        UrlsOfSnoc(prev, Transform(c));
      } else {
        assert NewDocs(stored, cases, accept) == prev + [];
        assert prev + [] == prev;
      }
    }
  }

  /** The loop creates exactly the new documents and skips exactly the records already stored. */
  lemma {:induction false} ImportFromIsNewDocs(stored: set<string>, cases: seq<CaseRecord>, accept: CaseDoc -> bool)
    ensures ImportFrom(ImportRun(stored, 0, 0, 0, []), cases, accept).created == NewDocs(stored, cases, accept)
    ensures ImportFrom(ImportRun(stored, 0, 0, 0, []), cases, accept).skipped == SkipCount(stored, cases, accept)
  {
    if |cases| > 0 {
      var start := ImportRun(stored, 0, 0, 0, []);
      var init, c := cases[..|cases| - 1], cases[|cases| - 1];
      assert cases == init + [c];
      ImportFromIsNewDocs(stored, init, accept);
      ImportFromSnoc(start, init, c, accept);
      ImportFromConsistent(stored, start, init, accept);
      var before := ImportFrom(start, init, accept);
      assert Truthy(c.detailUrl) && c.detailUrl.value in before.stored <==> StoredBefore(stored, init, c, accept) by {
        if Truthy(c.detailUrl) && c.detailUrl.value !in stored {
          NewDocsUrls(stored, init, accept, c.detailUrl.value);
        }
      }
    }
  }

  /** Records without a truthy `detailUrl` are never skipped. */
  lemma {:induction false} SkipsNeedUrls(run: ImportRun, cases: seq<CaseRecord>, accept: CaseDoc -> bool)
    ensures ImportFrom(run, cases, accept).skipped <= run.skipped + CountWhere(cases, HasTruthyUrl)
    decreases |cases|
  {
    if |cases| > 0 {
      SkipsNeedUrls(ImportOne(run, cases[0], accept), cases[1..], accept);
      CountWhereAppend([cases[0]], cases[1..], HasTruthyUrl);
      assert cases == [cases[0]] + cases[1..];
      assert CountWhere([cases[0]], HasTruthyUrl) == if HasTruthyUrl(cases[0]) then 1 else 0 by {
        assert [cases[0]][..0] == [];
      }
    }
  }

  predicate HasTruthyUrl(c: CaseRecord) {
    Truthy(c.detailUrl)
  }

  /**
   * `importCIAACases`, as intended, against a store that already holds `stored`: every
   * record is counted exactly once, no created case duplicates a stored or
   * earlier-created `detailUrl`, and only records with a `detailUrl` are skipped.
   */
  function ImportCases(stored: set<string>, cases: seq<CaseRecord>, accept: CaseDoc -> bool): (r: ImportRun)
    ensures r.imported + r.skipped + r.errors == |cases|
    ensures r.imported == |r.created| && r.stored == stored + UrlsOf(r.created)
    ensures forall i :: 0 <= i < |r.created| && Truthy(r.created[i].detailUrl) ==> r.created[i].detailUrl.value !in stored
    ensures forall i, j :: 0 <= i < j < |r.created| && Truthy(r.created[j].detailUrl) ==>
      r.created[i].detailUrl != r.created[j].detailUrl
    ensures r.skipped <= CountWhere(cases, HasTruthyUrl)
    ensures r.created == NewDocs(stored, cases, accept) && r.skipped == SkipCount(stored, cases, accept)
  {
    var start := ImportRun(stored, 0, 0, 0, []);
    ImportFromIsNewDocs(stored, cases, accept);
    ImportFromConsistent(stored, start, cases, accept);
    SkipsNeedUrls(start, cases, accept);
    ImportFrom(start, cases, accept)
  }

  // ---------------------------------------------------------------------
  // The loop as written against the `Case` schema

  /**
   * One iteration as the script behaves with the `Case` schema it uses.
   * That schema declares no `detailUrl`, so strict mode drops the field
   * from the created case and the set of findable URLs never grows. The
   * step is the intended one except that the store is left as it was.
   */
  function ImportOneAsWritten(run: ImportRun, c: CaseRecord, accept: CaseDoc -> bool): (r: ImportRun)
    ensures r.stored == run.stored
    ensures r == ImportOne(run, c, accept).(stored := run.stored)
  {
    if Truthy(c.detailUrl) && c.detailUrl.value in run.stored then
      run.(skipped := run.skipped + 1)
    else
      var doc := Transform(c);
      if accept(doc) then
        run.(imported := run.imported + 1, created := run.created + [doc])
      else
        run.(errors := run.errors + 1)
  }

  function ImportFromAsWritten(run: ImportRun, cases: seq<CaseRecord>, accept: CaseDoc -> bool): (r: ImportRun)
    ensures r.imported + r.skipped + r.errors == run.imported + run.skipped + run.errors + |cases|
    ensures r.stored == run.stored
    decreases |cases|
  {
    if |cases| == 0 then run
    else ImportFromAsWritten(ImportOneAsWritten(run, cases[0], accept), cases[1..], accept)
  }

  lemma {:induction false} ImportFromAsWrittenSnoc(run: ImportRun, a: seq<CaseRecord>, c: CaseRecord, accept: CaseDoc -> bool)
    ensures ImportFromAsWritten(run, a + [c], accept) == ImportOneAsWritten(ImportFromAsWritten(run, a, accept), c, accept)
    decreases |a|
  {
    if |a| == 0 {
      assert (a + [c])[1..] == [];
    } else {
      assert (a + [c])[0] == a[0] && (a + [c])[1..] == a[1..] + [c];
      ImportFromAsWrittenSnoc(ImportOneAsWritten(run, a[0], accept), a[1..], c, accept);
    }
  }

  /** The record's truthy `detailUrl` is among the URLs findable at the start. */
  function InStore(stored: set<string>): CaseRecord -> bool {
    (c: CaseRecord) => Truthy(c.detailUrl) && c.detailUrl.value in stored
  }

  /** The documents created as written: every accepted record whose URL was not findable at the start, earlier creations notwithstanding. */
  function FreshDocs(stored: set<string>, cases: seq<CaseRecord>, accept: CaseDoc -> bool): seq<CaseDoc>
  {
    if |cases| == 0 then []
    else
      var init, c := cases[..|cases| - 1], cases[|cases| - 1];
      FreshDocs(stored, init, accept) + (if !InStore(stored)(c) && accept(Transform(c)) then [Transform(c)] else [])
  }

  /** As written, the loop creates exactly the fresh documents and skips exactly the records stored at the start. */
  lemma {:induction false} ImportFromAsWrittenIsFreshDocs(stored: set<string>, cases: seq<CaseRecord>, accept: CaseDoc -> bool)
    ensures ImportFromAsWritten(ImportRun(stored, 0, 0, 0, []), cases, accept).created == FreshDocs(stored, cases, accept)
    ensures ImportFromAsWritten(ImportRun(stored, 0, 0, 0, []), cases, accept).skipped == CountWhere(cases, InStore(stored))
  {
    if |cases| > 0 {
      var start := ImportRun(stored, 0, 0, 0, []);
      var init, c := cases[..|cases| - 1], cases[|cases| - 1];
      assert cases == init + [c];
      ImportFromAsWrittenIsFreshDocs(stored, init, accept);
      ImportFromAsWrittenSnoc(start, init, c, accept);
      CountWhereAppend(init, [c], InStore(stored));
      assert CountWhere([c], InStore(stored)) == if InStore(stored)(c) then 1 else 0 by {
        assert [c][..0] == [];
      }
    }
  }

  /**
   * `importCIAACases` as it runs against the `Case` schema: every record is
   * counted once, the findable URLs never change, only records whose URL
   * was findable at the start are skipped, and every other accepted record
   * is created, even when an earlier record with the same URL was.
   */
  function ImportCasesAsWritten(stored: set<string>, cases: seq<CaseRecord>, accept: CaseDoc -> bool): (r: ImportRun)
    ensures r.imported + r.skipped + r.errors == |cases|
    ensures r.stored == stored && r.imported == |r.created|
    ensures r.created == FreshDocs(stored, cases, accept) && r.skipped == CountWhere(cases, InStore(stored))
  {
    var start := ImportRun(stored, 0, 0, 0, []);
    ImportFromAsWrittenIsFreshDocs(stored, cases, accept);
    ImportFromAsWrittenCreated(start, cases, accept);
    ImportFromAsWritten(start, cases, accept)
  }

  lemma {:induction false} ImportFromAsWrittenCreated(run: ImportRun, cases: seq<CaseRecord>, accept: CaseDoc -> bool)
    requires run.imported == |run.created|
    ensures ImportFromAsWritten(run, cases, accept).imported == |ImportFromAsWritten(run, cases, accept).created|
    decreases |cases|
  {
    if |cases| > 0 {
      ImportFromAsWrittenCreated(ImportOneAsWritten(run, cases[0], accept), cases[1..], accept);
    }
  }

  /**
   * Two accepted records sharing a `detailUrl` that is not findable at the
   * start are both created as written, where the intended import creates
   * the first and skips the second.
   */
  lemma DuplicateUrlCreatedTwice(stored: set<string>, c: CaseRecord, accept: CaseDoc -> bool)
    requires Truthy(c.detailUrl) && c.detailUrl.value !in stored && accept(Transform(c))
    ensures ImportCasesAsWritten(stored, [c, c], accept).created == [Transform(c), Transform(c)]
    ensures ImportCasesAsWritten(stored, [c, c], accept).skipped == 0
    ensures ImportCases(stored, [c, c], accept).created == [Transform(c)]
    ensures ImportCases(stored, [c, c], accept).skipped == 1
  {
    var start := ImportRun(stored, 0, 0, 0, []);
    assert [c, c][1..] == [c] && [c][1..] == [];
    var one := ImportOne(start, c, accept);
    assert c.detailUrl.value in one.stored;
    var two := ImportOne(one, c, accept);
    assert ImportFrom(one, [c], accept) == ImportFrom(two, [], accept) == two;
    assert ImportCases(stored, [c, c], accept) == ImportFrom(start, [c, c], accept) == two;
    var w1 := ImportOneAsWritten(start, c, accept);
    var w2 := ImportOneAsWritten(w1, c, accept);
    assert ImportFromAsWritten(w1, [c], accept) == ImportFromAsWritten(w2, [], accept) == w2;
    assert ImportCasesAsWritten(stored, [c, c], accept) == ImportFromAsWritten(start, [c, c], accept) == w2;
  }
}

=== FILE: listing.dfy ===
/**
 * The listing-page extractor shared by the two CIAA crawlers: page URL
 * construction, the row-to-record mapping, and the next-page test.
 *
 * The parsed page is given as data: a row is its `td` cells, each with its
 * trimmed-on-read text and the hrefs of the anchors it contains, in
 * document order; the pager is the list of anchors under `.pagination`.
 */
module Listing {
  import opened Common
  import opened Text
  import opened Catalogue
  import opened Seqs

  // ---------------------------------------------------------------------
  // Parsed page

  /** An `a` element; `href` is `None` when the attribute is missing. */
  datatype Anchor = Anchor(href: Option<string>)

  /** A `td` element: its raw text and the anchors inside it. */
  datatype Cell = Cell(text: string, anchors: seq<Anchor>)

  /**
   * A `tr` element of a listing table. `Corrupt` stands for a row whose
   * processing throws; the extractor catches that per row.
   */
  datatype Row = Row(cells: seq<Cell>) | Corrupt

  /** An anchor under `.pagination`. */
  datatype PagerLink = PagerLink(text: string, relNext: bool)

  datatype Page = Page(rows: seq<Row>, pager: seq<PagerLink>)

  // ---------------------------------------------------------------------
  // The two crawler flavours

  /**
   * `Historical` is the fiscal-year-aware crawler, `Current` the one that
   * reads the current listing and collects document links.
   */
  datatype Flavour = Historical | Current {
    /** The date pattern: `\d{4}[-\/]\d{2}[-\/]\d{2}` or `\d{4}-\d{2}-\d{2}`. */
    predicate DateSeparator(c: char) {
      c == '-' || (this == Historical && c == '/')
    }

    /** The second glyph the next-page test looks for, as it is spelled in each script. */
    function NextGlyph(): string {
      match this
      case Historical => "\U{00BB}"
      case Current => "\U{00C2}\U{00BB}"
    }
  }

  /** Where a page sits in the crawl. `fiscal` is always `None` for the `Current` flavour. */
  datatype PageContext = PageContext(category: Category, fiscal: Option<FiscalYear>, page: nat)

  /** One emitted listing row. Fields a flavour does not produce are `None`. */
  datatype CaseRecord = CaseRecord(
    id: string,
    category: string,
    categoryType: string,
    fiscalYear: Option<string>,
    fiscalYearGregorian: Option<string>,
    date: string,
    title: string,
    accusedPerson: string,
    office: string,
    accusation: string,
    amount: string,
    detailUrl: Option<string>,
    downloadLinks: Option<seq<string>>,
    sourceUrl: string)

  datatype PageResult = PageResult(cases: seq<CaseRecord>, hasNextPage: bool)

  /** The category name of every record, in order. */
  function CategoryKeys(cases: seq<CaseRecord>): (keys: seq<string>)
    ensures |keys| == |cases|
    ensures forall i :: 0 <= i < |cases| ==> keys[i] == cases[i].category
  {
    seq(|cases|, i requires 0 <= i < |cases| => cases[i].category)
  }

  // ---------------------------------------------------------------------
  // Page URL

  /**
   * The URL fetched for one page. With a fiscal year the query always
   * carries both parameters; without one, page 1 is the bare listing URL.
   */
  function PageUrl(base: string, fiscal: Option<FiscalYear>, page: nat): (url: string)
    ensures StartsWith(url, base)
    ensures url == base <==> fiscal.None? && page <= 1
    ensures fiscal.Some? ==> url == base + "?fiscal_year=" + fiscal.value.value + "&page=" + NatToString(page)
    ensures fiscal.None? && page > 1 ==> url == base + "?page=" + NatToString(page)
  {
    if fiscal.Some? then base + "?fiscal_year=" + fiscal.value.value + "&page=" + NatToString(page)
    else if page > 1 then base + "?page=" + NatToString(page)
    else base
  }

  /** Different pages of one listing have different URLs. */
  lemma PageUrlInjective(base: string, fiscal: Option<FiscalYear>, p: nat, q: nat)
    requires p >= 1 && q >= 1
    requires PageUrl(base, fiscal, p) == PageUrl(base, fiscal, q)
    ensures p == q
  {
    var prefix := if fiscal.Some? then base + "?fiscal_year=" + fiscal.value.value + "&page=" else base + "?page=";
    if fiscal.Some? || (p > 1 && q > 1) {
      assert PageUrl(base, fiscal, p) == prefix + NatToString(p);
      assert PageUrl(base, fiscal, q) == prefix + NatToString(q);
      assert NatToString(p) == PageUrl(base, fiscal, p)[|prefix|..];
      NatToStringInjective(p, q);
    }
  }

  // ---------------------------------------------------------------------
  // Links

  const SiteOrigin: string := "https://ciaa.gov.np"

  /** An href that starts with `http` is kept; any other is prefixed with the site origin. */
  function Absolutise(href: string): (url: string)
    ensures StartsWith(url, "http")
    ensures EndsWith(url, href)
  {
    if StartsWith(href, "http") then href else SiteOrigin + href
  }

  /** An absolute URL is left alone, so absolutising twice is absolutising once. */
  lemma AbsolutiseIdempotent(href: string)
    ensures Absolutise(Absolutise(href)) == Absolutise(href)
  {
  }

  /** The href of the cell's first anchor, when it is present and non-empty. */
  function DetailHref(cell: Cell): (h: Option<string>)
    ensures h.Some? ==> |h.value| > 0 && |cell.anchors| > 0 && cell.anchors[0].href == h
    ensures h.None? ==> |cell.anchors| == 0 || cell.anchors[0].href.None? || cell.anchors[0].href == Some("")
  {
    if |cell.anchors| > 0 && cell.anchors[0].href.Some? && |cell.anchors[0].href.value| > 0
    then cell.anchors[0].href else None
  }

  predicate IsDocumentHref(href: string) {
    EndsWith(href, ".pdf") || EndsWith(href, ".docx") || EndsWith(href, ".doc")
  }

  /** All anchors of a row, cell by cell, in document order. */
  function RowAnchors(cells: seq<Cell>): seq<Anchor>
  {
    if |cells| == 0 then [] else RowAnchors(cells[..|cells| - 1]) + cells[|cells| - 1].anchors
  }

  /** An anchor whose href names a document: `a[href$=".pdf"], a[href$=".docx"], a[href$=".doc"]`. */
  predicate IsDocumentAnchor(a: Anchor) {
    a.href.Some? && IsDocumentHref(a.href.value)
  }

  /** What one anchor contributes to the download links. */
  function DocumentLink(a: Anchor): (out: seq<string>)
    ensures |out| <= 1
  {
    if IsDocumentAnchor(a) then [Absolutise(a.href.value)] else []
  }

  /** The row's document-attachment links, absolutised, in anchor order. */
  function DocumentLinks(anchors: seq<Anchor>): (links: seq<string>)
    ensures |links| <= |anchors|
  {
    if |anchors| == 0 then [] else DocumentLinks(anchors[..|anchors| - 1]) + DocumentLink(anchors[|anchors| - 1])
  }

  lemma AbsolutiseKeepsDocument(href: string)
    requires IsDocumentHref(href)
    ensures IsDocumentHref(Absolutise(href))
  {
    var u := Absolutise(href);
    forall ext | ext in [".pdf", ".docx", ".doc"] && EndsWith(href, ext) ensures EndsWith(u, ext) {
      assert u[|u| - |href|..] == href;
      assert u[|u| - |ext|..] == href[|href| - |ext|..];
    }
  }

  /** Every download link is an absolute URL naming a document. */
  lemma {:induction false} DocumentLinksSound(anchors: seq<Anchor>)
    ensures forall u :: u in DocumentLinks(anchors) ==> StartsWith(u, "http") && IsDocumentHref(u)
  {
    if |anchors| > 0 {
      var a := anchors[|anchors| - 1];
      DocumentLinksSound(anchors[..|anchors| - 1]);
      if IsDocumentAnchor(a) {
        AbsolutiseKeepsDocument(a.href.value);
      }
    }
  }

  /** Number of anchors whose href names a document. */
  function CountDocumentAnchors(anchors: seq<Anchor>): nat {
    if |anchors| == 0 then 0
    else CountDocumentAnchors(anchors[..|anchors| - 1]) + (if IsDocumentAnchor(anchors[|anchors| - 1]) then 1 else 0)
  }

  /** One link per document anchor, each the absolutised href of that anchor. */
  lemma {:induction false} DocumentLinksComplete(anchors: seq<Anchor>)
    ensures |DocumentLinks(anchors)| == CountDocumentAnchors(anchors)
    ensures forall i :: 0 <= i < |anchors| && IsDocumentAnchor(anchors[i]) ==>
      Absolutise(anchors[i].href.value) in DocumentLinks(anchors)
  {
    if |anchors| > 0 {
      var init := anchors[..|anchors| - 1];
      var a := anchors[|anchors| - 1];
      DocumentLinksComplete(init);
      assert DocumentLinks(anchors) == DocumentLinks(init) + DocumentLink(a);
      forall i | 0 <= i < |anchors| && IsDocumentAnchor(anchors[i])
        ensures Absolutise(anchors[i].href.value) in DocumentLinks(anchors)
      {
        if i < |init| {
          assert anchors[i] == init[i];
        }
      }
    }
  }

  // ---------------------------------------------------------------------
  // Dates

  /** The ten characters at `i` have the shape `dddd?dd?dd`, `?` a separator of the flavour. */
  predicate DateAt(s: string, i: nat, f: Flavour) {
    && i + 10 <= |s|
    && IsAsciiDigit(s[i]) && IsAsciiDigit(s[i + 1]) && IsAsciiDigit(s[i + 2]) && IsAsciiDigit(s[i + 3])
    && f.DateSeparator(s[i + 4])
    && IsAsciiDigit(s[i + 5]) && IsAsciiDigit(s[i + 6])
    && f.DateSeparator(s[i + 7])
    && IsAsciiDigit(s[i + 8]) && IsAsciiDigit(s[i + 9])
  }

  /** The leftmost position at or after `from` where a date begins. */
  function FindDateFrom(s: string, from: nat, f: Flavour): (k: Option<nat>)
    ensures k.Some? ==> from <= k.value && DateAt(s, k.value, f)
    ensures k.Some? ==> forall j :: from <= j < k.value ==> !DateAt(s, j, f)
    ensures k.None? ==> forall j :: from <= j ==> !DateAt(s, j, f)
    decreases |s| - from
  {
    if from + 10 > |s| then None
    else if DateAt(s, from, f) then Some(from)
    else FindDateFrom(s, from + 1, f)
  }

  /** The first date-shaped substring verbatim, else the whole text. */
  function ExtractDate(text: string, f: Flavour): (d: string)
    ensures FindDateFrom(text, 0, f).None? ==> d == text
    ensures FindDateFrom(text, 0, f).Some? ==>
      |d| == 10 &&
      exists i :: 0 <= i && i + 10 <= |text| && d == text[i..i + 10] && DateAt(text, i, f) &&
                  forall j :: 0 <= j < i ==> !DateAt(text, j, f)
  {
    match FindDateFrom(text, 0, f)
    case Some(i) => text[i..i + 10]
    case None => text
  }

  /** A date the hyphen-only pattern picks out uses hyphens as both separators. */
  lemma CurrentDatesUseHyphens(text: string)
    requires FindDateFrom(text, 0, Current).Some?
    ensures ExtractDate(text, Current)[4] == '-' && ExtractDate(text, Current)[7] == '-'
  {
  }

  /**
   * The historical pattern accepts everything the hyphen-only one does, so
   * it never finds its date later in the text.
   */
  lemma HistoricalFindsNoLater(text: string)
    requires FindDateFrom(text, 0, Current).Some?
    ensures FindDateFrom(text, 0, Historical).Some?
    ensures FindDateFrom(text, 0, Historical).value <= FindDateFrom(text, 0, Current).value
  {
    var k := FindDateFrom(text, 0, Current).value;
    assert DateAt(text, k, Historical);
  }

  /** Slashes, and a slash mixed with a hyphen, are dates only to the historical crawler. */
  lemma MixedSeparatorDate()
    ensures ExtractDate("2080/04-15", Historical) == "2080/04-15"
    ensures ExtractDate("2080/04-15", Current) == "2080/04-15"
    ensures FindDateFrom("2080/04-15", 0, Current).None?
  {
    var s := "2080/04-15";
    assert |s| == 10 && s[4] == '/' && s[7] == '-';
    assert DateAt(s, 0, Historical);
    assert FindDateFrom(s, 0, Historical) == Some(0);
    assert s[0..10] == s;
    assert !DateAt(s, 0, Current);
    assert FindDateFrom(s, 1, Current) == None;
  }

  // ---------------------------------------------------------------------
  // Ids

  /** The value the historical id uses for the fiscal-year slot: the fiscal-year value, or `current` when there is none or it is empty. */
  function FiscalSlot(fiscal: Option<FiscalYear>): string {
    if fiscal.Some? && |fiscal.value.value| > 0 then fiscal.value.value else "current"
  }

  /** The id of a row without a detail link. */
  function FallbackId(f: Flavour, ctx: PageContext, index: nat): string {
    match f
    case Historical => Join([ctx.category.Key(), FiscalSlot(ctx.fiscal), NatToString(ctx.page), NatToString(index)], '_')
    case Current => Join([ctx.category.Key(), NatToString(ctx.page), NatToString(index)], '_')
  }

  /**
   * Fallback ids never collide: equal ids come from the same category,
   * fiscal-year value, page and row index, provided the fiscal-year values
   * are id-safe (as every entry of the fiscal-year table is).
   */
  lemma FallbackIdInjective(f: Flavour, c1: PageContext, i1: nat, c2: PageContext, i2: nat)
    requires c1.fiscal.Some? ==> IdSafeValue(c1.fiscal.value.value)
    requires c2.fiscal.Some? ==> IdSafeValue(c2.fiscal.value.value)
    requires FallbackId(f, c1, i1) == FallbackId(f, c2, i2)
    ensures c1.category == c2.category && c1.page == c2.page && i1 == i2
    ensures f == Historical ==> FiscalSlot(c1.fiscal) == FiscalSlot(c2.fiscal)
    ensures f == Historical ==> (c1.fiscal.Some? <==> c2.fiscal.Some?)
    ensures f == Historical && c1.fiscal.Some? ==> c1.fiscal.value.value == c2.fiscal.value.value
  {
    match f
    case Historical => HistoricalIdInjective(c1, i1, c2, i2);
    case Current => CurrentIdInjective(c1, i1, c2, i2);
  }

  lemma HistoricalIdInjective(c1: PageContext, i1: nat, c2: PageContext, i2: nat)
    requires c1.fiscal.Some? ==> IdSafeValue(c1.fiscal.value.value)
    requires c2.fiscal.Some? ==> IdSafeValue(c2.fiscal.value.value)
    requires FallbackId(Historical, c1, i1) == FallbackId(Historical, c2, i2)
    ensures c1.category == c2.category && c1.page == c2.page && i1 == i2
    ensures FiscalSlot(c1.fiscal) == FiscalSlot(c2.fiscal)
    ensures c1.fiscal.Some? <==> c2.fiscal.Some?
    ensures c1.fiscal.Some? ==> c1.fiscal.value.value == c2.fiscal.value.value
  {
    CategoryLabelsDistinct(c1.category, c2.category);
    CategoryLabelsDistinct(c2.category, c1.category);
    var a := [c1.category.Key(), FiscalSlot(c1.fiscal), NatToString(c1.page), NatToString(i1)];
    var b := [c2.category.Key(), FiscalSlot(c2.fiscal), NatToString(c2.page), NatToString(i2)];
    assert Free(a[0], '_') && Free(a[1], '_') && Free(a[2], '_') && Free(a[3], '_');
    assert Free(b[0], '_') && Free(b[1], '_') && Free(b[2], '_') && Free(b[3], '_');
    JoinInjective(a, b, '_');
    assert a[0] == b[0] && a[1] == b[1] && a[2] == b[2] && a[3] == b[3];
    NatToStringInjective(c1.page, c2.page);
    NatToStringInjective(i1, i2);
  }

  lemma CurrentIdInjective(c1: PageContext, i1: nat, c2: PageContext, i2: nat)
    requires FallbackId(Current, c1, i1) == FallbackId(Current, c2, i2)
    ensures c1.category == c2.category && c1.page == c2.page && i1 == i2
  {
    CategoryLabelsDistinct(c1.category, c2.category);
    CategoryLabelsDistinct(c2.category, c1.category);
    var a := [c1.category.Key(), NatToString(c1.page), NatToString(i1)];
    var b := [c2.category.Key(), NatToString(c2.page), NatToString(i2)];
    assert Free(a[0], '_') && Free(a[1], '_') && Free(a[2], '_');
    assert Free(b[0], '_') && Free(b[1], '_') && Free(b[2], '_');
    JoinInjective(a, b, '_');
    assert a[0] == b[0] && a[1] == b[1] && a[2] == b[2];
    NatToStringInjective(c1.page, c2.page);
    NatToStringInjective(i1, i2);
  }

  /** The record id: the detail URL's last path segment, else the fallback id. */
  function RecordId(f: Flavour, ctx: PageContext, index: nat, detailUrl: Option<string>): (id: string)
    ensures detailUrl.Some? ==> '/' !in id && EndsWith(detailUrl.value, id)
    ensures detailUrl.Some? && |id| < |detailUrl.value| ==> detailUrl.value[|detailUrl.value| - |id| - 1] == '/'
    ensures detailUrl.None? ==> id == FallbackId(f, ctx, index)
  {
    if detailUrl.Some? then LastSegment(detailUrl.value) else FallbackId(f, ctx, index)
  }

  // ---------------------------------------------------------------------
  // Rows

  /** The trimmed text of cell `i`. */
  function CellText(cells: seq<Cell>, i: nat): string
    requires i < |cells|
  {
    Trim(cells[i].text)
  }

  /** The record a well-formed row of at least four cells maps to, before the emission test. */
  function BuildRecord(f: Flavour, ctx: PageContext, index: nat, cells: seq<Cell>): CaseRecord
    requires |cells| >= 4
  {
    var wide := |cells| >= 6;
    var href := DetailHref(cells[1]);
    var detailUrl := if href.Some? then Some(Absolutise(href.value)) else None;
    CaseRecord(
      id := RecordId(f, ctx, index, detailUrl),
      category := ctx.category.Name(),
      categoryType := ctx.category.Kind(),
      fiscalYear := if f == Historical then Some(if ctx.fiscal.Some? then ctx.fiscal.value.yearLabel else "current") else None,
      fiscalYearGregorian := if f == Historical then Some(if ctx.fiscal.Some? then ctx.fiscal.value.gregorian else CurrentGregorian) else None,
      date := ExtractDate(CellText(cells, 0), f),
      title := CellText(cells, 1),
      accusedPerson := CellText(cells, 2),
      office := CellText(cells, 3),
      accusation := if wide then CellText(cells, 4) else "",
      amount := if wide then CellText(cells, 5) else "",
      detailUrl := detailUrl,
      downloadLinks := if f == Current then Some(DocumentLinks(RowAnchors(cells))) else None,
      sourceUrl := PageUrl(ctx.category.Url(), ctx.fiscal, ctx.page))
  }

  /**
   * The column mapping: cells 1–3 give title, accused and office; cells 4–5
   * give accusation and amount only when the row has six or more cells; the
   * detail link, date, id and page URL follow the flavour's rules.
   */
  lemma BuildRecordSpec(f: Flavour, ctx: PageContext, index: nat, cells: seq<Cell>)
    requires |cells| >= 4
    ensures var r := BuildRecord(f, ctx, index, cells);
      && r.title == CellText(cells, 1) && r.accusedPerson == CellText(cells, 2) && r.office == CellText(cells, 3)
      && (|cells| >= 6 ==> r.accusation == CellText(cells, 4) && r.amount == CellText(cells, 5))
      && (|cells| < 6 ==> r.accusation == "" && r.amount == "")
      && (r.detailUrl.Some? <==> DetailHref(cells[1]).Some?)
      && (r.detailUrl.Some? ==> r.detailUrl.value == Absolutise(DetailHref(cells[1]).value))
      && r.date == ExtractDate(CellText(cells, 0), f)
      && r.id == RecordId(f, ctx, index, r.detailUrl)
      && r.category == ctx.category.Name() && r.categoryType == ctx.category.Kind()
      && (r.downloadLinks.Some? <==> f == Current)
      && (r.fiscalYear.Some? <==> f == Historical)
      && r.sourceUrl == PageUrl(ctx.category.Url(), ctx.fiscal, ctx.page)
  {
  }

  /** The records one `tr` contributes: none for a corrupt or short row, none for a row with neither title nor accused. */
  function ExtractRow(f: Flavour, ctx: PageContext, index: nat, row: Row): (out: seq<CaseRecord>)
  {
    match row
    case Corrupt => []
    case Row(cells) =>
      if |cells| < 4 then []
      else
        var r := BuildRecord(f, ctx, index, cells);
        if r.title != "" || r.accusedPerson != "" then [r] else []
  }

  /**
   * A row yields at most one record, and it yields one exactly when it is
   * not corrupt, has at least four cells, and has a title or an accused.
   */
  lemma ExtractRowSpec(f: Flavour, ctx: PageContext, index: nat, row: Row)
    ensures |ExtractRow(f, ctx, index, row)| <= 1
    ensures |ExtractRow(f, ctx, index, row)| == 1 <==>
      row.Row? && |row.cells| >= 4 && (CellText(row.cells, 1) != "" || CellText(row.cells, 2) != "")
    ensures |ExtractRow(f, ctx, index, row)| == 1 ==> ExtractRow(f, ctx, index, row)[0] == BuildRecord(f, ctx, index, row.cells)
  {
  }

  /** Row extraction as a function of the row index and the row. */
  function RowExtractor(f: Flavour, ctx: PageContext): (nat, Row) -> seq<CaseRecord> {
    (i: nat, row: Row) => ExtractRow(f, ctx, i, row)
  }

  /** The records of rows `start`, `start + 1`, …; the row index counts every row, emitted or not. */
  function ExtractRows(f: Flavour, ctx: PageContext, rows: seq<Row>, start: nat): seq<CaseRecord>
  {
    FlatMapIndexed(RowExtractor(f, ctx), rows, start)
  }

  /** What every emitted record of a page satisfies: it has a title or an accused, and names its page. */
  predicate EmittedFrom(ctx: PageContext, r: CaseRecord) {
    (r.title != "" || r.accusedPerson != "") && r.sourceUrl == PageUrl(ctx.category.Url(), ctx.fiscal, ctx.page)
  }

  /** Every extracted record has a title or an accused, and names the page it came from. */
  lemma {:induction false} ExtractRowsInvariant(f: Flavour, ctx: PageContext, rows: seq<Row>, start: nat)
    ensures forall r :: r in ExtractRows(f, ctx, rows, start) ==> EmittedFrom(ctx, r)
    decreases |rows|
  {
    if |rows| > 0 {
      ExtractRowsInvariant(f, ctx, rows[1..], start + 1);
      ExtractRowSpec(f, ctx, start, rows[0]);
      assert ExtractRows(f, ctx, rows, start) == ExtractRow(f, ctx, start, rows[0]) + ExtractRows(f, ctx, rows[1..], start + 1);
    }
  }

  /**
   * Rows are processed independently: the page's records are those of the
   * rows before `i`, then row `i`'s, then those of the rows after it. In
   * particular a corrupt row contributes nothing and does not stop later rows.
   */
  lemma ExtractRowsSplit(f: Flavour, ctx: PageContext, rows: seq<Row>, start: nat, i: nat)
    requires i < |rows|
    ensures ExtractRows(f, ctx, rows, start) ==
      ExtractRows(f, ctx, rows[..i], start) + RowExtractor(f, ctx)(start + i, rows[i]) + ExtractRows(f, ctx, rows[i + 1..], start + i + 1)
  {
    FlatMapIndexedSplit(RowExtractor(f, ctx), rows, start, i);
  }

  /** A row whose processing throws contributes no record. */
  lemma CorruptRowEmpty(f: Flavour, ctx: PageContext, k: nat)
    ensures RowExtractor(f, ctx)(k, Corrupt) == []
  {
  }

  // ---------------------------------------------------------------------
  // Pagination and the page scraper

  /**
   * A next page exists when a pager anchor has `rel="next"`, or the last
   * pager anchor's text contains `Next` or the flavour's glyph.
   */
  function HasNextPage(f: Flavour, pager: seq<PagerLink>): (b: bool)
    ensures b <==> ((exists i :: 0 <= i < |pager| && pager[i].relNext) ||
                    (|pager| > 0 && (Contains(pager[|pager| - 1].text, "Next") || Contains(pager[|pager| - 1].text, f.NextGlyph()))))
  {
    (exists i :: 0 <= i < |pager| && pager[i].relNext) ||
    (|pager| > 0 && (ContainsScan(pager[|pager| - 1].text, "Next") || ContainsScan(pager[|pager| - 1].text, f.NextGlyph())))
  }

  /**
   * The current crawler's glyph is a mis-encoded `»` (two characters), so a
   * pager ending in a bare `»` reads as "no next page" there, and as "next
   * page" for the historical crawler.
   */
  lemma BareGuillemet()
    ensures !HasNextPage(Current, [PagerLink("\U{00BB}", false)])
    ensures HasNextPage(Historical, [PagerLink("\U{00BB}", false)])
  {
    var t := "\U{00BB}";
    assert StartsWith(t[0..], Historical.NextGlyph());
    assert !Contains(t, "Next") by {
      forall i | 0 <= i <= |t| ensures !StartsWith(t[i..], "Next") { }
    }
    assert !Contains(t, Current.NextGlyph()) by {
      forall i | 0 <= i <= |t| ensures !StartsWith(t[i..], Current.NextGlyph()) { }
    }
  }

  /**
   * The fetch oracle: the parsed page at a URL, or `None` when the request
   * or the parse fails.
   */
  type Fetch = string -> Option<Page>

  /** `scrapeCIAAPage`: a failed fetch reads as an empty last page. */
  function ScrapePage(f: Flavour, fetch: Fetch, ctx: PageContext): (r: PageResult)
    ensures fetch(PageUrl(ctx.category.Url(), ctx.fiscal, ctx.page)).None? ==> r == PageResult([], false)
    ensures fetch(PageUrl(ctx.category.Url(), ctx.fiscal, ctx.page)).Some? ==>
      var page := fetch(PageUrl(ctx.category.Url(), ctx.fiscal, ctx.page)).value;
      r.cases == ExtractRows(f, ctx, page.rows, 0) && r.hasNextPage == HasNextPage(f, page.pager)
    ensures forall c :: c in r.cases ==> c.sourceUrl == PageUrl(ctx.category.Url(), ctx.fiscal, ctx.page)
    ensures forall c :: c in r.cases ==> c.title != "" || c.accusedPerson != ""
  {
    var url := PageUrl(ctx.category.Url(), ctx.fiscal, ctx.page);
    match fetch(url)
    case None => PageResult([], false)
    case Some(page) =>
      var cases := ExtractRows(f, ctx, page.rows, 0);
      ExtractRowsInvariant(f, ctx, page.rows, 0);
      PageResult(cases, HasNextPage(f, page.pager))
  }
}

=== FILE: newsdiscovery.dfy ===
/**
 * Discovery and extraction of corruption-case articles on The Kathmandu
 * Post: monthly archive URLs and the order the archive is walked in, the
 * keyword filter over a page's links, order-preserving dedup of article
 * URLs, and, per article, paragraph selection, case-type classification
 * and the bounded list of accused names.
 */
module NewsDiscovery {
  import opened Common
  import opened Text
  import Seqs
  import Tally

  const Base: string := "https://kathmandupost.com"

  // ---------------------------------------------------------------------
  // Archive URLs

  /** The month in decimal, left-padded with zeros to two digits. */
  function MonthString(month: nat): (r: string)
    ensures AllDigits(r) && DigitsValue(r) == month
    ensures month < 100 ==> |r| == 2
    ensures '/' !in r
  {
    NatToStringRoundTrip(month);
    var s := NatToString(month);
    if |s| >= 2 then s
    else
      LeadingZero(s);
      "0" + s
  }

  lemma {:induction false} LeadingZero(s: string)
    requires AllDigits(s)
    ensures AllDigits("0" + s) && DigitsValue("0" + s) == DigitsValue(s)
  {
    var z := "0" + s;
    if |s| > 0 {
      LeadingZero(s[..|s| - 1]);
      assert z[..|z| - 1] == "0" + s[..|s| - 1];
    } else {
      assert z[..|z| - 1] == [];
    }
  }

  /** `${BASE_URL}/${category}/${year}/${monthStr}`. */
  function ArchiveUrl(category: string, year: nat, month: nat): (u: string)
    ensures StartsWith(u, Base + "/")
  {
    Base + "/" + category + "/" + NatToString(year) + "/" + MonthString(month)
  }

  lemma Join3(x: string, y: string, z: string, sep: char)
    ensures Join([x, y, z], sep) == x + [sep] + y + [sep] + z
  {
    assert [x, y, z][1..] == [y, z];
    assert [y, z][1..] == [z];
    assert Join([z], sep) == z;
    assert Join([y, z], sep) == y + [sep] + z;
    assert Join([x, y, z], sep) == x + [sep] + (y + [sep] + z);
  }

  lemma PrefixCancel(p: string, x: string, y: string)
    requires p + x == p + y
    ensures x == y
  {
    assert x == (p + x)[|p|..];
    assert y == (p + y)[|p|..];
  }

  /** The archive URL is the origin, a slash, and the three parts joined by slashes. */
  lemma ArchiveUrlIsJoin(category: string, year: nat, month: nat)
    ensures ArchiveUrl(category, year, month) == (Base + "/") + Join([category, NatToString(year), MonthString(month)], '/')
  {
    var y, m := NatToString(year), MonthString(month);
    Join3(category, y, m, '/');
    assert Base + "/" + category + "/" + y + "/" + m == (Base + "/") + (category + ['/'] + y + ['/'] + m);
  }

  /** Distinct (category, year, month) triples name distinct archive pages, for slash-free categories. */
  lemma ArchiveUrlInjective(c1: string, y1: nat, m1: nat, c2: string, y2: nat, m2: nat)
    requires '/' !in c1 && '/' !in c2
    requires ArchiveUrl(c1, y1, m1) == ArchiveUrl(c2, y2, m2)
    ensures c1 == c2 && y1 == y2 && m1 == m2
  {
    var a := [c1, NatToString(y1), MonthString(m1)];
    var b := [c2, NatToString(y2), MonthString(m2)];
    ArchiveUrlIsJoin(c1, y1, m1);
    ArchiveUrlIsJoin(c2, y2, m2);
    PrefixCancel(Base + "/", Join(a, '/'), Join(b, '/'));
    JoinInjective(a, b, '/');
    assert a[1] == b[1] && a[2] == b[2];
    NatToStringInjective(y1, y2);
  }

  // ---------------------------------------------------------------------
  // The archive walk

  const CurrentYear: int := 2026
  const CurrentMonth: nat := 1
  const OldestYear: int := 2023

  /** The month the inner loop starts from in `year`. */
  function StartMonth(year: int, currentYear: int, currentMonth: nat): nat {
    if year == currentYear then currentMonth else 12
  }

  /** The inner loop: months `m, m - 1, …, 1` of `year`. */
  function MonthsDown(year: int, m: nat): (r: seq<(int, nat)>)
    ensures |r| == m
    ensures forall i :: 0 <= i < m ==> r[i] == (year, m - i)
  {
    if m == 0 then [] else [(year, m)] + MonthsDown(year, m - 1)
  }

  /** The outer loop: every year from `year` down to `oldest`, each with its inner loop. */
  function WalkYears(year: int, oldest: int, currentYear: int, currentMonth: nat): seq<(int, nat)>
    decreases year - oldest + 1
  {
    if year < oldest then []
    else MonthsDown(year, StartMonth(year, currentYear, currentMonth)) + WalkYears(year - 1, oldest, currentYear, currentMonth)
  }

  /** The (year, month) pairs `crawlRecentArchives` visits, in order. */
  function ArchiveWalk(): seq<(int, nat)> {
    WalkYears(CurrentYear, OldestYear, CurrentYear, CurrentMonth)
  }

  /** `a` is a later month than `b`. */
  predicate Later(a: (int, nat), b: (int, nat)) {
    a.0 > b.0 || (a.0 == b.0 && a.1 > b.1)
  }

  predicate StrictlyDescending(s: seq<(int, nat)>) {
    forall i, j :: 0 <= i < j < |s| ==> Later(s[i], s[j])
  }

  /** The months a walk from `year` down to `oldest` should visit. */
  predicate InWindow(p: (int, nat), year: int, oldest: int, currentYear: int, currentMonth: nat) {
    oldest <= p.0 <= year && 1 <= p.1 <= StartMonth(p.0, currentYear, currentMonth)
  }

  lemma MonthsDownMembers(year: int, m: nat, p: (int, nat))
    ensures p in MonthsDown(year, m) <==> p.0 == year && 1 <= p.1 <= m
  {
    var r := MonthsDown(year, m);
    if p.0 == year && 1 <= p.1 <= m {
      assert r[m - p.1] == p;
    }
  }

  /**
   * The walk visits exactly the months of its window, each once, newest
   * first: every later month comes strictly before every earlier one.
   */
  lemma {:induction false} WalkYearsOrdered(year: int, oldest: int, currentYear: int, currentMonth: nat)
    requires year <= currentYear && currentMonth <= 12
    ensures forall p :: p in WalkYears(year, oldest, currentYear, currentMonth) <==>
      InWindow(p, year, oldest, currentYear, currentMonth)
    ensures StrictlyDescending(WalkYears(year, oldest, currentYear, currentMonth))
    ensures |WalkYears(year, oldest, currentYear, currentMonth)| ==
      if year < oldest then 0 else StartMonth(year, currentYear, currentMonth) + 12 * (year - oldest)
    decreases year - oldest + 1
  {
    if year >= oldest {
      var a := MonthsDown(year, StartMonth(year, currentYear, currentMonth));
      var b := WalkYears(year - 1, oldest, currentYear, currentMonth);
      WalkYearsOrdered(year - 1, oldest, currentYear, currentMonth);
      var r := a + b;
      assert r == WalkYears(year, oldest, currentYear, currentMonth);
      forall p
        ensures p in r <==> InWindow(p, year, oldest, currentYear, currentMonth)
      {
        MonthsDownMembers(year, StartMonth(year, currentYear, currentMonth), p);
      }
      forall i, j | 0 <= i < j < |r|
        ensures Later(r[i], r[j])
      {
        if j >= |a| {
          assert r[j] == b[j - |a|] && r[j] in b;
          if i >= |a| {
            assert r[i] == b[i - |a|];
          }
        }
      }
    }
  }

  /** The archive walk is 37 pages, newest first, starting at January 2026 and ending at January 2023. */
  lemma ArchiveWalkFacts()
    ensures |ArchiveWalk()| == 37
    ensures StrictlyDescending(ArchiveWalk())
    ensures ArchiveWalk()[0] == (2026, 1)
    ensures forall p :: p in ArchiveWalk() <==>
      (p == (2026, 1) || (2023 <= p.0 <= 2025 && 1 <= p.1 <= 12))
  {
    WalkYearsOrdered(CurrentYear, OldestYear, CurrentYear, CurrentMonth);
  }

  // ---------------------------------------------------------------------
  // The article-link filter

  /** An anchor of a listing page: its `href` attribute, if any, and its text. */
  datatype Link = Link(href: Option<string>, text: string)

  /** The keyword lists one of the two link handlers uses. */
  datatype Filter = Filter(caseKeywords: seq<string>, excludeKeywords: seq<string>)

  /** The lists `crawlMonthlyArchive` uses. */
  const ArchiveFilter: Filter := Filter(
    ["ciaa files", "ciaa case", "ciaa charges",
     "arrested for", "arrested in", "charged with",
     "court files", "case against", "case filed",
     "investigation into", "probe into",
     "embezzlement", "land scam", "land grab",
     "bribery case", "corruption case", "graft case",
     "money laundering", "graft-case"],
    ["editorial", "opinion", "interview", "analysis",
     "columns", "why corruption", "how to", "accord"])

  /** The lists `scrapeCategoryPages` uses: two fewer case keywords, one more exclusion. */
  const CategoryFilter: Filter := Filter(
    ["ciaa files", "ciaa case", "ciaa charges",
     "arrested for", "arrested in", "charged with",
     "court files", "case against", "case filed",
     "investigation into", "probe into",
     "embezzlement", "land scam", "land grab",
     "bribery case", "corruption case", "graft case"],
    ["editorial", "opinion", "interview", "analysis",
     "columns", "why corruption", "how to",
     "gen z", "accord"])

  /** `\w`. */
  predicate IsWordChar(c: char) {
    ('a' <= c <= 'z') || ('A' <= c <= 'Z') || ('0' <= c <= '9') || c == '_'
  }

  predicate DigitsAt(h: string, i: nat, n: nat) {
    i + n <= |h| && forall k :: i <= k < i + n ==> IsAsciiDigit(h[k])
  }

  /** `/\d{4}/\d{2}/\d{2}/` starting at position `k`. */
  predicate DatedPathAt(h: string, k: nat) {
    k + 12 <= |h| && h[k] == '/' && DigitsAt(h, k + 1, 4) && h[k + 5] == '/'
    && DigitsAt(h, k + 6, 2) && h[k + 8] == '/' && DigitsAt(h, k + 9, 2) && h[k + 11] == '/'
  }

  /** The language of `^/\w+/\d{4}/\d{2}/\d{2}/`: some split of a leading `/`, a word and a dated path. */
  predicate ArticleHrefShape(h: string) {
    exists k :: 2 <= k <= |h| && |h| > 0 && h[0] == '/' && (forall j :: 1 <= j < k ==> IsWordChar(h[j])) && DatedPathAt(h, k)
  }

  /** First position at or after `i` that is not a word character. */
  function WordRunEnd(h: string, i: nat): (e: nat)
    requires i <= |h|
    ensures i <= e <= |h|
    ensures forall j :: i <= j < e ==> IsWordChar(h[j])
    ensures e == |h| || !IsWordChar(h[e])
    decreases |h| - i
  {
    if i == |h| || !IsWordChar(h[i]) then i else WordRunEnd(h, i + 1)
  }

  /** The regex test, deterministic: `\w+` cannot swallow a `/`, so it must stop where the word run stops. */
  function IsArticleHref(h: string): (b: bool)
    ensures b <==> ArticleHrefShape(h)
  {
    if |h| == 0 || h[0] != '/' then false
    else
      var k := WordRunEnd(h, 1);
      assert forall k' :: 2 <= k' <= |h| && (forall j :: 1 <= j < k' ==> IsWordChar(h[j])) && DatedPathAt(h, k') ==> k' == k;
      k >= 2 && DatedPathAt(h, k)
  }

  /** The anchor text, lower-cased and trimmed. */
  function LinkText(l: Link): string {
    Trim(ToLower(l.text))
  }

  /** The href lower-cased, or the empty string when there is none. */
  function LinkUrl(l: Link): string {
    ToLower(l.href.GetOr(""))
  }

  /** A keyword occurs in a link's lowered text or lowered href. */
  predicate Occurs(keyword: string, l: Link) {
    Contains(LinkText(l), keyword) || Contains(LinkUrl(l), keyword)
  }

  /** Some keyword occurs in the link's text or href. */
  function AnyKeyword(keywords: seq<string>, l: Link): (b: bool)
    ensures b <==> exists i :: 0 <= i < |keywords| && Occurs(keywords[i], l)
  {
    if |keywords| == 0 then false
    else if ContainsScan(LinkText(l), keywords[0]) || ContainsScan(LinkUrl(l), keywords[0]) then true
    else
      var b := AnyKeyword(keywords[1..], l);
      assert forall i :: 1 <= i < |keywords| ==> keywords[i] == keywords[1..][i - 1];
      b
  }

  /** Whether the link handler keeps a link. */
  function Accepts(f: Filter, l: Link): bool {
    if l.href.None? || l.href.value == "" || !IsArticleHref(l.href.value) then false
    else if AnyKeyword(f.excludeKeywords, l) then false
    else AnyKeyword(f.caseKeywords, l) && |LinkText(l)| > 10
  }

  /**
   * A link is kept exactly when its href has the dated-article shape, no
   * exclude keyword occurs, some case keyword occurs, and its trimmed text
   * is longer than 10; an exclude keyword rejects a link whatever else it holds.
   */
  lemma AcceptsSpec(f: Filter, l: Link)
    ensures Accepts(f, l) <==>
      && l.href.Some? && ArticleHrefShape(l.href.value)
      && !(exists i :: 0 <= i < |f.excludeKeywords| && Occurs(f.excludeKeywords[i], l))
      && (exists i :: 0 <= i < |f.caseKeywords| && Occurs(f.caseKeywords[i], l))
      && |LinkText(l)| > 10
    ensures (exists i :: 0 <= i < |f.excludeKeywords| && Occurs(f.excludeKeywords[i], l)) ==> !Accepts(f, l)
  {
    if l.href.Some? && l.href.value == "" {
      assert !ArticleHrefShape(l.href.value);
    }
  }

  /** What an accepted link contributes: `BASE_URL + href`. */
  function LinkUrlIfKept(f: Filter, l: Link): seq<string> {
    if Accepts(f, l) then [Base + l.href.value] else []
  }

  /** `BASE_URL + href` for every accepted link of a page, in document order. */
  function CaseLinks(f: Filter, links: seq<Link>): (urls: seq<string>)
    ensures |urls| <= |links|
  {
    if |links| == 0 then []
    else CaseLinks(f, links[..|links| - 1]) + LinkUrlIfKept(f, links[|links| - 1])
  }

  /** Every kept URL comes from an accepted link. */
  lemma {:induction false} CaseLinksSound(f: Filter, links: seq<Link>, u: string)
    requires u in CaseLinks(f, links)
    ensures exists i :: 0 <= i < |links| && Accepts(f, links[i]) && u == Base + links[i].href.value
  {
    var init := links[..|links| - 1];
    var l := links[|links| - 1];
    if u in CaseLinks(f, init) {
      CaseLinksSound(f, init, u);
      var i :| 0 <= i < |init| && Accepts(f, init[i]) && u == Base + init[i].href.value;
      assert links[i] == init[i];
    } else {
      assert u in LinkUrlIfKept(f, l);
    }
  }

  /** Every accepted link contributes its URL. */
  lemma {:induction false} CaseLinksComplete(f: Filter, links: seq<Link>, i: nat)
    requires i < |links| && Accepts(f, links[i])
    ensures Base + links[i].href.value in CaseLinks(f, links)
  {
    var init := links[..|links| - 1];
    var u := Base + links[i].href.value;
    assert CaseLinks(f, links) == CaseLinks(f, init) + LinkUrlIfKept(f, links[|links| - 1]);
    if i < |init| {
      assert init[i] == links[i];
      CaseLinksComplete(f, init, i);
      assert u in CaseLinks(f, init);
    } else {
      assert LinkUrlIfKept(f, links[i]) == [u];
    }
  }

  /** The kept URLs are exactly those of the accepted links. */
  lemma CaseLinksMembers(f: Filter, links: seq<Link>, u: string)
    ensures u in CaseLinks(f, links) <==>
      exists i :: 0 <= i < |links| && Accepts(f, links[i]) && u == Base + links[i].href.value
  {
    if u in CaseLinks(f, links) {
      CaseLinksSound(f, links, u);
    }
    if exists i :: 0 <= i < |links| && Accepts(f, links[i]) && u == Base + links[i].href.value {
      var i :| 0 <= i < |links| && Accepts(f, links[i]) && u == Base + links[i].href.value;
      CaseLinksComplete(f, links, i);
    }
  }

  /** A fetched listing page is its anchors; a failed fetch is `None`. */
  type FetchLinks = string -> Option<seq<Link>>

  /** `crawlMonthlyArchive(year, month, 'national')`: nothing when the fetch fails. */
  function CrawlMonthlyArchive(fetch: FetchLinks, year: nat, month: nat): (urls: seq<string>)
    ensures fetch(ArchiveUrl("national", year, month)).None? ==> urls == []
    ensures forall u :: u in urls ==> StartsWith(u, Base)
  {
    match fetch(ArchiveUrl("national", year, month))
    case None => []
    case Some(links) =>
      var r := CaseLinks(ArchiveFilter, links);
      assert forall u :: u in r ==> StartsWith(u, Base) by {
        forall u | u in r ensures StartsWith(u, Base) {
          CaseLinksMembers(ArchiveFilter, links, u);
          var i :| 0 <= i < |links| && Accepts(ArchiveFilter, links[i]) && u == Base + links[i].href.value;
          assert u[..|Base|] == Base;
        }
      }
      r
  }

  /** What one archive month contributes, indexed the way `FlatMapIndexed` expects. */
  function MonthUrls(fetch: FetchLinks): (nat, (int, nat)) -> seq<string> {
    (k: nat, p: (int, nat)) => if p.0 >= 0 then CrawlMonthlyArchive(fetch, p.0 as nat, p.1) else []
  }

  /** The crawl over a list of months: every month's URLs in order, then duplicates removed keeping first occurrences. */
  function CrawlMonths(fetch: FetchLinks, walk: seq<(int, nat)>): (urls: seq<string>)
    ensures Seqs.Distinct(urls)
    ensures forall u :: u in urls <==> exists k :: 0 <= k < |walk| && u in MonthUrls(fetch)(k, walk[k])
    ensures urls == Seqs.FirstOccurrences(Seqs.FlatMapIndexed(MonthUrls(fetch), walk, 0))
  {
    var g := MonthUrls(fetch);
    var all := Seqs.FlatMapIndexed(g, walk, 0);
    Seqs.DedupIsFirstOccurrences(all);
    forall u
      ensures u in all <==> exists k :: 0 <= k < |walk| && u in g(k, walk[k])
    {
      if u in all {
        Seqs.FlatMapIndexedMember(g, walk, 0, u);
      }
      if exists k :: 0 <= k < |walk| && u in g(k, walk[k]) {
        var k :| 0 <= k < |walk| && u in g(k, walk[k]);
        Seqs.FlatMapIndexedSplit(g, walk, 0, k);
      }
    }
    Seqs.Dedup(all)
  }

  /** `crawlRecentArchives`: the crawl over the archive walk. */
  function CrawlRecentArchives(fetch: FetchLinks): seq<string> {
    CrawlMonths(fetch, ArchiveWalk())
  }

  // ---------------------------------------------------------------------
  // Category pages and the URL-keyed item map

  /** One accepted link of `scrapeCategoryPages`. */
  datatype Item = Item(url: string, title: string, matchedOn: string)

  function ItemUrls(items: seq<Item>): (r: seq<string>)
    ensures |r| == |items| && forall i :: 0 <= i < |items| ==> r[i] == items[i].url
  {
    seq(|items|, i requires 0 <= i < |items| => items[i].url)
  }

  /** Position of the entry for `url` in an insertion-ordered map, or its size. */
  function KeyIndex(m: seq<Item>, url: string): (k: nat)
    ensures k <= |m|
    ensures k < |m| ==> m[k].url == url
    ensures k == |m| ==> url !in ItemUrls(m)
  {
    if |m| == 0 then 0
    else if m[|m| - 1].url == url then |m| - 1
    else
      var k := KeyIndex(m[..|m| - 1], url);
      assert ItemUrls(m) == ItemUrls(m[..|m| - 1]) + [m[|m| - 1].url];
      if k < |m| - 1 then k else |m|
  }

  /** Setting a key of an insertion-ordered map: overwrite the value in place, or append a new entry. */
  function MapSet(m: seq<Item>, it: Item): seq<Item> {
    var k := KeyIndex(m, it.url);
    if k < |m| then m[k := it] else m + [it]
  }

  /** The entries of a map built from the items keyed by URL, in insertion order. */
  function MapOf(items: seq<Item>): seq<Item> {
    if |items| == 0 then [] else MapSet(MapOf(items[..|items| - 1]), items[|items| - 1])
  }

  /** The map keeps one entry per URL, in order of first occurrence: its keys are the deduplicated URLs. */
  lemma {:induction false} MapOfKeys(items: seq<Item>)
    ensures ItemUrls(MapOf(items)) == Seqs.FirstOccurrences(ItemUrls(items))
  {
    if |items| > 0 {
      var init := items[..|items| - 1];
      var it := items[|items| - 1];
      var m := MapOf(init);
      MapOfKeys(init);
      var us := ItemUrls(items);
      assert us[..|us| - 1] == ItemUrls(init);
      Seqs.DedupIsFirstOccurrences(ItemUrls(init));
      assert it.url in ItemUrls(m) <==> it.url in ItemUrls(init);
      var k := KeyIndex(m, it.url);
      if k < |m| {
        assert ItemUrls(m[k := it]) == ItemUrls(m);
      } else {
        assert ItemUrls(m + [it]) == ItemUrls(m) + [it.url];
      }
    }
  }

  lemma MapOfUrlsDedup(items: seq<Item>)
    ensures ItemUrls(MapOf(items)) == Seqs.Dedup(ItemUrls(items))
  {
    MapOfKeys(items);
    Seqs.DedupIsFirstOccurrences(ItemUrls(items));
  }

  /** The pages `scrapeCategoryPages` reads. */
  const CategoryPaths: seq<string> := ["/national", "/politics"]

  /** What one link of a category page contributes: its item, when the link is accepted. */
  function ItemIfKept(l: Link): seq<Item> {
    if Accepts(CategoryFilter, l) then [Item(Base + l.href.value, Trim(l.text), LinkText(l))] else []
  }

  /** The items a fetched category page contributes: accepted links with their trimmed and lowered texts. */
  function PageItems(links: seq<Link>): seq<Item> {
    if |links| == 0 then [] else PageItems(links[..|links| - 1]) + ItemIfKept(links[|links| - 1])
  }

  lemma ItemUrlsAppend(a: seq<Item>, b: seq<Item>)
    ensures ItemUrls(a + b) == ItemUrls(a) + ItemUrls(b)
  {
  }

  /** A category page yields the same URLs as the filter does. */
  lemma {:induction false} PageItemsUrls(links: seq<Link>)
    ensures ItemUrls(PageItems(links)) == CaseLinks(CategoryFilter, links)
  {
    if |links| > 0 {
      var l := links[|links| - 1];
      PageItemsUrls(links[..|links| - 1]);
      ItemUrlsAppend(PageItems(links[..|links| - 1]), ItemIfKept(l));
      assert ItemUrls(ItemIfKept(l)) == LinkUrlIfKept(CategoryFilter, l);
    }
  }

  /** Items gathered from the category pages in order, skipping pages that fail to load. */
  function CategoryItems(fetch: FetchLinks, paths: seq<string>): seq<Item> {
    if |paths| == 0 then []
    else
      var rest := CategoryItems(fetch, paths[1..]);
      match fetch(Base + paths[0])
      case None => rest
      case Some(links) => PageItems(links) + rest
  }

  /** `scrapeCategoryPages`: the URLs of the deduplicated item map. */
  function ScrapeCategoryPages(fetch: FetchLinks): (urls: seq<string>)
    ensures urls == Seqs.Dedup(ItemUrls(CategoryItems(fetch, CategoryPaths)))
  {
    var items := CategoryItems(fetch, CategoryPaths);
    MapOfUrlsDedup(items);
    ItemUrls(MapOf(items))
  }

  /** `findCorruptionCases`: archive results, then category results, deduplicated once more. */
  function FindCorruptionCases(fetch: FetchLinks): (urls: seq<string>)
    ensures Seqs.Distinct(urls)
    ensures forall u :: u in urls <==> u in CrawlRecentArchives(fetch) || u in ScrapeCategoryPages(fetch)
    ensures urls == Seqs.FirstOccurrences(CrawlRecentArchives(fetch) + ScrapeCategoryPages(fetch))
  {
    Seqs.DedupIsFirstOccurrences(CrawlRecentArchives(fetch) + ScrapeCategoryPages(fetch));
    Seqs.Dedup(CrawlRecentArchives(fetch) + ScrapeCategoryPages(fetch))
  }

  // ---------------------------------------------------------------------
  // Paragraph selection

  /** What an article page offers the extractor: `$(selector)` element texts, and the two date attributes. */
  datatype ArticlePage = ArticlePage(
    select: string -> seq<string>,
    timeDatetime: Option<string>,
    publishedMeta: Option<string>)

  const ArticleSelectors: seq<string> := ["article p", ".story-content p", ".article-content p", "div[class*=\"content\"] p"]

  /** The trimmed texts longer than `min`, in order. */
  function LongTexts(xs: seq<string>, min: nat): (r: seq<string>)
    ensures |r| <= |xs|
    ensures forall k :: 0 <= k < |r| ==> |r[k]| > min
  {
    if |xs| == 0 then []
    else
      var t := Trim(xs[|xs| - 1]);
      LongTexts(xs[..|xs| - 1], min) + (if |t| > min then [t] else [])
  }

  /** A text is kept exactly when some element trims to it and it is longer than `min`. */
  lemma LongTextsMembers(xs: seq<string>, min: nat, t: string)
    ensures t in LongTexts(xs, min) <==> exists i :: 0 <= i < |xs| && t == Trim(xs[i]) && |t| > min
  {
    if t in LongTexts(xs, min) {
      var i := LongTextsOrigin(xs, min, t);
    }
    if exists i :: 0 <= i < |xs| && t == Trim(xs[i]) && |t| > min {
      var i :| 0 <= i < |xs| && t == Trim(xs[i]) && |t| > min;
      LongTextsKeeps(xs, min, i);
    }
  }

  /** The element a kept text comes from. */
  lemma {:induction false} LongTextsOrigin(xs: seq<string>, min: nat, t: string) returns (i: nat)
    requires t in LongTexts(xs, min)
    ensures i < |xs| && t == Trim(xs[i]) && |t| > min
  {
    var init := xs[..|xs| - 1];
    if t in LongTexts(init, min) {
      i := LongTextsOrigin(init, min, t);
      assert init[i] == xs[i];
    } else {
      i := |xs| - 1;
    }
  }

  /** An element whose trimmed text is longer than `min` is kept. */
  lemma {:induction false} LongTextsKeeps(xs: seq<string>, min: nat, i: nat)
    requires i < |xs| && |Trim(xs[i])| > min
    ensures Trim(xs[i]) in LongTexts(xs, min)
  {
    var init := xs[..|xs| - 1];
    if i < |init| {
      LongTextsKeeps(init, min, i);
      assert init[i] == xs[i];
    }
  }

  /** The paragraphs of the first selector that yields any, or none. */
  function FirstYield(hits: seq<seq<string>>): (r: seq<string>)
    ensures r == [] <==> forall i :: 0 <= i < |hits| ==> LongTexts(hits[i], 20) == []
    ensures r != [] ==>
      exists i :: 0 <= i < |hits| && r == LongTexts(hits[i], 20) && forall j :: 0 <= j < i ==> LongTexts(hits[j], 20) == []
  {
    if |hits| == 0 then []
    else
      var p := LongTexts(hits[0], 20);
      if p != [] then p
      else
        var r := FirstYield(hits[1..]);
        assert forall i :: 1 <= i < |hits| ==> hits[i] == hits[1..][i - 1];
        assert r != [] ==> exists i :: 1 <= i < |hits| && r == LongTexts(hits[i], 20) && forall j :: 0 <= j < i ==> LongTexts(hits[j], 20) == [] by {
          if r != [] {
            var i :| 0 <= i < |hits[1..]| && r == LongTexts(hits[1..][i], 20) && forall j :: 0 <= j < i ==> LongTexts(hits[1..][j], 20) == [];
            assert forall j :: 0 <= j < i + 1 ==> LongTexts(hits[j], 20) == [] by {
              forall j | 0 <= j < i + 1 ensures LongTexts(hits[j], 20) == [] {
                if j > 0 { assert hits[j] == hits[1..][j - 1]; }
              }
            }
          }
        }
        r
  }

  function SelectorHits(page: ArticlePage): (hits: seq<seq<string>>)
    ensures |hits| == |ArticleSelectors|
  {
    seq(|ArticleSelectors|, i requires 0 <= i < |ArticleSelectors| => page.select(ArticleSelectors[i]))
  }

  /** The article's paragraphs: those of the first yielding selector, else every `p` longer than 50. */
  function SelectParagraphs(page: ArticlePage): (ps: seq<string>)
    ensures forall k :: 0 <= k < |ps| ==> |ps[k]| > 20
    ensures FirstYield(SelectorHits(page)) == [] ==> ps == LongTexts(page.select("p"), 50)
  {
    var p := FirstYield(SelectorHits(page));
    if p != [] then p else LongTexts(page.select("p"), 50)
  }

  /** One selector's `.each`: push every trimmed text longer than `min` onto `acc`. */
  method PushLong(acc: seq<string>, texts: seq<string>, min: nat) returns (out: seq<string>)
    ensures out == acc + LongTexts(texts, min)
  {
    out := acc;
    var j := 0;
    while j < |texts|
      invariant 0 <= j <= |texts|
      invariant out == acc + LongTexts(texts[..j], min)
    {
      var text := Trim(texts[j]);
      assert texts[..j + 1][..j] == texts[..j];
      if text != [] && |text| > min {
        out := out + [text];
      }
      j := j + 1;
    }
    assert texts[..j] == texts;
  }

  /** The extractor's loops as written: push qualifying texts, stop after the first selector that pushed any. */
  method CollectParagraphs(page: ArticlePage) returns (paragraphs: seq<string>)
    ensures paragraphs == SelectParagraphs(page)
  {
    var hits := SelectorHits(page);
    paragraphs := [];
    var i := 0;
    while i < |ArticleSelectors|
      invariant 0 <= i <= |ArticleSelectors|
      invariant paragraphs == []
      invariant FirstYield(hits) == FirstYield(hits[i..])
    {
      paragraphs := PushLong(paragraphs, page.select(ArticleSelectors[i]), 20);
      assert paragraphs == LongTexts(hits[i], 20);
      assert hits[i..][1..] == hits[i + 1..];
      if |paragraphs| > 0 {
        return;
      }
      i := i + 1;
    }
    paragraphs := PushLong(paragraphs, page.select("p"), 50);
  }

  function Take(s: seq<string>, n: nat): (r: seq<string>)
    ensures |r| == if |s| < n then |s| else n
    ensures r == s[..|r|]
  {
    if |s| < n then s else s[..n]
  }

  /** The article summary: the first three paragraphs joined by a space. */
  function Summary(ps: seq<string>): string {
    Join(Take(ps, 3), ' ')
  }

  /** A joined list of non-empty parts is empty exactly when the list is. */
  lemma JoinEmpty(ps: seq<string>, sep: char)
    requires forall t :: t in ps ==> |t| > 0
    ensures Join(ps, sep) == [] <==> ps == []
  {
    if |ps| >= 2 {
      JoinMultipleHasSeparator(ps, sep);
    } else if |ps| == 1 {
      assert ps[0] in ps;
    }
  }

  // ---------------------------------------------------------------------
  // Case-type classification

  datatype CaseType = Embezzlement | LandScam | Bribery | CiaaInvestigation | Corruption {
    function Name(): string {
      match this
      case Embezzlement => "Embezzlement"
      case LandScam => "Land Scam"
      case Bribery => "Bribery"
      case CiaaInvestigation => "CIAA Investigation"
      case Corruption => "Corruption"
    }
  }

  /** The `if`/`else if` chain over the lowered article text. */
  function Classify(text: string): (c: CaseType)
    ensures c == Embezzlement <==> Contains(text, "embezzlement")
    ensures c == LandScam <==> !Contains(text, "embezzlement") && (Contains(text, "land scam") || Contains(text, "land grab"))
    ensures c == Bribery <==>
      !Contains(text, "embezzlement") && !Contains(text, "land scam") && !Contains(text, "land grab") && Contains(text, "bribe")
    ensures c == CiaaInvestigation <==>
      !Contains(text, "embezzlement") && !Contains(text, "land scam") && !Contains(text, "land grab")
      && !Contains(text, "bribe") && Contains(text, "ciaa")
  {
    BriberyHasBribe(text);
    if ContainsScan(text, "embezzlement") then Embezzlement
    else if ContainsScan(text, "land scam") || ContainsScan(text, "land grab") then LandScam
    else if ContainsScan(text, "bribery") || ContainsScan(text, "bribe") then Bribery
    else if ContainsScan(text, "ciaa") then CiaaInvestigation
    else Corruption
  }

  /** Every text containing "bribery" contains "bribe", so the first of the two tests never decides anything. */
  lemma BriberyHasBribe(text: string)
    ensures Contains(text, "bribery") ==> Contains(text, "bribe")
  {
    if Contains(text, "bribery") {
      var i :| 0 <= i <= |text| && StartsWith(text[i..], "bribery");
      assert text[i..][..5] == "bribery"[..5] == "bribe";
      assert StartsWith(text[i..], "bribe");
    }
  }

  // ---------------------------------------------------------------------
  // Accused names

  const MaxAccused: nat := 5

  /** The prefixes of the three name patterns, each followed by `([A-Z][a-z]+ [A-Z][a-z]+)`. */
  const NamePrefixes: seq<string> := ["case against ", "charged ", "arrested "]

  predicate IsUpperAscii(c: char) { 'A' <= c <= 'Z' }
  predicate IsLowerAscii(c: char) { 'a' <= c <= 'z' }

  /** `[A-Z][a-z]+` spanning exactly `s[i..e]`. */
  predicate Capitalised(s: string, i: nat, e: nat) {
    i + 2 <= e <= |s| && IsUpperAscii(s[i]) && forall j :: i + 1 <= j < e ==> IsLowerAscii(s[j])
  }

  /** The language of `[A-Z][a-z]+ [A-Z][a-z]+`. */
  predicate IsName(s: string) {
    exists k :: 0 < k < |s| && s[k] == ' ' && Capitalised(s, 0, k) && Capitalised(s, k + 1, |s|)
  }

  function LowerRunEnd(t: string, j: nat): (e: nat)
    requires j <= |t|
    ensures j <= e <= |t|
    ensures forall k :: j <= k < e ==> IsLowerAscii(t[k])
    ensures e == |t| || !IsLowerAscii(t[e])
    decreases |t| - j
  {
    if j == |t| || !IsLowerAscii(t[j]) then j else LowerRunEnd(t, j + 1)
  }

  /** `[A-Z][a-z]+` at `i`, greedy: where the word ends, if one starts there. */
  function WordAt(t: string, i: nat): (r: Option<nat>)
    requires i <= |t|
    ensures r.Some? ==> Capitalised(t, i, r.value)
    ensures r.Some? ==> r.value == |t| || !IsLowerAscii(t[r.value])
  {
    if i < |t| && IsUpperAscii(t[i]) then
      var e := LowerRunEnd(t, i + 1);
      if e > i + 1 then Some(e) else None
    else None
  }

  /** A capitalised word that stops at a non-lowercase character is the one the greedy match finds. */
  lemma WordAtFinds(t: string, i: nat, e: nat)
    requires Capitalised(t, i, e) && (e == |t| || !IsLowerAscii(t[e]))
    ensures WordAt(t, i) == Some(e)
  {
  }

  /** Two capitalised words separated by one space make a name. */
  lemma TwoWordsName(t: string, i: nat, e: nat, f: nat)
    requires Capitalised(t, i, e) && e < |t| && t[e] == ' ' && Capitalised(t, e + 1, f)
    ensures IsName(t[i..f])
  {
    var s := t[i..f];
    var k := e - i;
    assert s[k] == ' ';
    assert IsUpperAscii(s[0]) && IsUpperAscii(s[k + 1]);
    forall j | 1 <= j < k
      ensures IsLowerAscii(s[j])
    {
      assert s[j] == t[i + j];
    }
    forall j | k + 2 <= j < |s|
      ensures IsLowerAscii(s[j])
    {
      assert s[j] == t[i + j];
    }
    assert Capitalised(s, 0, k) && Capitalised(s, k + 1, |s|);
  }

  /** The captured group at `i`, greedy: where the two-word name ends, if one starts there. */
  function NameAt(t: string, i: nat): (r: Option<nat>)
    requires i <= |t|
    ensures r.Some? ==> i < r.value <= |t| && IsName(t[i..r.value])
  {
    match WordAt(t, i)
    case None => None
    case Some(e) =>
      if e < |t| && t[e] == ' ' then
        var r := WordAt(t, e + 1);
        if r.Some? then
          TwoWordsName(t, i, e, r.value);
          r
        else r
      else None
  }

  /** Wherever the pattern's group could match a name, the greedy scan finds one. */
  lemma NameAtComplete(t: string, i: nat, e: nat)
    requires i < e <= |t| && IsName(t[i..e])
    ensures NameAt(t, i).Some?
  {
    var s := t[i..e];
    var k :| 0 < k < |s| && s[k] == ' ' && Capitalised(s, 0, k) && Capitalised(s, k + 1, |s|);
    assert Capitalised(t, i, i + k);
    WordAtFinds(t, i, i + k);
    var e2 := LowerRunEnd(t, i + k + 2);
    assert Capitalised(t, i + k + 1, e2);
    WordAtFinds(t, i + k + 1, e2);
  }

  /** `pattern.exec` repeated under the global flag: each capture, left to right, resuming after the previous match. */
  function ScanNames(t: string, prefix: string, from: nat): (names: seq<string>)
    requires from <= |t|
    ensures forall n :: n in names ==> IsName(n) && Contains(t, prefix + n)
    decreases |t| - from
  {
    if from == |t| then []
    else
      var a := from + |prefix|;
      if a <= |t| && StartsWith(t[from..], prefix) && NameAt(t, a).Some? then
        var e := NameAt(t, a).value;
        var n := t[a..e];
        assert StartsWith(t[from..], prefix + n) by {
          assert t[from..][..|prefix + n|] == t[from..e];
          assert t[from..e] == t[from..a] + t[a..e];
        }
        [n] + ScanNames(t, prefix, e)
      else
        ScanNames(t, prefix, from + 1)
  }

  /** Add each name not yet held, while fewer than five names are held. */
  function Collect(acc: seq<string>, names: seq<string>): seq<string>
    decreases |names|
  {
    if |names| == 0 || |acc| >= MaxAccused then acc
    else Collect(if names[0] in acc then acc else acc + [names[0]], names[1..])
  }

  function AsSet(s: seq<string>): set<string> {
    set x | x in s
  }

  /** Collecting is taking the first five distinct names: the held ones, then the new ones in order. */
  lemma {:induction false} CollectIsTake(acc: seq<string>, names: seq<string>)
    requires |acc| <= MaxAccused && Seqs.Distinct(acc)
    ensures Collect(acc, names) == Take(acc + Seqs.DedupFrom(names, AsSet(acc)), MaxAccused)
    decreases |names|
  {
    if |names| == 0 {
    } else if |acc| == MaxAccused {
      assert (acc + Seqs.DedupFrom(names, AsSet(acc)))[..MaxAccused] == acc;
    } else {
      var n := names[0];
      if n in acc {
        CollectIsTake(acc, names[1..]);
      } else {
        var acc' := acc + [n];
        assert AsSet(acc') == AsSet(acc) + {n};
        CollectIsTake(acc', names[1..]);
        assert acc' + Seqs.DedupFrom(names[1..], AsSet(acc')) == acc + Seqs.DedupFrom(names, AsSet(acc));
      }
    }
  }

  /** Running the loop over one pattern's matches, then another's, is running it over both in turn. */
  lemma {:induction false} CollectAppend(acc: seq<string>, a: seq<string>, b: seq<string>)
    ensures Collect(Collect(acc, a), b) == Collect(acc, a + b)
    decreases |a|
  {
    if |a| == 0 {
      assert a + b == b;
    } else if |acc| >= MaxAccused {
      assert Collect(acc, b) == acc;
    } else {
      assert (a + b)[1..] == a[1..] + b;
      CollectAppend(if a[0] in acc then acc else acc + [a[0]], a[1..], b);
    }
  }

  /** The names every pattern finds, pattern by pattern. */
  function AllNameMatches(t: string): (names: seq<string>)
    ensures forall n :: n in names ==> IsName(n)
  {
    ScanNames(t, NamePrefixes[0], 0) + ScanNames(t, NamePrefixes[1], 0) + ScanNames(t, NamePrefixes[2], 0)
  }

  /**
   * The names collected over the three patterns: the first five distinct
   * matches, in the order the patterns find them; `null` when none.
   */
  function AccusedNames(t: string): (r: Option<seq<string>>)
    ensures r.Some? ==> 0 < |r.value| <= MaxAccused && Seqs.Distinct(r.value)
    ensures r.Some? ==> forall n :: n in r.value ==> IsName(n)
    ensures r.Some? ==> r.value == Take(Seqs.Dedup(AllNameMatches(t)), MaxAccused)
    ensures r.None? <==> AllNameMatches(t) == []
  {
    var s0 := ScanNames(t, NamePrefixes[0], 0);
    var s1 := ScanNames(t, NamePrefixes[1], 0);
    var s2 := ScanNames(t, NamePrefixes[2], 0);
    var none: seq<string> := [];
    var names := Collect(Collect(Collect(none, s0), s1), s2);
    CollectAppend(none, s0, s1);
    CollectAppend(none, s0 + s1, s2);
    CollectIsTake(none, AllNameMatches(t));
    assert AsSet(none) == {};
    assert names == Take(Seqs.Dedup(AllNameMatches(t)), MaxAccused);
    var d := Seqs.Dedup(AllNameMatches(t));
    assert d == [] <==> AllNameMatches(t) == [] by {
      if AllNameMatches(t) != [] {
        assert AllNameMatches(t)[0] in d;
      }
    }
    if |names| > 0 then Some(names) else None
  }

  // ---------------------------------------------------------------------
  // The article record and the run over all discovered URLs

  datatype Article = Article(
    title: string,
    caseType: CaseType,
    dateReported: Option<string>,
    accused: Option<seq<string>>,
    sourceName: string,
    sourceUrl: string,
    summary: string,
    rawContent: string)

  /** The first non-empty of two optional attribute values, or none. */
  function FirstTruthy(a: Option<string>, b: Option<string>): (r: Option<string>)
    ensures r.Some? ==> r.value != "" && (r == a || r == b)
    ensures r.None? <==> (a.None? || a.value == "") && (b.None? || b.value == "")
  {
    if a.Some? && a.value != "" then a else if b.Some? && b.value != "" then b else None
  }

  /**
   * The trimmed text of the first heading, or, when that is empty, the
   * trimmed text of every `title` element run together (cheerio's `.text()`
   * on a selection concatenates its elements' texts with no separator).
   */
  function ArticleTitle(page: ArticlePage): (t: string)
    ensures |t| > 0 ==> !IsJsSpace(t[0]) && !IsJsSpace(t[|t| - 1])
    ensures |page.select("h1")| > 0 && Trim(page.select("h1")[0]) != "" ==> t == Trim(page.select("h1")[0])
    ensures |page.select("h1")| == 0 || Trim(page.select("h1")[0]) == "" ==> t == Trim(Seqs.Flatten(page.select("title")))
  {
    var h1 := page.select("h1");
    var first := if |h1| > 0 then Trim(h1[0]) else "";
    var fallback := Trim(Seqs.Flatten(page.select("title")));
    TrimBoundaries(if |h1| > 0 then h1[0] else "");
    TrimBoundaries(Seqs.Flatten(page.select("title")));
    if first != "" then first else fallback
  }

  /**
   * Without a usable heading, two `title` elements give their texts joined
   * with nothing between them: `Graft` and `Case` read as `GraftCase`.
   */
  lemma ArticleTitleConcatenates(page: ArticlePage, x: string, y: string)
    requires |page.select("h1")| == 0 || Trim(page.select("h1")[0]) == ""
    requires page.select("title") == [x, y]
    requires |x| > 0 && !IsJsSpace(x[0]) && |y| > 0 && !IsJsSpace(y[|y| - 1])
    ensures ArticleTitle(page) == x + y
  {
    assert [x, y][..1] == [x];
    assert Seqs.Flatten([x]) == x by {
      assert [x][..0] == [];
    }
    assert Seqs.Flatten([x, y]) == x + y;
    TrimOfTrimmed(x + y);
  }

  /** `scrapeCorruptionCase` on a fetched page. */
  function ScrapeArticle(page: ArticlePage, url: string): (a: Article)
    ensures a.sourceUrl == url && a.sourceName == "The Kathmandu Post"
    ensures a.rawContent != "" <==> SelectParagraphs(page) != []
    ensures a.caseType == Classify(ToLower(Join(SelectParagraphs(page), ' ')))
    ensures a.summary == Join(Take(SelectParagraphs(page), 3), ' ')
    ensures a.accused == AccusedNames(Join(SelectParagraphs(page), ' '))
    ensures a.title == ArticleTitle(page)
    ensures a.dateReported == FirstTruthy(page.timeDatetime, page.publishedMeta)
    ensures a.rawContent == Join(SelectParagraphs(page), '\n')
  {
    var ps := SelectParagraphs(page);
    JoinEmpty(ps, '\n');
    var raw := Join(ps, ' ');
    Article(ArticleTitle(page), Classify(ToLower(raw)),
      FirstTruthy(page.timeDatetime, page.publishedMeta),
      AccusedNames(raw), "The Kathmandu Post", url, Summary(ps), Join(ps, '\n'))
  }

  type FetchArticle = string -> Option<ArticlePage>

  /** What one URL contributes: its article, when the page loads and has content. */
  function Outcome(fetch: FetchArticle, u: string): (r: seq<Article>)
    ensures |r| <= 1
    ensures r != [] <==> fetch(u).Some? && SelectParagraphs(fetch(u).value) != []
    ensures r != [] ==> r[0] == ScrapeArticle(fetch(u).value, u) && r[0].rawContent != "" && r[0].sourceUrl == u
  {
    match fetch(u)
    case None => []
    case Some(page) =>
      var a := ScrapeArticle(page, u);
      if a.rawContent != "" then [a] else []
  }

  /** What each URL contributes, indexed the way `FlatMapIndexed` expects. */
  function ArticleOutcomes(fetch: FetchArticle): (nat, string) -> seq<Article> {
    (k: nat, u: string) => Outcome(fetch, u)
  }

  /** The main loop: scrape each URL in order, keeping exactly the articles that loaded and have content. */
  function ScrapeAll(fetch: FetchArticle, urls: seq<string>): (results: seq<Article>)
    ensures forall a :: a in results <==> exists i :: 0 <= i < |urls| && a in Outcome(fetch, urls[i])
  {
    var g := ArticleOutcomes(fetch);
    var all := Seqs.FlatMapIndexed(g, urls, 0);
    forall a
      ensures a in all <==> exists i :: 0 <= i < |urls| && a in Outcome(fetch, urls[i])
    {
      if a in all {
        Seqs.FlatMapIndexedMember(g, urls, 0, a);
      }
      if exists i :: 0 <= i < |urls| && a in Outcome(fetch, urls[i]) {
        var i :| 0 <= i < |urls| && a in Outcome(fetch, urls[i]);
        Seqs.FlatMapIndexedSplit(g, urls, 0, i);
      }
    }
    all
  }

  /**
   * The results follow the URL order, one entry per URL that yields an
   * article: scraping a concatenation is scraping each part in turn.
   */
  lemma ScrapeAllAppend(fetch: FetchArticle, a: seq<string>, b: seq<string>)
    ensures ScrapeAll(fetch, a + b) == ScrapeAll(fetch, a) + ScrapeAll(fetch, b)
  {
    OutcomesIgnorePosition(fetch);
    Seqs.FlatMapIndexedAppendUnshifted(ArticleOutcomes(fetch), a, b);
  }

  lemma OutcomesIgnorePosition(fetch: FetchArticle)
    ensures forall k: nat, u: string :: ArticleOutcomes(fetch)(k, u) == ArticleOutcomes(fetch)(0, u)
  {
  }

  /** No URL yields nothing, and one URL yields exactly its outcome. */
  lemma ScrapeAllSingle(fetch: FetchArticle, u: string)
    ensures ScrapeAll(fetch, []) == []
    ensures ScrapeAll(fetch, [u]) == Outcome(fetch, u)
  {
    var g := ArticleOutcomes(fetch);
    assert [u][1..] == [];
    assert Seqs.FlatMapIndexed(g, [u], 0) == g(0, u) + Seqs.FlatMapIndexed(g, [], 1);
  }

  /** The closing report: how many articles of each case type, in order of first appearance. */
  function CaseTypeCounts(results: seq<Article>): (t: Tally.Tally)
    ensures Tally.Total(t) == |results|
    ensures Tally.DistinctKeys(t)
    ensures forall q :: Tally.CountOf(t, q) == multiset(seq(|results|, i requires 0 <= i < |results| => results[i].caseType.Name()))[q]
  {
    var names := seq(|results|, i requires 0 <= i < |results| => results[i].caseType.Name());
    Tally.CountByTotal(names);
    Tally.CountByDistinct(names);
    forall q ensures Tally.CountOf(Tally.CountBy(names), q) == multiset(names)[q] {
      Tally.CountByCounts(names, q);
    }
    Tally.CountBy(names)
  }
}

=== FILE: publicapi.dfy ===
/**
 * The public read API: `GET /api/public/cases` (published cases, filtered,
 * sorted newest first and paged) and `GET /api/public/cases/:id` (one
 * published case with its linked persons grouped by role). The database is
 * a value of type `Store`; regular-expression matching and the text index
 * are oracles held in an `Engine`.
 */
module PublicApi {
  import opened Common
  import opened Text
  import Catalogue
  import Sorting
  import Seqs

  // ---------------------------------------------------------------------
  // Query parameters and `parseInt`

  /** A query-string value as the router receives it: absent, or a string. */
  type Param = Option<string>

  /** A parameter is truthy when it is present and not the empty string. */
  predicate Given(p: Param) {
    p.Some? && p.value != ""
  }

  predicate IsHexDigit(c: char) {
    IsAsciiDigit(c) || 'a' <= c <= 'f' || 'A' <= c <= 'F'
  }

  function HexDigitValue(c: char): (d: nat)
    requires IsHexDigit(c)
    ensures d < 16
  {
    if IsAsciiDigit(c) then c as int - '0' as int
    else if 'a' <= c <= 'f' then c as int - 'a' as int + 10
    else c as int - 'A' as int + 10
  }

  predicate AllHex(s: string) {
    forall i :: 0 <= i < |s| ==> IsHexDigit(s[i])
  }

  function HexValue(s: string): nat
    requires AllHex(s)
  {
    if |s| == 0 then 0
    else HexValue(s[..|s| - 1]) * 16 + HexDigitValue(s[|s| - 1])
  }

  /** The length of the longest prefix of `s` whose characters all satisfy `p`. */
  function RunLength(s: string, p: char -> bool): (n: nat)
    ensures n <= |s|
    ensures forall i :: 0 <= i < n ==> p(s[i])
    ensures n < |s| ==> !p(s[n])
  {
    if |s| == 0 || !p(s[0]) then 0
    else
      var n := 1 + RunLength(s[1..], p);
      assert forall i :: 1 <= i < n ==> s[i] == s[1..][i - 1];
      n
  }

  /** The digits after an optional sign: hexadecimal after `0x`/`0X`, decimal otherwise; `None` when there are none. */
  function UnsignedValue(s: string): Option<nat> {
    if |s| >= 2 && s[0] == '0' && (s[1] == 'x' || s[1] == 'X') then
      var n := RunLength(s[2..], IsHexDigit);
      if n == 0 then None else Some(HexValue(s[2..][..n]))
    else
      var n := RunLength(s, IsAsciiDigit);
      if n == 0 then None else Some(DigitsValue(s[..n]))
  }

  /**
   * `Number.parseInt(value)` with no radix, on a query value; `None` is
   * `NaN`. An absent value is the string "undefined", which has no digits.
   */
  function ParseInt(p: Param): Option<int> {
    if p.None? then None
    else
      var s := TrimStart(p.value);
      var negative := |s| > 0 && s[0] == '-';
      var unsigned := if |s| > 0 && (s[0] == '-' || s[0] == '+') then s[1..] else s;
      match UnsignedValue(unsigned)
      case None => None
      case Some(m) => Some(if negative then -(m as int) else m)
  }

  /** A decimal numeral `n` followed by anything that does not continue it. */
  predicate EndsNumeral(n: nat, rest: string) {
    && (|rest| == 0 || !IsAsciiDigit(rest[0]))
    && (n == 0 ==> |rest| == 0 || (rest[0] != 'x' && rest[0] != 'X'))
  }

  lemma DigitRunOfNumeral(n: nat, rest: string)
    requires EndsNumeral(n, rest)
    ensures RunLength(NatToString(n) + rest, IsAsciiDigit) == |NatToString(n)|
    ensures (NatToString(n) + rest)[..|NatToString(n)|] == NatToString(n)
  {
    var s := NatToString(n) + rest;
    var k := RunLength(s, IsAsciiDigit);
    assert forall i :: 0 <= i < |NatToString(n)| ==> s[i] == NatToString(n)[i];
    if |rest| > 0 {
      assert s[|NatToString(n)|] == rest[0];
    }
  }

  lemma NoHexPrefix(n: nat, rest: string)
    requires EndsNumeral(n, rest)
    ensures !(|NatToString(n) + rest| >= 2 && (NatToString(n) + rest)[0] == '0'
              && ((NatToString(n) + rest)[1] == 'x' || (NatToString(n) + rest)[1] == 'X'))
  {
    var t := NatToString(n);
    var s := t + rest;
    if |s| >= 2 {
      if |t| >= 2 {
        assert s[1] == t[1];
        assert IsAsciiDigit(s[1]);
      } else {
        assert s[1] == rest[0];
        if n != 0 {
          NatToStringRoundTrip(n);
          assert t[..|t| - 1] == [];
          assert DigitsValue(t) == t[0] as int - '0' as int;
          assert s[0] != '0';
        }
      }
    }
  }

  /**
   * A decimal numeral, signed or not, parses to its value whatever follows
   * it, unless what follows would make `0` a hexadecimal prefix.
   */
  lemma ParseIntNumeral(n: nat, rest: string)
    requires EndsNumeral(n, rest)
    ensures ParseInt(Some(NatToString(n) + rest)) == Some(n)
    ensures ParseInt(Some("-" + NatToString(n) + rest)) == Some(-(n as int))
  {
    var t := NatToString(n);
    var s := t + rest;
    assert s[0] == t[0] && IsAsciiDigit(t[0]);
    assert TrimStart(s) == s;
    NoHexPrefix(n, rest);
    DigitRunOfNumeral(n, rest);
    NatToStringRoundTrip(n);
    assert UnsignedValue(s) == Some(n);
    var m := "-" + t + rest;
    assert m[1..] == s;
    assert TrimStart(m) == m;
  }

  /** `parseInt(x) || d`: `NaN` and `0` are both falsy. */
  function OrDefault(v: Option<int>, d: int): int {
    if v.Some? && v.value != 0 then v.value else d
  }

  /** The listing request's parameters. */
  datatype Query = Query(
    location: Param, role: Param, politicalParty: Param, year: Param,
    search: Param, page: Param, limit: Param)

  /** The requested page, `parseInt(page) || 1`. */
  function CurrentPage(q: Query): int {
    OrDefault(ParseInt(q.page), 1)
  }

  /** The requested page size, `parseInt(limit) || 10`. */
  function ItemsPerPage(q: Query): int {
    OrDefault(ParseInt(q.limit), 10)
  }

  /** How many sorted matches precede the requested page. */
  function Skip(q: Query): int {
    (CurrentPage(q) - 1) * ItemsPerPage(q)
  }

  lemma ParseIntEmpty()
    ensures ParseInt(Some("")) == None
  {
    assert TrimStart("") == "";
    assert RunLength("", IsAsciiDigit) == 0;
  }

  /**
   * Page and page size are never zero. A page that is missing, empty, not
   * a number or `0` is page 1; a missing, empty, non-numeric or zero limit
   * is 10; a decimal page `n > 0` with limit `l > 0` skips `(n-1)*l` matches.
   */
  lemma PagingDefaults(q: Query)
    ensures CurrentPage(q) != 0 && ItemsPerPage(q) != 0
    ensures !Given(q.page) || ParseInt(q.page) == None || ParseInt(q.page) == Some(0) ==> CurrentPage(q) == 1
    ensures !Given(q.limit) || ParseInt(q.limit) == None || ParseInt(q.limit) == Some(0) ==> ItemsPerPage(q) == 10
    ensures forall n: nat, l: nat ::
              0 < n && 0 < l && q.page == Some(NatToString(n)) && q.limit == Some(NatToString(l)) ==>
                CurrentPage(q) == n && ItemsPerPage(q) == l && Skip(q) == (n - 1) * l
  {
    ParseIntEmpty();
    forall n: nat, l: nat | 0 < n && 0 < l && q.page == Some(NatToString(n)) && q.limit == Some(NatToString(l))
      ensures CurrentPage(q) == n && ItemsPerPage(q) == l
    {
      assert NatToString(n) + "" == NatToString(n);
      assert NatToString(l) + "" == NatToString(l);
      ParseIntNumeral(n, "");
      ParseIntNumeral(l, "");
    }
  }

  // ---------------------------------------------------------------------
  // Page counts and windows

  /** `Math.ceil(total / itemsPerPage)` on the exact quotient. */
  function CeilDiv(a: nat, b: int): int
    requires b != 0
  {
    if b > 0 then (a + b - 1) / b else -(a / -b)
  }

  /** `CeilDiv(a, b)` is the least integer at or above `a / b`, for either sign of `b`. */
  lemma CeilDivIsCeiling(a: nat, b: int)
    requires b != 0
    ensures b > 0 ==> (CeilDiv(a, b) - 1) * b < a <= CeilDiv(a, b) * b
    ensures b < 0 ==> CeilDiv(a, b) * b <= a < (CeilDiv(a, b) - 1) * b
  {
    if b > 0 {
      var r := (a + b - 1) / b;
      assert a + b - 1 == r * b + (a + b - 1) % b;
      assert (r - 1) * b == r * b - b;
    } else {
      var q := a / -b;
      assert a == q * -b + a % -b;
      assert (-q - 1) * b == q * -b - b;
    }
  }

  lemma MulMonotone(x: int, y: int, b: nat)
    ensures x <= y ==> x * b <= y * b
  {
    if x <= y {
      assert y * b - x * b == (y - x) * b;
    }
  }

  /** One more full page of matches adds one page to the count. */
  lemma CeilDivStep(a: nat, b: nat)
    requires 0 < b <= a
    ensures CeilDiv(a, b) == CeilDiv(a - b, b) + 1
  {
    var r := CeilDiv(a, b);
    var c := CeilDiv(a - b, b);
    CeilDivIsCeiling(a, b);
    CeilDivIsCeiling(a - b, b);
    assert (c + 1) * b == c * b + b;
    MulMonotone(r, c, b);
    MulMonotone(c + 1, r - 1, b);
  }

  lemma CeilDivSmall(a: nat, b: nat)
    requires 0 < a <= b
    ensures CeilDiv(a, b) == 1
  {
    CeilDivIsCeiling(a, b);
    MulMonotone(CeilDiv(a, b), 0, b);
    MulMonotone(2, CeilDiv(a, b), b);
  }

  /** `n` elements of `xs` starting at `skip` (what `$skip` then `$limit` keep). */
  function Slice<T>(xs: seq<T>, skip: nat, n: nat): (r: seq<T>)
    ensures |r| == if skip >= |xs| then 0 else Min(n, |xs| - skip)
    ensures forall i :: 0 <= i < |r| ==> r[i] == xs[skip + i]
  {
    if skip >= |xs| then [] else xs[skip..][..Min(n, |xs| - skip)]
  }

  function Min(a: nat, b: nat): nat {
    if a <= b then a else b
  }

  function Abs(x: int): nat {
    if x < 0 then -x else x
  }

  /**
   * The pages of a result list of `size` elements: the list cut into
   * consecutive pieces of `size`, the last one possibly shorter.
   */
  function Chunks<T>(xs: seq<T>, size: nat): seq<seq<T>>
    requires size > 0
    decreases |xs|
  {
    if |xs| == 0 then [] else [xs[..Min(size, |xs|)]] + Chunks(xs[Min(size, |xs|)..], size)
  }

  /** The pages together are the whole list, and there are `ceil(|xs| / size)` of them. */
  lemma {:induction false} ChunksCover<T>(xs: seq<T>, size: nat)
    requires size > 0
    ensures Seqs.Flatten(Chunks(xs, size)) == xs
    ensures |Chunks(xs, size)| == CeilDiv(|xs|, size)
    decreases |xs|
  {
    if |xs| > 0 {
      var k := Min(size, |xs|);
      ChunksCover(xs[k..], size);
      assert Chunks(xs, size) == [xs[..k]] + Chunks(xs[k..], size);
      Seqs.FlattenAppend([xs[..k]], Chunks(xs[k..], size));
      assert Seqs.Flatten([xs[..k]]) == xs[..k] by {
        assert [xs[..k]][..0] == [];
      }
      assert xs[..k] + xs[k..] == xs;
      if k < size || |xs| == size {
        CeilDivSmall(|xs|, size);
        assert |xs[k..]| == 0;
      } else {
        CeilDivStep(|xs|, size);
      }
    }
  }

  lemma SliceShift<T>(xs: seq<T>, d: nat, j: nat, n: nat)
    requires d <= |xs|
    ensures Slice(xs[d..], j, n) == Slice(xs, d + j, n)
  {
    var a := Slice(xs[d..], j, n);
    var b := Slice(xs, d + j, n);
    assert |a| == |b|;
    forall i | 0 <= i < |a| ensures a[i] == b[i] {
      assert a[i] == xs[d..][j + i];
    }
  }

  /** Page `p` (from 0) of the list is `Slice(xs, p * size, size)`. */
  lemma {:induction false} ChunkIsSlice<T>(xs: seq<T>, size: nat, p: nat)
    requires size > 0 && p < |Chunks(xs, size)|
    ensures Chunks(xs, size)[p] == Slice(xs, p * size, size)
    decreases p
  {
    var k := Min(size, |xs|);
    assert Chunks(xs, size) == [xs[..k]] + Chunks(xs[k..], size);
    if p == 0 {
      assert Slice(xs, 0, size) == xs[..k];
    } else {
      ChunkIsSlice(xs[k..], size, p - 1);
      assert k == size;
      var j := (p - 1) * size;
      assert j + size == p * size;
      SliceShift(xs, k, j, size);
    }
  }

  // ---------------------------------------------------------------------
  // Dates

  /**
   * A moment in the server's local time, by the fields of
   * `new Date(year, month, day, hour, minute, second, ms)`; `month` counts
   * from 0.
   */
  datatype Stamp = Stamp(year: int, month: nat, day: nat, hour: nat, minute: nat, second: nat, ms: nat)

  predicate ValidStamp(s: Stamp) {
    s.month < 12 && 1 <= s.day <= 31 && s.hour < 24 && s.minute < 60 && s.second < 60 && s.ms < 1000
  }

  /** A number that orders valid stamps chronologically (a mixed-radix reading of the fields). */
  function StampKey(s: Stamp): int {
    ((((((s.year * 12 + s.month) * 32 + s.day) * 24 + s.hour) * 60 + s.minute) * 60 + s.second) * 1000) + s.ms
  }

  /** Field-by-field chronological order. */
  predicate Earlier(a: Stamp, b: Stamp) {
    || a.year < b.year
    || (a.year == b.year && a.month < b.month)
    || (a.year == b.year && a.month == b.month && a.day < b.day)
    || (a.year == b.year && a.month == b.month && a.day == b.day && a.hour < b.hour)
    || (a.year == b.year && a.month == b.month && a.day == b.day && a.hour == b.hour && a.minute < b.minute)
    || (a.year == b.year && a.month == b.month && a.day == b.day && a.hour == b.hour && a.minute == b.minute
        && a.second < b.second)
    || (a.year == b.year && a.month == b.month && a.day == b.day && a.hour == b.hour && a.minute == b.minute
        && a.second == b.second && a.ms < b.ms)
  }

  /** On valid stamps the key's order is the calendar order. */
  lemma StampKeyOrders(a: Stamp, b: Stamp)
    requires ValidStamp(a) && ValidStamp(b)
    ensures StampKey(a) < StampKey(b) <==> Earlier(a, b)
  {
  }

  /** `new Date(y, ...)` reads a year from 0 to 99 as 1900 to 1999. */
  function FullYear(y: int): int {
    if 0 <= y <= 99 then 1900 + y else y
  }

  /** The bounds of the year filter: 1 January 00:00:00 to 31 December 23:59:59 of the year. */
  function YearStart(y: int): Stamp {
    Stamp(FullYear(y), 0, 1, 0, 0, 0, 0)
  }

  function YearEnd(y: int): Stamp {
    Stamp(FullYear(y), 11, 31, 23, 59, 59, 0)
  }

  /** `{ $gte: startDate, $lte: endDate }`. */
  predicate InYearWindow(s: Stamp, y: int) {
    StampKey(YearStart(y)) <= StampKey(s) <= StampKey(YearEnd(y))
  }

  /**
   * A valid date passes the year filter exactly when it falls in the year
   * (with 0..99 read as 1900..1999), except during the last second of
   * 31 December past its first millisecond: the upper bound has no
   * milliseconds.
   */
  lemma YearWindowSpec(s: Stamp, y: int)
    requires ValidStamp(s)
    ensures InYearWindow(s, y) <==>
      && s.year == FullYear(y)
      && !(s.month == 11 && s.day == 31 && s.hour == 23 && s.minute == 59 && s.second == 59 && s.ms > 0)
  {
    StampKeyOrders(YearStart(y), s);
    StampKeyOrders(s, YearEnd(y));
  }

  // ---------------------------------------------------------------------
  // The store

  datatype CaseDoc = CaseDoc(
    id: nat, title: string, summary: string, caseStatus: Catalogue.CaseStatus,
    institution: string, location: Option<string>, amountInvolved: Option<string>,
    dateReported: Stamp, visibility: Catalogue.Visibility)

  /** `Person.politicalAffiliation`: both parts optional. */
  datatype Affiliation = Affiliation(partyName: Option<string>, source: Option<nat>)

  datatype Person = Person(
    id: nat, fullName: string, position: Option<string>, organization: Option<string>,
    politicalAffiliation: Affiliation)

  datatype Source = Source(
    id: nat, kind: Catalogue.SourceType, publisher: string, url: string,
    publishedDate: Option<Stamp>, language: Option<string>)

  /** A `CasePerson` document; its role is kept as the stored string. */
  datatype CaseLink = CaseLink(
    caseId: nat, personId: nat, roleInCase: string, statusLabel: Catalogue.StatusLabel, sourceId: nat)

  /** The four collections, each in natural (insertion) order. */
  datatype Store = Store(cases: seq<CaseDoc>, links: seq<CaseLink>, people: seq<Person>, sources: seq<Source>)

  /**
   * What the database engine decides without the model seeing how:
   * whether a case-insensitive regular expression matches a string, and
   * whether a case matches a `$text` search.
   */
  datatype Engine = Engine(regexMatch: (string, string) -> bool, textMatch: (string, CaseDoc) -> bool)

  // ---------------------------------------------------------------------
  // Filters of `GET /cases`

  /** The year filter's bounds, present when `year` is given and parses. */
  function YearFilter(q: Query): Option<int> {
    if Given(q.year) then ParseInt(q.year) else None
  }

  /** The filters on the case document itself, shared by both paths. */
  predicate CaseLevel(e: Engine, q: Query, c: CaseDoc) {
    && c.visibility == Catalogue.Published
    && (Given(q.location) ==> c.location.Some? && e.regexMatch(q.location.value, c.location.value))
    && (YearFilter(q).Some? ==> InYearWindow(c.dateReported, YearFilter(q).value))
  }

  /** `needsPersonLookup`: some filter that needs the linked persons. */
  predicate NeedsPersonLookup(q: Query) {
    Given(q.role) || Given(q.politicalParty) || Given(q.search)
  }

  /** One entry of `filterConditions`. */
  datatype Condition = RoleIs(role: string) | PartyMatches(pattern: string) | NameMatches(pattern: string)

  /** `filterConditions`, pushed in the order role, party, name. */
  function Conditions(q: Query): seq<Condition> {
    (if Given(q.role) then [RoleIs(ToUpper(q.role.value))] else [])
    + (if Given(q.politicalParty) then [PartyMatches(q.politicalParty.value)] else [])
    + (if Given(q.search) then [NameMatches(q.search.value)] else [])
  }

  /** The `casePersons` lookup: a link of the case with the given role. */
  predicate HasRole(st: Store, caseId: nat, role: string) {
    exists i :: 0 <= i < |st.links| && st.links[i].caseId == caseId && st.links[i].roleInCase == role
  }

  /** The `persons` lookup: `p` is the person of some link of the case. */
  predicate Linked(st: Store, caseId: nat, p: Person) {
    exists i :: 0 <= i < |st.links| && st.links[i].caseId == caseId && st.links[i].personId == p.id
  }

  predicate SomePersonMatches(e: Engine, st: Store, caseId: nat, pattern: string, field: Person -> string) {
    exists j :: 0 <= j < |st.people| && Linked(st, caseId, st.people[j]) && e.regexMatch(pattern, field(st.people[j]))
  }

  function PartyOf(p: Person): string {
    p.politicalAffiliation.partyName.GetOr("")
  }

  function NameOf(p: Person): string {
    p.fullName
  }

  predicate Holds(e: Engine, st: Store, c: CaseDoc, cond: Condition) {
    match cond
    case RoleIs(r) => HasRole(st, c.id, r)
    case PartyMatches(pat) => SomePersonMatches(e, st, c.id, pat, PartyOf)
    case NameMatches(pat) => SomePersonMatches(e, st, c.id, pat, NameOf)
  }

  /** The `$expr: { $or: filterConditions }` stage, skipped when there are no conditions. */
  predicate PersonLevel(e: Engine, st: Store, c: CaseDoc, conds: seq<Condition>) {
    |conds| == 0 || exists k :: 0 <= k < |conds| && Holds(e, st, c, conds[k])
  }

  /**
   * The person conditions are OR-combined: a case passes when its linked
   * persons satisfy any one given condition; the role is compared
   * upper-cased.
   */
  lemma ConditionsAreDisjunction(e: Engine, st: Store, c: CaseDoc, q: Query)
    requires NeedsPersonLookup(q)
    ensures PersonLevel(e, st, c, Conditions(q)) <==>
      || (Given(q.role) && HasRole(st, c.id, ToUpper(q.role.value)))
      || (Given(q.politicalParty) && SomePersonMatches(e, st, c.id, q.politicalParty.value, PartyOf))
      || (Given(q.search) && SomePersonMatches(e, st, c.id, q.search.value, NameOf))
  {
    var conds := Conditions(q);
    var role := if Given(q.role) then [RoleIs(ToUpper(q.role.value))] else [];
    var party := if Given(q.politicalParty) then [PartyMatches(q.politicalParty.value)] else [];
    var name := if Given(q.search) then [NameMatches(q.search.value)] else [];
    assert conds == role + party + name;
    if Given(q.role) && HasRole(st, c.id, ToUpper(q.role.value)) {
      assert conds[0] == RoleIs(ToUpper(q.role.value));
    }
    if Given(q.politicalParty) && SomePersonMatches(e, st, c.id, q.politicalParty.value, PartyOf) {
      assert conds[|role|] == PartyMatches(q.politicalParty.value);
    }
    if Given(q.search) && SomePersonMatches(e, st, c.id, q.search.value, NameOf) {
      assert conds[|role| + |party|] == NameMatches(q.search.value);
    }
  }

  /** The joined path's match: case filters, the `$text` search when searching, then the person conditions. */
  predicate JoinedMatch(e: Engine, st: Store, q: Query, c: CaseDoc) {
    && CaseLevel(e, q, c)
    && (Given(q.search) ==> e.textMatch(q.search.value, c))
    && PersonLevel(e, st, c, Conditions(q))
  }

  /** The elements of `xs` that satisfy `keep`, in order. */
  function Where<T>(xs: seq<T>, keep: T -> bool): (r: seq<T>)
    ensures |r| <= |xs|
    ensures forall x :: x in r ==> x in xs && keep(x)
  {
    if |xs| == 0 then [] else (if keep(xs[0]) then [xs[0]] else []) + Where(xs[1..], keep)
  }

  lemma {:induction false} WhereComplete<T>(xs: seq<T>, keep: T -> bool, x: T)
    requires x in xs && keep(x)
    ensures x in Where(xs, keep)
  {
    if xs[0] != x {
      WhereComplete(xs[1..], keep, x);
    }
  }

  // ---------------------------------------------------------------------
  // `GET /cases`

  datatype Listing = Listing(count: nat, total: nat, page: int, limit: int, totalPages: int, data: seq<CaseDoc>)

  /** A 500 response (the store rejected the request) or a 404. */
  datatype Failure = ServerError | NotFound

  function DateKey(c: CaseDoc): real {
    StampKey(c.dateReported) as real
  }

  /** `sort({ dateReported: -1 })`, ties kept in store order. */
  function NewestFirst(cs: seq<CaseDoc>): seq<CaseDoc> {
    Sorting.SortDesc(cs, DateKey)
  }

  function SimpleMatches(e: Engine, st: Store, q: Query): seq<CaseDoc> {
    Where(st.cases, c => CaseLevel(e, q, c))
  }

  function JoinedMatches(e: Engine, st: Store, q: Query): seq<CaseDoc> {
    Where(st.cases, c => JoinedMatch(e, st, q, c))
  }

  /** The matches of whichever path the query takes. */
  function Matches(e: Engine, st: Store, q: Query): seq<CaseDoc> {
    if NeedsPersonLookup(q) then JoinedMatches(e, st, q) else SimpleMatches(e, st, q)
  }

  /** The reported total: the count stage emits no document for no input, which reads as 0. */
  function FacetTotal(matches: seq<CaseDoc>): nat {
    var metadata: seq<nat> := if |matches| == 0 then [] else [|matches|];
    if |metadata| > 0 && metadata[0] != 0 then metadata[0] else 0
  }

  /**
   * Skip and limit (aggregation stages on the joined path, cursor options on the simple path) on
   * the sorted matches. The aggregation rejects a negative skip and a limit
   * that is not positive; `find` rejects a negative skip and reads a
   * negative limit as `|limit|` documents in a single batch.
   */
  function Window(sorted: seq<CaseDoc>, skip: int, limit: int, joined: bool): Result<seq<CaseDoc>, Failure> {
    if skip < 0 || (joined && limit <= 0) then Err(ServerError)
    else Ok(Slice(sorted, skip, Abs(limit)))
  }

  /** A window holds at most `|limit|` elements of the list, in the list's order. */
  lemma WindowFacts(sorted: seq<CaseDoc>, skip: int, limit: int, joined: bool)
    requires Sorting.SortedDesc(sorted, DateKey)
    ensures Window(sorted, skip, limit, joined).Ok? ==>
      var w := Window(sorted, skip, limit, joined).value;
      && |w| <= Abs(limit)
      && Sorting.SortedDesc(w, DateKey)
      && (forall c :: c in w ==> c in sorted)
  {
    if Window(sorted, skip, limit, joined).Ok? {
      var w := Window(sorted, skip, limit, joined).value;
      forall c | c in w ensures c in sorted {
        var i :| 0 <= i < |w| && w[i] == c;
        assert c == sorted[skip + i];
      }
      forall i, j | 0 <= i < j < |w| ensures DateKey(w[i]) >= DateKey(w[j]) {
        assert w[i] == sorted[skip + i] && w[j] == sorted[skip + j];
      }
    }
  }

  /** The listing handler: both paths sort newest first and then page. */
  function ListCases(e: Engine, st: Store, q: Query): Result<Listing, Failure> {
    var joined := NeedsPersonLookup(q);
    var sorted := NewestFirst(Matches(e, st, q));
    var total := if joined then FacetTotal(sorted) else |Matches(e, st, q)|;
    var limit := ItemsPerPage(q);
    assert limit != 0;
    Respond(sorted, total, CurrentPage(q), limit, joined)
  }

  /** The response for one page: the window at `(page - 1) * limit`, or the window's error. */
  function Respond(sorted: seq<CaseDoc>, total: nat, page: int, limit: int, joined: bool): Result<Listing, Failure>
    requires limit != 0
  {
    match Window(sorted, (page - 1) * limit, limit, joined)
    case Err(f) => Err(f)
    case Ok(data) => Ok(Listing(|data|, total, page, limit, CeilDiv(total, limit), data))
  }

  /**
   * A listing fails only on a negative skip, or a negative limit on the
   * joined path. Otherwise it reports the page and limit asked for, at most
   * `|limit|` cases, newest first, every one of them a stored `PUBLISHED`
   * case passing the case filters (and the joined filters on that path),
   * and `total` is the number of all matches.
   */
  lemma ListCasesFacts(e: Engine, st: Store, q: Query)
    ensures ListCases(e, st, q).Err? <==> Skip(q) < 0 || (NeedsPersonLookup(q) && ItemsPerPage(q) < 0)
    ensures ListCases(e, st, q).Ok? ==>
      var l := ListCases(e, st, q).value;
      && l.page == CurrentPage(q) && l.limit == ItemsPerPage(q)
      && l.count == |l.data| <= Abs(l.limit)
      && l.total == |Matches(e, st, q)|
      && Sorting.SortedDesc(l.data, DateKey)
      && (forall c :: c in l.data ==> c in st.cases && c.visibility == Catalogue.Published && CaseLevel(e, q, c))
      && (NeedsPersonLookup(q) ==> forall c :: c in l.data ==> JoinedMatch(e, st, q, c))
  {
    var matches := Matches(e, st, q);
    var sorted := NewestFirst(matches);
    var total := if NeedsPersonLookup(q) then FacetTotal(sorted) else |matches|;
    assert total == |matches|;
    RespondFacts(sorted, total, CurrentPage(q), ItemsPerPage(q), NeedsPersonLookup(q));
    assert ListCases(e, st, q) == Respond(sorted, total, CurrentPage(q), ItemsPerPage(q), NeedsPersonLookup(q));
    forall c | c in sorted ensures c in matches {
      assert c in multiset(sorted);
    }
  }

  /** A response fails only on a negative skip, or a negative limit on the joined path; otherwise it is a window of the sorted list. */
  lemma RespondFacts(sorted: seq<CaseDoc>, total: nat, page: int, limit: int, joined: bool)
    requires limit != 0 && Sorting.SortedDesc(sorted, DateKey)
    ensures Respond(sorted, total, page, limit, joined).Err? <==> (page - 1) * limit < 0 || (joined && limit < 0)
    ensures Respond(sorted, total, page, limit, joined).Ok? ==>
      var l := Respond(sorted, total, page, limit, joined).value;
      && l.page == page && l.limit == limit && l.total == total
      && l.count == |l.data| <= Abs(limit)
      && Sorting.SortedDesc(l.data, DateKey)
      && (forall c :: c in l.data ==> c in sorted)
  {
    WindowFacts(sorted, (page - 1) * limit, limit, joined);
  }

  /**
   * With a positive limit and page, the listing's pages cut the sorted
   * matches into `totalPages` consecutive pieces that together are all of
   * them, and the requested page is the piece at its position (empty past
   * the last one).
   */
  lemma ListingPages(e: Engine, st: Store, q: Query)
    requires ItemsPerPage(q) > 0 && CurrentPage(q) >= 1
    ensures ListCases(e, st, q).Ok?
    ensures
      var l := ListCases(e, st, q).value;
      var pages := Chunks(NewestFirst(Matches(e, st, q)), l.limit);
      && Seqs.Flatten(pages) == NewestFirst(Matches(e, st, q))
      && l.totalPages == |pages|
      && l.data == (if l.page <= |pages| then pages[l.page - 1] else [])
  {
    var limit := ItemsPerPage(q);
    var page := CurrentPage(q);
    var sorted := NewestFirst(Matches(e, st, q));
    var total := if NeedsPersonLookup(q) then FacetTotal(sorted) else |Matches(e, st, q)|;
    assert total == |sorted|;
    RespondPositive(sorted, total, page, limit, NeedsPersonLookup(q));
    assert ListCases(e, st, q) == Respond(sorted, total, page, limit, NeedsPersonLookup(q));
    var l := ListCases(e, st, q).value;
    var pages := Chunks(sorted, limit);
    ChunksCover(sorted, limit);
    PageOfChunks(sorted, limit, page);
    assert l.data == (if page <= |pages| then pages[page - 1] else []);
  }

  /** With a positive limit and page, the response is the slice at `(page - 1) * limit`. */
  lemma RespondPositive(sorted: seq<CaseDoc>, total: nat, page: int, limit: int, joined: bool)
    requires limit > 0 && page >= 1
    ensures Respond(sorted, total, page, limit, joined).Ok?
    ensures
      var l := Respond(sorted, total, page, limit, joined).value;
      && l.page == page && l.limit == limit && l.totalPages == CeilDiv(total, limit)
      && l.data == Slice(sorted, (page - 1) * limit, limit)
  {
    MulMonotone(0, page - 1, limit);
  }

  /** Skipping `page - 1` pages of `size` and taking `size` gives the page's chunk, or nothing past the end. */
  lemma PageOfChunks<T>(xs: seq<T>, size: nat, page: nat)
    requires size > 0 && page >= 1
    ensures Slice(xs, (page - 1) * size, size) ==
      (if page <= |Chunks(xs, size)| then Chunks(xs, size)[page - 1] else [])
  {
    MulMonotone(0, page - 1, size);
    if page <= |Chunks(xs, size)| {
      ChunkIsSlice(xs, size, page - 1);
    } else {
      ChunksCover(xs, size);
      CeilDivIsCeiling(|xs|, size);
      MulMonotone(|Chunks(xs, size)|, page - 1, size);
    }
  }

  /** The joined path only narrows the simple path's matches. */
  lemma JoinNarrows(e: Engine, st: Store, q: Query)
    ensures forall c :: c in JoinedMatches(e, st, q) ==> c in SimpleMatches(e, st, q)
  {
    forall c | c in JoinedMatches(e, st, q) ensures c in SimpleMatches(e, st, q) {
      WhereComplete(st.cases, c => CaseLevel(e, q, c), c);
    }
  }

  /**
   * Without a role, party or search filter, the listing does not depend on
   * case-person links or persons: location and year alone never take the
   * joined path.
   */
  lemma SimplePathIgnoresPersons(e: Engine, st: Store, q: Query)
    requires !NeedsPersonLookup(q)
    ensures ListCases(e, st, q) == ListCases(e, st.(links := [], people := []), q)
  {
    assert SimpleMatches(e, st, q) == SimpleMatches(e, st.(links := [], people := []), q);
  }

  // ---------------------------------------------------------------------
  // `GET /cases/:id`

  /** The `source` part of a person's entry: the populated source's public fields. */
  datatype SourceData = SourceData(
    kind: Catalogue.SourceType, publisher: string, url: string,
    publishedDate: Option<Stamp>, language: Option<string>)

  /** `personData`: the person's fields with the link's status label and source. */
  datatype PersonData = PersonData(
    fullName: string, position: Option<string>, organization: Option<string>,
    politicalAffiliation: Affiliation, statusLabel: Catalogue.StatusLabel, source: Option<SourceData>)

  /** A case-person link after `.populate('person').populate('source')`: a missing document is `None`. */
  datatype Populated = Populated(link: CaseLink, person: Option<Person>, source: Option<Source>)

  datatype Grouped = Grouped(accused: seq<PersonData>, investigators: seq<PersonData>, witnesses: seq<PersonData>)

  /** The response body: the case with its related persons. */
  datatype CaseDetail = CaseDetail(caseItem: CaseDoc, relatedPersons: Grouped)

  /** `populate`: the first element with the given id; the store keeps ids unique. */
  function FindById<T>(xs: seq<T>, idOf: T -> nat, id: nat): (r: Option<T>)
    ensures r.Some? ==> r.value in xs && idOf(r.value) == id
    ensures r.None? ==> forall j :: 0 <= j < |xs| ==> idOf(xs[j]) != id
  {
    if |xs| == 0 then None
    else if idOf(xs[0]) == id then Some(xs[0])
    else FindById(xs[1..], idOf, id)
  }

  function PersonId(p: Person): nat { p.id }
  function SourceId(s: Source): nat { s.id }

  /** The first stored case with the id that is `PUBLISHED`. */
  function FindPublished(cases: seq<CaseDoc>, id: nat): (r: Option<CaseDoc>)
    ensures r.Some? ==> r.value in cases && r.value.id == id && r.value.visibility == Catalogue.Published
    ensures r.None? <==>
      forall j :: 0 <= j < |cases| ==> !(cases[j].id == id && cases[j].visibility == Catalogue.Published)
  {
    if |cases| == 0 then None
    else if cases[0].id == id && cases[0].visibility == Catalogue.Published then Some(cases[0])
    else
      var r := FindPublished(cases[1..], id);
      assert forall j :: 1 <= j < |cases| ==> cases[j] == cases[1..][j - 1];
      r
  }

  /** The links of a case with both references resolved. */
  function PopulatedLinks(st: Store, links: seq<CaseLink>): (ps: seq<Populated>)
    ensures |ps| == |links|
    ensures forall i :: 0 <= i < |ps| ==>
      && ps[i].link == links[i]
      && ps[i].person == FindById(st.people, PersonId, links[i].personId)
      && ps[i].source == FindById(st.sources, SourceId, links[i].sourceId)
    ensures forall i :: 0 <= i < |ps| ==>
      && (ps[i].person.Some? <==> exists p :: p in st.people && p.id == links[i].personId)
      && (ps[i].person.Some? ==> ps[i].person.value in st.people && ps[i].person.value.id == links[i].personId)
    ensures forall i :: 0 <= i < |ps| ==>
      && (ps[i].source.Some? <==> exists s :: s in st.sources && s.id == links[i].sourceId)
      && (ps[i].source.Some? ==> ps[i].source.value in st.sources && ps[i].source.value.id == links[i].sourceId)
  {
    seq(|links|, i requires 0 <= i < |links| =>
      Populated(links[i], FindById(st.people, PersonId, links[i].personId), FindById(st.sources, SourceId, links[i].sourceId)))
  }

  function SourceDataOf(src: Source): SourceData {
    SourceData(src.kind, src.publisher, src.url, src.publishedDate, src.language)
  }

  function PersonDataOf(p: Populated): PersonData
    requires p.person.Some?
  {
    var person := p.person.value;
    PersonData(
      person.fullName, person.position, person.organization, person.politicalAffiliation,
      p.link.statusLabel, if p.source.Some? then Some(SourceDataOf(p.source.value)) else None)
  }

  /** The entry a link contributes to `role`'s bucket: none without a person or with another role. */
  function EntryFor(p: Populated, role: Catalogue.Role): seq<PersonData> {
    if p.person.Some? && Catalogue.ParseRole(p.link.roleInCase) == Some(role) then [PersonDataOf(p)] else []
  }

  /** One bucket of `groupedPersons`, in link order. */
  function Bucket(ps: seq<Populated>, role: Catalogue.Role): seq<PersonData> {
    if |ps| == 0 then [] else Bucket(ps[..|ps| - 1], role) + EntryFor(ps[|ps| - 1], role)
  }

  function GroupedOf(ps: seq<Populated>): Grouped {
    Grouped(Bucket(ps, Catalogue.Accused), Bucket(ps, Catalogue.Investigator), Bucket(ps, Catalogue.Witness))
  }

  /**
   * The `forEach`: skip a link whose person is missing, push the person's
   * entry onto the bucket its role names, ignore any other role.
   */
  method GroupPersons(ps: seq<Populated>) returns (g: Grouped)
    ensures g == GroupedOf(ps)
  {
    g := Grouped([], [], []);
    var i := 0;
    while i < |ps|
      invariant 0 <= i <= |ps|
      invariant g == GroupedOf(ps[..i])
    {
      var cp := ps[i];
      assert ps[..i + 1][..i] == ps[..i];
      if cp.person.Some? {
        var personData := PersonDataOf(cp);
        match cp.link.roleInCase
        case "ACCUSED" => g := g.(accused := g.accused + [personData]);
        case "INVESTIGATOR" => g := g.(investigators := g.investigators + [personData]);
        case "WITNESS" => g := g.(witnesses := g.witnesses + [personData]);
        case _ =>
      }
      i := i + 1;
    }
    assert ps[..i] == ps;
  }

  /** Buckets keep link order: the links of `a` before those of `b`. */
  lemma {:induction false} BucketAppend(a: seq<Populated>, b: seq<Populated>, role: Catalogue.Role)
    ensures Bucket(a + b, role) == Bucket(a, role) + Bucket(b, role)
    decreases |b|
  {
    if |b| == 0 {
      assert a + b == a;
    } else {
      var b0 := b[..|b| - 1];
      var last := b[|b| - 1];
      assert (a + b)[..|a + b| - 1] == a + b0;
      assert (a + b)[|a + b| - 1] == last;
      BucketAppend(a, b0, role);
      calc {
        Bucket(a + b, role);
        Bucket(a + b0, role) + EntryFor(last, role);
        Bucket(a, role) + Bucket(b0, role) + EntryFor(last, role);
        Bucket(a, role) + (Bucket(b0, role) + EntryFor(last, role));
        Bucket(a, role) + Bucket(b, role);
      }
    }
  }

  /** An entry is in a bucket exactly when some link with a present person has that role and yields it. */
  lemma {:induction false} BucketMembers(ps: seq<Populated>, role: Catalogue.Role, d: PersonData)
    ensures d in Bucket(ps, role) <==>
      exists i :: 0 <= i < |ps| && ps[i].person.Some? && Catalogue.ParseRole(ps[i].link.roleInCase) == Some(role)
        && PersonDataOf(ps[i]) == d
  {
    if |ps| > 0 {
      var init := ps[..|ps| - 1];
      BucketMembers(init, role, d);
      if d in Bucket(init, role) {
        var i :| 0 <= i < |init| && init[i].person.Some? && Catalogue.ParseRole(init[i].link.roleInCase) == Some(role)
          && PersonDataOf(init[i]) == d;
        assert ps[i] == init[i];
      }
      if exists i :: 0 <= i < |ps| && ps[i].person.Some? && Catalogue.ParseRole(ps[i].link.roleInCase) == Some(role)
          && PersonDataOf(ps[i]) == d {
        var i :| 0 <= i < |ps| && ps[i].person.Some? && Catalogue.ParseRole(ps[i].link.roleInCase) == Some(role)
          && PersonDataOf(ps[i]) == d;
        if i < |init| {
          assert init[i] == ps[i];
        }
      }
    }
  }

  /** A link is placed when its person is present and its role is one of the three. */
  predicate Placed(p: Populated) {
    p.person.Some? && Catalogue.ParseRole(p.link.roleInCase).Some?
  }

  /** The buckets hold one entry per placed link, so together no more entries than links. */
  lemma {:induction false} BucketSizes(ps: seq<Populated>)
    ensures var g := GroupedOf(ps);
      |g.accused| + |g.investigators| + |g.witnesses| == Seqs.CountWhere(ps, Placed)
    ensures Seqs.CountWhere(ps, Placed) <= |ps|
  {
    if |ps| > 0 {
      var init := ps[..|ps| - 1];
      var last := ps[|ps| - 1];
      BucketSizes(init);
    }
  }

  /**
   * The detail handler: 404 unless a `PUBLISHED` case has the id; else the
   * case with the persons of its links grouped by role.
   */
  function GetCase(st: Store, id: nat): Result<CaseDetail, Failure> {
    match FindPublished(st.cases, id)
    case None => Err(NotFound)
    case Some(c) =>
      var links := Where(st.links, (l: CaseLink) => l.caseId == id);
      Ok(CaseDetail(c, GroupedOf(PopulatedLinks(st, links))))
  }

  /**
   * A case is served exactly when a stored `PUBLISHED` case has the id, and
   * what is served is such a case.
   */
  lemma GetCaseFacts(st: Store, id: nat)
    ensures GetCase(st, id).Err? <==>
      !exists j :: 0 <= j < |st.cases| && st.cases[j].id == id && st.cases[j].visibility == Catalogue.Published
    ensures GetCase(st, id).Err? ==> GetCase(st, id).error == NotFound
    ensures GetCase(st, id).Ok? ==>
      var c := GetCase(st, id).value.caseItem;
      c in st.cases && c.id == id && c.visibility == Catalogue.Published
  {
  }

  /**
   * Every entry of a served case's `role` bucket is the entry of a link of
   * that case carrying that role's stored name, whose person exists.
   */
  lemma GetCaseEntries(st: Store, id: nat, role: Catalogue.Role, d: PersonData)
    requires GetCase(st, id).Ok?
    requires d in Bucket(PopulatedLinks(st, Where(st.links, (l: CaseLink) => l.caseId == id)), role)
    ensures exists i ::
              && 0 <= i < |st.links| && st.links[i].caseId == id
              && st.links[i].roleInCase == Catalogue.RoleName(role)
              && FindById(st.people, PersonId, st.links[i].personId).Some?
  {
    var links := Where(st.links, (l: CaseLink) => l.caseId == id);
    var ps := PopulatedLinks(st, links);
    BucketMembers(ps, role, d);
    var k :| 0 <= k < |ps| && ps[k].person.Some? && Catalogue.ParseRole(ps[k].link.roleInCase) == Some(role)
      && PersonDataOf(ps[k]) == d;
    assert links[k] in links;
    var i :| 0 <= i < |st.links| && st.links[i] == links[k];
  }
}

=== FILE: seqs.dfy ===
/** Order-preserving duplicate removal of strings, `[...new Set(xs)]`, and flattening. */
module Seqs {

  predicate Distinct(s: seq<string>) {
    forall i, j :: 0 <= i < j < |s| ==> s[i] != s[j]
  }

  /** Left-to-right scan that drops every element already in `seen`, remembering the ones it keeps. */
  function DedupFrom(s: seq<string>, seen: set<string>): (r: seq<string>)
    ensures Distinct(r)
    ensures forall x :: x in r <==> x in s && x !in seen
  {
    if |s| == 0 then []
    else if s[0] in seen then DedupFrom(s[1..], seen)
    else
      var rest := DedupFrom(s[1..], seen + {s[0]});
      assert s[0] !in rest;
      [s[0]] + rest
  }

  /** `[...new Set(s)]`: one copy of each element, in order of first occurrence. */
  function Dedup(s: seq<string>): (r: seq<string>)
    ensures Distinct(r)
    ensures forall x :: x in r <==> x in s
  {
    DedupFrom(s, {})
  }

  /**
   * Reference definition of the same result: the elements of `s` whose
   * every earlier occurrence is absent, i.e. the first occurrences, in place.
   */
  function FirstOccurrences(s: seq<string>): seq<string>
  {
    if |s| == 0 then []
    else
      var init := s[..|s| - 1];
      FirstOccurrences(init) + (if s[|s| - 1] in init then [] else [s[|s| - 1]])
  }

  lemma {:induction false} DedupFromSnoc(a: seq<string>, x: string, seen: set<string>)
    ensures DedupFrom(a + [x], seen) == DedupFrom(a, seen) + (if x in seen || x in a then [] else [x])
    decreases |a|
  {
    if |a| == 0 {
      assert a + [x] == [x];
    } else {
      var h, t := a[0], a[1..];
      assert (a + [x])[0] == h;
      assert (a + [x])[1..] == t + [x];
      assert x in a <==> x == h || x in t;
      if h in seen {
        DedupFromSnoc(t, x, seen);
      } else {
        DedupFromSnoc(t, x, seen + {h});
      }
    }
  }

  /** The set-based scan and the first-occurrence reference definition agree on every input. */
  lemma {:induction false} DedupIsFirstOccurrences(s: seq<string>)
    ensures Dedup(s) == FirstOccurrences(s)
  {
    if |s| > 0 {
      var init := s[..|s| - 1];
      DedupIsFirstOccurrences(init);
      assert s == init + [s[|s| - 1]];
      DedupFromSnoc(init, s[|s| - 1], {});
    }
  }

  /** A sequence without repetitions passes through unchanged. */
  lemma {:induction false} DedupFromDistinct(s: seq<string>, seen: set<string>)
    requires Distinct(s)
    requires forall x :: x in s ==> x !in seen
    ensures DedupFrom(s, seen) == s
  {
    if |s| > 0 {
      assert forall x :: x in s[1..] ==> x != s[0];
      DedupFromDistinct(s[1..], seen + {s[0]});
    }
  }

  lemma DedupDistinct(s: seq<string>)
    requires Distinct(s)
    ensures Dedup(s) == s
  {
    DedupFromDistinct(s, {});
  }

  /** Deduplicating twice is deduplicating once. */
  lemma DedupIdempotent(s: seq<string>)
    ensures Dedup(Dedup(s)) == Dedup(s)
  {
    DedupDistinct(Dedup(s));
  }

  lemma AppendAssoc<T>(a: seq<T>, b: seq<T>, c: seq<T>)
    ensures a + (b + c) == (a + b) + c
  {
  }

  /** Concatenation of a sequence of sequences. */
  function Flatten<T>(ss: seq<seq<T>>): seq<T>
  {
    if |ss| == 0 then [] else Flatten(ss[..|ss| - 1]) + ss[|ss| - 1]
  }

  lemma {:induction false} FlattenAppend<T>(a: seq<seq<T>>, b: seq<seq<T>>)
    ensures Flatten(a + b) == Flatten(a) + Flatten(b)
    decreases |b|
  {
    if |b| > 0 {
      assert (a + b)[..|a + b| - 1] == a + b[..|b| - 1];
      FlattenAppend(a, b[..|b| - 1]);
    } else {
      assert a + b == a;
    }
  }

  /** Each element's outputs, in order, built from the last element back. */
  function FlatMap<A, B>(g: A -> seq<B>, xs: seq<A>): seq<B>
  {
    if |xs| == 0 then [] else FlatMap(g, xs[..|xs| - 1]) + g(xs[|xs| - 1])
  }

  /** The flat-map of a sequence is its first element's outputs followed by the flat-map of the rest. */
  lemma {:induction false} FlatMapCons<A, B>(g: A -> seq<B>, x: A, xs: seq<A>)
    ensures FlatMap(g, [x] + xs) == g(x) + FlatMap(g, xs)
    decreases |xs|
  {
    var s := [x] + xs;
    if |xs| == 0 {
      assert s[..|s| - 1] == [];
    } else {
      var init := xs[..|xs| - 1];
      assert s[..|s| - 1] == [x] + init;
      assert s[|s| - 1] == xs[|xs| - 1];
      FlatMapCons(g, x, init);
      AppendAssoc(g(x), FlatMap(g, init), g(xs[|xs| - 1]));
    }
  }

  /** Every output of every element is in the flat-map. */
  lemma {:induction false} FlatMapKeeps<A, B>(g: A -> seq<B>, xs: seq<A>, k: nat, y: B)
    requires k < |xs| && y in g(xs[k])
    ensures y in FlatMap(g, xs)
  {
    var init := xs[..|xs| - 1];
    if k < |init| {
      assert init[k] == xs[k];
      FlatMapKeeps(g, init, k, y);
    }
  }

  /** Every output of a flat-map comes from some element. */
  lemma {:induction false} FlatMapOrigin<A, B>(g: A -> seq<B>, xs: seq<A>, y: B) returns (k: nat)
    requires y in FlatMap(g, xs)
    ensures k < |xs| && y in g(xs[k])
  {
    var init := xs[..|xs| - 1];
    if y in FlatMap(g, init) {
      k := FlatMapOrigin(g, init, y);
      assert init[k] == xs[k];
    } else {
      k := |xs| - 1;
    }
  }

  /** Output `i` of a flat-map is an output of some element. */
  lemma {:induction false} FlatMapIndex<A, B>(g: A -> seq<B>, xs: seq<A>, i: nat) returns (k: nat)
    requires i < |FlatMap(g, xs)|
    ensures k < |xs| && FlatMap(g, xs)[i] in g(xs[k])
  {
    var init := xs[..|xs| - 1];
    var head := FlatMap(g, init);
    if i < |head| {
      k := FlatMapIndex(g, init, i);
      assert init[k] == xs[k];
    } else {
      k := |xs| - 1;
      assert FlatMap(g, xs)[i] == g(xs[k])[i - |head|];
    }
  }

  /** A flat-map of functions giving one output where `p` holds and none elsewhere has as many outputs as `p` has hits. */
  lemma {:induction false} FlatMapCount<A, B>(g: A -> seq<B>, p: A -> bool, xs: seq<A>)
    requires forall x :: |g(x)| == if p(x) then 1 else 0
    ensures |FlatMap(g, xs)| == CountWhere(xs, p)
  {
    if |xs| > 0 {
      FlatMapCount(g, p, xs[..|xs| - 1]);
    }
  }

  /** Each element's outputs, in order, tagged with its position. */
  function FlatMapIndexed<A, B>(g: (nat, A) -> seq<B>, xs: seq<A>, start: nat): seq<B>
    decreases |xs|
  {
    if |xs| == 0 then [] else g(start, xs[0]) + FlatMapIndexed(g, xs[1..], start + 1)
  }

  lemma {:induction false} FlatMapIndexedAppend<A, B>(g: (nat, A) -> seq<B>, a: seq<A>, b: seq<A>, start: nat)
    ensures FlatMapIndexed(g, a + b, start) == FlatMapIndexed(g, a, start) + FlatMapIndexed(g, b, start + |a|)
    decreases |a|
  {
    if |a| == 0 {
      assert a + b == b;
    } else {
      assert (a + b)[0] == a[0];
      assert (a + b)[1..] == a[1..] + b;
      FlatMapIndexedAppend(g, a[1..], b, start + 1);
    }
  }

  /** A flat-map whose function ignores the position gives the same result from any start. */
  lemma {:induction false} FlatMapIndexedShift<A, B>(g: (nat, A) -> seq<B>, xs: seq<A>, s1: nat, s2: nat)
    requires forall k: nat, x: A :: g(k, x) == g(0, x)
    ensures FlatMapIndexed(g, xs, s1) == FlatMapIndexed(g, xs, s2)
    decreases |xs|
  {
    if |xs| > 0 {
      FlatMapIndexedShift(g, xs[1..], s1 + 1, s2 + 1);
    }
  }

  /** For a function that ignores the position, the flat-map of a concatenation is the two flat-maps concatenated. */
  lemma FlatMapIndexedAppendUnshifted<A, B>(g: (nat, A) -> seq<B>, a: seq<A>, b: seq<A>)
    requires forall k: nat, x: A :: g(k, x) == g(0, x)
    ensures FlatMapIndexed(g, a + b, 0) == FlatMapIndexed(g, a, 0) + FlatMapIndexed(g, b, 0)
  {
    FlatMapIndexedAppend(g, a, b, 0);
    FlatMapIndexedShift(g, b, |a|, 0);
  }

  /** Element `i` contributes its outputs between those of the elements before and after it. */
  lemma FlatMapIndexedSplit<A, B>(g: (nat, A) -> seq<B>, xs: seq<A>, start: nat, i: nat)
    requires i < |xs|
    ensures FlatMapIndexed(g, xs, start) ==
      FlatMapIndexed(g, xs[..i], start) + g(start + i, xs[i]) + FlatMapIndexed(g, xs[i + 1..], start + i + 1)
  {
    assert xs == xs[..i] + ([xs[i]] + xs[i + 1..]);
    FlatMapIndexedAppend(g, xs[..i], [xs[i]] + xs[i + 1..], start);
    FlatMapIndexedAppend(g, [xs[i]], xs[i + 1..], start + i);
    assert FlatMapIndexed(g, [xs[i]], start + i) == g(start + i, xs[i]) by {
      assert [xs[i]][1..] == [];
    }
  }

  /** Every output of a flat-map was produced by some element at some position. */
  lemma {:induction false} FlatMapIndexedMember<A, B>(g: (nat, A) -> seq<B>, xs: seq<A>, start: nat, y: B)
    requires y in FlatMapIndexed(g, xs, start)
    ensures exists k :: 0 <= k < |xs| && y in g(start + k, xs[k])
    decreases |xs|
  {
    if y !in g(start, xs[0]) {
      FlatMapIndexedMember(g, xs[1..], start + 1, y);
      var k :| 0 <= k < |xs[1..]| && y in g(start + 1 + k, xs[1..][k]);
      assert y in g(start + (k + 1), xs[k + 1]);
    }
  }

  /** The number of elements satisfying `p`. */
  function CountWhere<T>(xs: seq<T>, p: T -> bool): (n: nat)
    ensures n <= |xs|
  {
    if |xs| == 0 then 0 else CountWhere(xs[..|xs| - 1], p) + (if p(xs[|xs| - 1]) then 1 else 0)
  }

  lemma {:induction false} CountWhereAppend<T>(a: seq<T>, b: seq<T>, p: T -> bool)
    ensures CountWhere(a + b, p) == CountWhere(a, p) + CountWhere(b, p)
    decreases |b|
  {
    if |b| > 0 {
      assert (a + b)[..|a + b| - 1] == a + b[..|b| - 1];
      CountWhereAppend(a, b[..|b| - 1], p);
    } else {
      assert a + b == a;
    }
  }

  /** The count reaches the length exactly when every element passes. */
  lemma {:induction false} CountWhereAll<T>(xs: seq<T>, p: T -> bool)
    ensures CountWhere(xs, p) == |xs| <==> forall i :: 0 <= i < |xs| ==> p(xs[i])
  {
    if |xs| > 0 {
      var init := xs[..|xs| - 1];
      CountWhereAll(init, p);
      assert forall i :: 0 <= i < |init| ==> init[i] == xs[i];
    }
  }

  /** The count is zero exactly when no element passes. */
  lemma {:induction false} CountWhereNone<T>(xs: seq<T>, p: T -> bool)
    ensures CountWhere(xs, p) == 0 <==> forall i :: 0 <= i < |xs| ==> !p(xs[i])
  {
    if |xs| > 0 {
      var init := xs[..|xs| - 1];
      CountWhereNone(init, p);
      assert forall i :: 0 <= i < |init| ==> init[i] == xs[i];
    }
  }
}

=== FILE: sorting.dfy ===
/**
 * A stable sort by a numeric key into
 * descending key order, written as an insertion sort over sequences.
 */
module Sorting {

  predicate SortedDesc<T>(s: seq<T>, key: T -> real) {
    forall i, j :: 0 <= i < j < |s| ==> key(s[i]) >= key(s[j])
  }

  /** Places `x` before the first element whose key is not greater than its own. */
  function Insert<T>(x: T, s: seq<T>, key: T -> real): (r: seq<T>)
    requires SortedDesc(s, key)
    ensures |r| == |s| + 1
    ensures multiset(r) == multiset(s) + multiset{x}
    ensures SortedDesc(r, key)
  {
    if |s| == 0 then [x]
    else if key(s[0]) <= key(x) then
      [x] + s
    else
      SortedTail(s, key);
      var rest := Insert(x, s[1..], key);
      assert s == [s[0]] + s[1..];
      BoundedByMultiset(rest, s[1..], x, key, key(s[0]));
      SortedCons(s[0], rest, key);
      [s[0]] + rest
  }

  /** Every element of `r` is bounded when `r` holds only `x` and elements of `s`, all bounded. */
  lemma BoundedByMultiset<T>(r: seq<T>, s: seq<T>, x: T, key: T -> real, b: real)
    requires multiset(r) == multiset(s) + multiset{x}
    requires key(x) <= b && forall i :: 0 <= i < |s| ==> key(s[i]) <= b
    ensures forall j :: 0 <= j < |r| ==> key(r[j]) <= b
  {
    forall j | 0 <= j < |r| ensures key(r[j]) <= b {
      assert r[j] in multiset(r);
      if r[j] != x {
        assert r[j] in multiset(s);
      }
    }
  }

  lemma SortedCons<T>(a: T, t: seq<T>, key: T -> real)
    requires SortedDesc(t, key) && forall j :: 0 <= j < |t| ==> key(t[j]) <= key(a)
    ensures SortedDesc([a] + t, key)
  {
  }

  /** Stable descending sort. */
  function SortDesc<T>(s: seq<T>, key: T -> real): (r: seq<T>)
    ensures |r| == |s|
    ensures multiset(r) == multiset(s)
    ensures SortedDesc(r, key)
  {
    if |s| == 0 then []
    else
      assert s == [s[0]] + s[1..];
      Insert(s[0], SortDesc(s[1..], key), key)
  }

  /** The elements whose key is `v`, in their order in `s`. */
  function WithKey<T>(s: seq<T>, key: T -> real, v: real): seq<T>
  {
    if |s| == 0 then [] else (if key(s[0]) == v then [s[0]] else []) + WithKey(s[1..], key, v)
  }

  lemma {:induction false} WithKeyAppend<T>(a: seq<T>, b: seq<T>, key: T -> real, v: real)
    ensures WithKey(a + b, key, v) == WithKey(a, key, v) + WithKey(b, key, v)
    decreases |a|
  {
    if |a| == 0 {
      assert a + b == b;
    } else {
      assert a + b == [a[0]] + (a[1..] + b);
      assert a == [a[0]] + a[1..];
      WithKeyCons(a[0], a[1..] + b, key, v);
      WithKeyCons(a[0], a[1..], key, v);
      WithKeyAppend(a[1..], b, key, v);
    }
  }

  /**
   * `Insert` puts `x` after every element whose key is greater than its
   * own and before every element whose key equals it.
   */
  lemma {:induction false} InsertStable<T>(x: T, s: seq<T>, key: T -> real, v: real)
    requires SortedDesc(s, key)
    ensures WithKey(Insert(x, s, key), key, v) == (if key(x) == v then [x] else []) + WithKey(s, key, v)
    decreases |s|
  {
    if |s| == 0 {
      WithKeyCons(x, [], key, v);
    } else if key(s[0]) <= key(x) {
      InsertFront(x, s, key);
      WithKeyCons(x, s, key, v);
    } else {
      var rest := Insert(x, s[1..], key);
      InsertPast(x, s, key);
      InsertStable(x, s[1..], key, v);
      WithKeyCons(s[0], rest, key, v);
      WithKeyCons(s[0], s[1..], key, v);
      assert [s[0]] + s[1..] == s;
    }
  }

  lemma WithKeyCons<T>(a: T, t: seq<T>, key: T -> real, v: real)
    ensures WithKey([a] + t, key, v) == (if key(a) == v then [a] else []) + WithKey(t, key, v)
  {
    assert ([a] + t)[1..] == t;
  }

  lemma InsertFront<T>(x: T, s: seq<T>, key: T -> real)
    requires SortedDesc(s, key) && |s| > 0 && key(s[0]) <= key(x)
    ensures Insert(x, s, key) == [x] + s
  {
  }

  lemma InsertPast<T>(x: T, s: seq<T>, key: T -> real)
    requires SortedDesc(s, key) && |s| > 0 && key(s[0]) > key(x)
    ensures SortedDesc(s[1..], key)
    ensures Insert(x, s, key) == [s[0]] + Insert(x, s[1..], key)
  {
    SortedTail(s, key);
  }

  lemma SortedTail<T>(s: seq<T>, key: T -> real)
    requires SortedDesc(s, key) && |s| > 0
    ensures SortedDesc(s[1..], key)
    ensures forall i :: 0 <= i < |s[1..]| ==> key(s[1..][i]) <= key(s[0])
  {
  }

  /**
   * The sort is stable: for every key value, the elements with that key
   * keep their input order.
   */
  lemma {:induction false} SortStable<T>(s: seq<T>, key: T -> real, v: real)
    ensures WithKey(SortDesc(s, key), key, v) == WithKey(s, key, v)
  {
    if |s| > 0 {
      SortStable(s[1..], key, v);
      InsertStable(s[0], SortDesc(s[1..], key), key, v);
    }
  }

  /** Cutting a sequence cuts each key's subsequence to a prefix. */
  lemma {:induction false} WithKeyPrefix<T>(s: seq<T>, k: nat, key: T -> real, v: real)
    requires k <= |s|
    ensures WithKey(s[..k], key, v) <= WithKey(s, key, v)
  {
    assert s == s[..k] + s[k..];
    WithKeyAppend(s[..k], s[k..], key, v);
  }

  /** The first `n` elements of the descending sort (`.slice(0, n)`). */
  function TopN<T>(s: seq<T>, key: T -> real, n: nat): (r: seq<T>)
    ensures |r| == if |s| <= n then |s| else n
    ensures SortedDesc(r, key)
    ensures multiset(r) <= multiset(s)
    ensures forall i, y :: 0 <= i < |r| && y in multiset(s) - multiset(r) ==> key(y) <= key(r[i])
  {
    var sorted := SortDesc(s, key);
    var k := if |sorted| <= n then |sorted| else n;
    SplitDominates(sorted, k, key);
    sorted[..k]
  }

  /**
   * Ties are kept in input order: for every key value, the listed elements
   * with that key are the first ones of the input with that key.
   */
  lemma TopNStable<T>(s: seq<T>, key: T -> real, n: nat, v: real)
    ensures WithKey(TopN(s, key, n), key, v) <= WithKey(s, key, v)
  {
    var sorted := SortDesc(s, key);
    var k := if |sorted| <= n then |sorted| else n;
    WithKeyPrefix(sorted, k, key, v);
    SortStable(s, key, v);
  }

  /**
   * Cutting a descending sequence at `k`: the two halves partition its
   * elements and nothing after the cut outranks anything before it.
   */
  lemma SplitDominates<T>(s: seq<T>, k: nat, key: T -> real)
    requires SortedDesc(s, key) && k <= |s|
    ensures multiset(s[..k]) <= multiset(s)
    ensures forall i, y :: 0 <= i < k && y in multiset(s) - multiset(s[..k]) ==> key(y) <= key(s[..k][i])
  {
    assert s == s[..k] + s[k..];
    forall i, y | 0 <= i < k && y in multiset(s) - multiset(s[..k])
      ensures key(y) <= key(s[..k][i])
    {
      assert y in multiset(s[k..]);
      var j :| k <= j < |s| && s[j] == y;
    }
  }
}

=== FILE: tally.dfy ===
/**
 * Keyed counters as the scripts build them in a plain object, one counter per key:
 * an association list in first-insertion order.
 */
module Tally {
  import Seqs

  type Tally = seq<(string, nat)>

  predicate DistinctKeys(t: Tally) {
    forall i, j :: 0 <= i < j < |t| ==> t[i].0 != t[j].0
  }

  /** Sum of all counters. */
  function Total(t: Tally): nat {
    if |t| == 0 then 0 else Total(t[..|t| - 1]) + t[|t| - 1].1
  }

  /** Value of the counter for `k`, `0` when it has never been touched. */
  function CountOf(t: Tally, k: string): nat {
    if |t| == 0 then 0
    else (if t[|t| - 1].0 == k then t[|t| - 1].1 else 0) + CountOf(t[..|t| - 1], k)
  }

  /** Add `n` to the counter of `k`, creating it at 0 first when absent. */
  function Bump(t: Tally, k: string, n: nat): Tally
  {
    if |t| == 0 then [(k, n)]
    else if t[0].0 == k then [(k, t[0].1 + n)] + t[1..]
    else [t[0]] + Bump(t[1..], k, n)
  }

  lemma {:induction false} TotalAppend(a: Tally, b: Tally)
    ensures Total(a + b) == Total(a) + Total(b)
    decreases |b|
  {
    if |b| > 0 {
      assert (a + b)[..|a + b| - 1] == a + b[..|b| - 1];
      TotalAppend(a, b[..|b| - 1]);
    } else {
      assert a + b == a;
    }
  }

  lemma {:induction false} CountOfAppend(a: Tally, b: Tally, k: string)
    ensures CountOf(a + b, k) == CountOf(a, k) + CountOf(b, k)
    decreases |b|
  {
    if |b| > 0 {
      assert (a + b)[..|a + b| - 1] == a + b[..|b| - 1];
      CountOfAppend(a, b[..|b| - 1], k);
    } else {
      assert a + b == a;
    }
  }

  /** Bumping a counter by `n` raises the sum of all counters by exactly `n`. */
  lemma {:induction false} BumpTotal(t: Tally, k: string, n: nat)
    ensures Total(Bump(t, k, n)) == Total(t) + n
  {
    if |t| == 0 {
    } else {
      TotalAppend([t[0]], t[1..]);
      assert t == [t[0]] + t[1..];
      if t[0].0 == k {
        TotalAppend([(k, t[0].1 + n)], t[1..]);
      } else {
        BumpTotal(t[1..], k, n);
        TotalAppend([t[0]], Bump(t[1..], k, n));
      }
    }
  }

  /** Bumping `k` by `n` raises `k`'s counter by `n` and leaves every other counter alone. */
  lemma {:induction false} BumpCount(t: Tally, k: string, n: nat, q: string)
    ensures CountOf(Bump(t, k, n), q) == CountOf(t, q) + (if q == k then n else 0)
  {
    if |t| == 0 {
    } else {
      CountOfAppend([t[0]], t[1..], q);
      assert t == [t[0]] + t[1..];
      if t[0].0 == k {
        CountOfAppend([(k, t[0].1 + n)], t[1..], q);
      } else {
        BumpCount(t[1..], k, n, q);
        CountOfAppend([t[0]], Bump(t[1..], k, n), q);
      }
    }
  }

  /** Bumping never creates a second counter for the same key. */
  lemma {:induction false} BumpKeepsKeysDistinct(t: Tally, k: string, n: nat)
    requires DistinctKeys(t)
    ensures DistinctKeys(Bump(t, k, n))
    ensures forall i :: 0 <= i < |Bump(t, k, n)| ==> Bump(t, k, n)[i].0 == k || exists j :: 0 <= j < |t| && t[j].0 == Bump(t, k, n)[i].0
  {
    if |t| > 0 && t[0].0 != k {
      BumpKeepsKeysDistinct(t[1..], k, n);
      var r := Bump(t[1..], k, n);
      forall i | 0 <= i < |r| ensures r[i].0 != t[0].0 {
        if r[i].0 != k {
          var j :| 0 <= j < |t[1..]| && t[1..][j].0 == r[i].0;
          assert t[j + 1].0 == r[i].0;
        }
      }
    }
  }

  /** The keys of a counter table, in insertion order: `Object.keys` of the object it models. */
  function KeysOf(t: Tally): seq<string>
  {
    seq(|t|, i requires 0 <= i < |t| => t[i].0)
  }

  /** Bumping keeps the existing keys in place and appends `k` at the end when it is new. */
  lemma {:induction false} BumpKeys(t: Tally, k: string, n: nat)
    ensures KeysOf(Bump(t, k, n)) == KeysOf(t) + (if k in KeysOf(t) then [] else [k])
  {
    if |t| > 0 {
      assert KeysOf(t) == [t[0].0] + KeysOf(t[1..]);
      if t[0].0 != k {
        BumpKeys(t[1..], k, n);
        assert KeysOf(Bump(t, k, n)) == [t[0].0] + KeysOf(Bump(t[1..], k, n));
      } else {
        assert KeysOf(Bump(t, k, n)) == [k] + KeysOf(t[1..]);
      }
    }
  }

  /** Counting occurrences: one `Bump(key, 1)` per element, in order. */
  function CountBy(keys: seq<string>): Tally
  {
    if |keys| == 0 then [] else Bump(CountBy(keys[..|keys| - 1]), keys[|keys| - 1], 1)
  }

  /** The counters of `CountBy` sum to the number of elements counted. */
  lemma {:induction false} CountByTotal(keys: seq<string>)
    ensures Total(CountBy(keys)) == |keys|
  {
    if |keys| > 0 {
      CountByTotal(keys[..|keys| - 1]);
      BumpTotal(CountBy(keys[..|keys| - 1]), keys[|keys| - 1], 1);
    }
  }

  /** Each counter of `CountBy` is the number of occurrences of its key. */
  lemma {:induction false} CountByCounts(keys: seq<string>, q: string)
    ensures CountOf(CountBy(keys), q) == multiset(keys)[q]
  {
    if |keys| > 0 {
      var init := keys[..|keys| - 1];
      CountByCounts(init, q);
      BumpCount(CountBy(init), keys[|keys| - 1], 1, q);
      assert keys == init + [keys[|keys| - 1]];
    }
  }

  lemma {:induction false} CountByDistinct(keys: seq<string>)
    ensures DistinctKeys(CountBy(keys))
  {
    if |keys| > 0 {
      CountByDistinct(keys[..|keys| - 1]);
      BumpKeepsKeysDistinct(CountBy(keys[..|keys| - 1]), keys[|keys| - 1], 1);
    }
  }

  /** The counters of `CountBy` appear in the order their keys were first met. */
  lemma {:induction false} CountByKeys(keys: seq<string>)
    ensures KeysOf(CountBy(keys)) == Seqs.FirstOccurrences(keys)
  {
    if |keys| > 0 {
      var init := keys[..|keys| - 1];
      CountByKeys(init);
      BumpKeys(CountBy(init), keys[|keys| - 1], 1);
      Seqs.DedupIsFirstOccurrences(init);
    }
  }

  /** `Object.keys` of the counting object is the duplicate-free list of the keys, in order of first occurrence. */
  lemma CountByOrder(keys: seq<string>)
    ensures KeysOf(CountBy(keys)) == Seqs.Dedup(keys)
  {
    CountByKeys(keys);
    Seqs.DedupIsFirstOccurrences(keys);
  }
}

=== FILE: text.dfy ===
/**
 * String primitives the scripts use through JavaScript's String API:
 * `startsWith`/`endsWith`/`includes`, `trim`, ASCII case mapping,
 * `split('/').pop()`, `Array.join`, and decimal rendering of integers.
 */
module Text {

  predicate StartsWith(s: string, p: string) {
    |p| <= |s| && s[..|p|] == p
  }

  predicate EndsWith(s: string, p: string) {
    |p| <= |s| && s[|s| - |p|..] == p
  }

  /** `s.includes(p)`: `p` occurs somewhere in `s`. */
  predicate Contains(s: string, p: string) {
    exists i :: 0 <= i <= |s| && StartsWith(s[i..], p)
  }

  /** `s.includes(p)` computed by a left-to-right scan. */
  function ContainsScan(s: string, p: string): (b: bool)
    ensures b <==> Contains(s, p)
    decreases |s|
  {
    if StartsWith(s, p) then
      assert StartsWith(s[0..], p);
      true
    else if |s| == 0 then
      false
    else
      var b := ContainsScan(s[1..], p);
      assert forall i :: 1 <= i <= |s| ==> s[i..] == s[1..][i - 1..];
      assert b ==> (exists i :: 1 <= i <= |s| && StartsWith(s[i..], p));
      b
  }

  // ---------------------------------------------------------------------
  // Whitespace and String.prototype.trim

  /** The characters ECMAScript's `trim` and regex `\s` treat as white space or line terminators. */
  predicate IsJsSpace(c: char) {
    || c == ' ' || c == '\t' || c == '\n' || c == '\r' || c == '\U{000B}' || c == '\U{000C}'
    || c == '\U{00A0}' || c == '\U{1680}' || ('\U{2000}' <= c <= '\U{200A}')
    || c == '\U{2028}' || c == '\U{2029}' || c == '\U{202F}' || c == '\U{205F}'
    || c == '\U{3000}' || c == '\U{FEFF}'
  }

  /** Drops leading white space: the result is the suffix of `s` after its longest all-space prefix. */
  function TrimStart(s: string): (r: string)
    ensures |r| <= |s|
    ensures |r| > 0 ==> !IsJsSpace(r[0])
  {
    if |s| > 0 && IsJsSpace(s[0]) then TrimStart(s[1..]) else s
  }

  /** `TrimStart` keeps a suffix of its input and drops only white space. */
  lemma {:induction false} TrimStartDropsSpace(s: string)
    ensures TrimStart(s) == s[|s| - |TrimStart(s)|..]
    ensures forall k :: 0 <= k < |s| - |TrimStart(s)| ==> IsJsSpace(s[k])
  {
    if |s| > 0 && IsJsSpace(s[0]) {
      TrimStartDropsSpace(s[1..]);
      assert forall k :: 1 <= k < |s| - |TrimStart(s)| ==> s[k] == s[1..][k - 1];
    }
  }

  /** Drops trailing white space: the result is the prefix of `s` before its longest all-space suffix. */
  function TrimEnd(s: string): (r: string)
    ensures |r| <= |s|
    ensures |r| > 0 ==> !IsJsSpace(r[|r| - 1])
  {
    if |s| > 0 && IsJsSpace(s[|s| - 1]) then TrimEnd(s[..|s| - 1]) else s
  }

  /** `TrimEnd` keeps a prefix of its input and drops only white space. */
  lemma {:induction false} TrimEndDropsSpace(s: string)
    ensures TrimEnd(s) == s[..|TrimEnd(s)|]
    ensures forall k :: |TrimEnd(s)| <= k < |s| ==> IsJsSpace(s[k])
  {
    if |s| > 0 && IsJsSpace(s[|s| - 1]) {
      TrimEndDropsSpace(s[..|s| - 1]);
    }
  }

  /** `s.trim()`. */
  function Trim(s: string): string {
    TrimEnd(TrimStart(s))
  }

  /** `trim` leaves no white space at either end of its result. */
  lemma TrimBoundaries(s: string)
    ensures var r := Trim(s); |r| > 0 ==> !IsJsSpace(r[0]) && !IsJsSpace(r[|r| - 1])
  {
    var t := TrimStart(s);
    var r := TrimEnd(t);
    TrimEndDropsSpace(t);
    if |r| > 0 {
      assert r[0] == t[0];
    }
  }

  /** Trimming is the identity on a string with no white space at either end. */
  lemma TrimOfTrimmed(s: string)
    requires |s| > 0 ==> !IsJsSpace(s[0]) && !IsJsSpace(s[|s| - 1])
    ensures Trim(s) == s
  {
  }

  /** `trim` is idempotent. */
  lemma TrimIdempotent(s: string)
    ensures Trim(Trim(s)) == Trim(s)
  {
    TrimBoundaries(s);
    TrimOfTrimmed(Trim(s));
  }

  // ---------------------------------------------------------------------
  // Case mapping (ASCII letters only)

  function LowerChar(c: char): char {
    if 'A' <= c <= 'Z' then (c as int + 32) as char else c
  }

  function UpperChar(c: char): char {
    if 'a' <= c <= 'z' then (c as int - 32) as char else c
  }

  /** `s.toLowerCase()` on ASCII letters; every other character is kept. */
  function ToLower(s: string): (r: string)
    ensures |r| == |s| && forall i :: 0 <= i < |s| ==> r[i] == LowerChar(s[i])
  {
    seq(|s|, i requires 0 <= i < |s| => LowerChar(s[i]))
  }

  /** `s.toUpperCase()` on ASCII letters; every other character is kept. */
  function ToUpper(s: string): (r: string)
    ensures |r| == |s| && forall i :: 0 <= i < |s| ==> r[i] == UpperChar(s[i])
  {
    seq(|s|, i requires 0 <= i < |s| => UpperChar(s[i]))
  }

  // ---------------------------------------------------------------------
  // split('/').pop() and Array.prototype.join

  /** `s.split('/').pop()`: what follows the last `/`, or all of `s` when it has none. */
  function LastSegment(s: string): (r: string)
    ensures |r| <= |s| && r == s[|s| - |r|..]
    ensures '/' !in r
    ensures |r| < |s| ==> s[|s| - |r| - 1] == '/'
  {
    if |s| == 0 || s[|s| - 1] == '/' then []
    else LastSegment(s[..|s| - 1]) + [s[|s| - 1]]
  }

  /** `parts.join(sep)`. */
  function Join(parts: seq<string>, sep: char): string
  {
    if |parts| == 0 then []
    else if |parts| == 1 then parts[0]
    else parts[0] + [sep] + Join(parts[1..], sep)
  }

  predicate Free(s: string, sep: char) {
    sep !in s
  }

  /** Position of the first `c` in `s`, or `|s|` when there is none. */
  function FirstIndex(s: string, c: char): (k: nat)
    ensures k <= |s|
    ensures forall i :: 0 <= i < k ==> s[i] != c
    ensures k < |s| ==> s[k] == c
  {
    if |s| == 0 || s[0] == c then 0 else 1 + FirstIndex(s[1..], c)
  }

  lemma {:induction false} FirstIndexAfterFree(x: string, u: string, sep: char)
    requires sep !in x
    ensures FirstIndex(x + [sep] + u, sep) == |x|
  {
    var a := x + [sep] + u;
    var k := FirstIndex(a, sep);
    assert a[|x|] == sep;
  }

  /** Two strings with no `sep` that are followed by `sep` are recovered from the concatenation. */
  lemma SplitAtFirstSeparator(x: string, y: string, u: string, v: string, sep: char)
    requires sep !in x && sep !in y
    requires x + [sep] + u == y + [sep] + v
    ensures x == y && u == v
  {
    var a := x + [sep] + u;
    FirstIndexAfterFree(x, u, sep);
    FirstIndexAfterFree(y, v, sep);
    assert |x| == |y|;
    assert x == a[..|x|] == y;
    assert u == a[|x| + 1..] == v;
  }

  /** A separator-free last part cannot equal a joined string of two or more parts. */
  lemma JoinMultipleHasSeparator(parts: seq<string>, sep: char)
    requires |parts| >= 2
    ensures sep in Join(parts, sep)
  {
    assert Join(parts, sep)[|parts[0]|] == sep;
  }

  /**
   * Joining equally many separator-free parts is injective: the parts are
   * recovered from the joined string.
   */
  lemma {:induction false} JoinInjective(a: seq<string>, b: seq<string>, sep: char)
    requires |a| == |b|
    requires forall i :: 0 <= i < |a| ==> Free(a[i], sep)
    requires forall i :: 0 <= i < |b| ==> Free(b[i], sep)
    requires Join(a, sep) == Join(b, sep)
    ensures a == b
  {
    if |a| == 0 {
    } else if |a| == 1 {
    } else {
      SplitAtFirstSeparator(a[0], b[0], Join(a[1..], sep), Join(b[1..], sep), sep);
      JoinInjective(a[1..], b[1..], sep);
      assert a == [a[0]] + a[1..];
      assert b == [b[0]] + b[1..];
    }
  }

  // ---------------------------------------------------------------------
  // Decimal digits

  predicate IsAsciiDigit(c: char) {
    '0' <= c <= '9'
  }

  predicate AllDigits(s: string) {
    forall i :: 0 <= i < |s| ==> IsAsciiDigit(s[i])
  }

  function DigitChar(d: nat): (c: char)
    requires d < 10
    ensures IsAsciiDigit(c)
  {
    ('0' as int + d) as char
  }

  /** The number a run of ASCII digits denotes. */
  function DigitsValue(s: string): nat
    requires AllDigits(s)
  {
    if |s| == 0 then 0
    else DigitsValue(s[..|s| - 1]) * 10 + (s[|s| - 1] as int - '0' as int)
  }

  /** `String(n)` for a natural number. */
  function NatToString(n: nat): (s: string)
    ensures |s| > 0 && AllDigits(s)
    ensures '_' !in s && '/' !in s
  {
    if n < 10 then [DigitChar(n)] else NatToString(n / 10) + [DigitChar(n % 10)]
  }

  /** Reading back the rendered digits gives the number: rendering loses nothing. */
  lemma {:induction false} NatToStringRoundTrip(n: nat)
    ensures DigitsValue(NatToString(n)) == n
  {
    var s := NatToString(n);
    if n >= 10 {
      NatToStringRoundTrip(n / 10);
      assert s[..|s| - 1] == NatToString(n / 10);
    }
  }

  lemma NatToStringInjective(a: nat, b: nat)
    requires NatToString(a) == NatToString(b)
    ensures a == b
  {
    NatToStringRoundTrip(a);
    NatToStringRoundTrip(b);
  }
}
